=== FILE: README.md ===
# Pen input to Morphic actions: a Dafny model

This project models the stroke-to-action core of a pen-input prototype for
the Morphic widget world. Two copies of the prototype exist: the
`InkMorphicJS` tree and the `js` tree. A user writes or draws on a canvas
over the world. The canvas wrapper routes the pen's pointer events to a
stroke manager. The stroke manager groups the ink and runs a set of
recognizers over each group. Each recognised text is then turned into a menu
of actions on the morph under the ink: fuzzy matches of the morph's
function names, "Make new …" entries on the world, gestures such as `x` for
`destroy`, and the literal text itself.

One Dafny module stands for each piece of that core:

| module | file | what it holds |
|---|---|---|
| `JsText` | `js_text.dfy` | the JavaScript string and array primitives the code relies on (`toLowerCase`, `\s` replacement, `slice`, `indexOf`, camelCase and underscore splitting, `sort`, `_.uniq`, `_.flatten`, `_.compact`, `find`) |
| `Levenshtein` | `levenshtein.dfy` | `levenshteinDistance` as the matrix-filling method it is, proved equal to the textbook edit distance |
| `Targets` | `targets.dfy` | a target object as its enumerated keys, `_.functions`, and `getParamNames` on comment-free function text |
| `FuzzyMatch` | `fuzzy_match.dfy` | both `fuzzyMatchesFromList` variants and `fuzzyMatchFunctions` |
| `MorphicExt` | `morphic_ext.dfy` | `findFunctionCandidates` of Morph and WorldMorph in both trees, `makeFunctionFor`, `fillHelpMenu`, and the "Run" message of a parameter call |
| `Recognizers` | `recognizers.dfy` | the js tree's `recognize` flag, `getSymbolicFunction`, `showStrokeRecognitions`, and `sendMessage` |
| `Assistant` | `assistant.dfy` | `makeTarget` and `Assistant.showHelp` |
| `Strokes` | `strokes.dfy` | `getStrokeBounds`, ink-point tagging, `colorToCSS` and `fromNameOrHex` |
| `StrokeStore` | `stroke_store.dfy` | the ink half of `StrokeManager`: held strokes, mode, style, forwarded pointer calls, and `deleteStrokes` |
| `RecognitionPass` | `recognition_pass.dfy` | what both copies of `recognize` share: promise settlement, pairing, fan-in counting, and the accumulated candidate lists |
| `InkMorphicCoordinator` | `coordinator_inkmorphic.dfy` | `StrokeManager.recognize` of `InkMorphicJS`, with a global boolean lock released at grouping |
| `JsCoordinator` | `coordinator_js.dfy` | `StrokeManager.recognize` of `js`, where a non-null `currentRecognitionResults` is the lock |
| `InkCanvas` | `canvas.dfy` | both `InkCanvasWrapper`s and `InkCanvasManager` with its world steps |
| `App` | `app.dfy` | the `InkMorphicJS` bootstrap: the `assistantEnabled` flag, the loop, and the wiring of each result |
| `Templates` | `templates.dfy` | the `$P` gesture templates both `setupShapes` install |

The JavaScript `StrokeManager` owns the platform ink manager and also runs
recognition. The model splits it in two. The ink half is
`StrokeStore.StrokeManager`, which is also the recorder of the calls the
canvas forwards. The recognition half is the two coordinator classes.
Every promise callback of `recognize` is an event method on the coordinator,
called with the `Pass` object that holds that call's closure variables. The
module-level variables of the JavaScript are objects shared by reference:
`RecognitionFlag`, `ResultsLock`, `ErasingFlag`, and the flag inside
`Recognizers.RecognitionLock`. The model therefore shows what happens when
passes or wrappers interleave.

The two coordinators differ in when the lock is released, and the
contracts state the difference. `InkMorphicCoordinator.StrokeManager.GroupsResolved`
and `GroupingFailed` release the flag as soon as grouping settles, before
any recognizer has answered. In the js copy, the lock is released only when
the fan-in counter reaches exactly zero. A failed grouping, or a pass with
no groups, never releases it (`JsCoordinator.StrokeManager.GroupingFailed`,
`GroupsResolved`).

## Model

| member | source | states |
|---|---|---|
| JsText.ToLower | js/js/recognizers.js:63 | lower-cases each ASCII letter and keeps every other character; the length is kept |
| JsText.ToLowerIdempotent | InkMorphicJS/js/morphic_ext.js:279 | lower-casing twice is lower-casing once |
| JsText.RemoveAllSpaces | InkMorphicJS/js/morphic_ext.js:288 | the global `\s+` replacement leaves no whitespace and adds no character |
| JsText.RemoveFirstSpaceRun | js/js/morphic_ext.js:181 | the non-global replacement never lengthens the text |
| JsText.FirstRunOnly | js/js/morphic_ext.js:181 | only the first whitespace run is removed, and later runs stay |
| JsText.NoSpacesUnchanged | js/js/morphic_ext.js:181 | both replacements leave whitespace-free text unchanged |
| JsText.Slice | InkMorphicJS/js/morphic_ext.js:288 | `slice` never yields more than its input; `SlicePrefix` states the prefix case the matchers use |
| JsText.SlicePrefix | js/js/recognizers.js:66 | `slice(0, n)` is the first `n` characters, or everything when `n` is past the end |
| JsText.IndexOf | InkMorphicJS/js/morphic_ext.js:150 | `indexOf` is -1 exactly when the character is absent, and otherwise its first position |
| JsText.IndexOfIn | InkMorphicJS/js/morphic_ext.js:159 | `names.indexOf(x)` is -1 exactly when `x` is absent, and otherwise its first position |
| JsText.CamelSpaces | InkMorphicJS/js/morphic_ext.js:286 | inserting a space after each lower-case letter before an upper-case one never shortens the name |
| JsText.SplitPartsHaveNoSeparator | InkMorphicJS/js/morphic_ext.js:286 | no piece of `split(/\s\|_/)` contains whitespace or `_` |
| JsText.SplitAfterWord | InkMorphicJS/js/morphic_ext.js:286 | a word followed by one separator is cut off as the first piece |
| JsText.NameParts | InkMorphicJS/js/morphic_ext.js:286 | the parts list has at least two entries and ends with the whole name |
| JsText.NamePartsCamel | InkMorphicJS/js/morphic_ext.js:286 | `moveBy` splits into `move`, `By`, `moveBy` |
| JsText.NamePartsUnderscore | InkMorphicJS/js/morphic_ext.js:286 | `set_x` splits into `set`, `x`, `set_x` |
| JsText.Sort | InkMorphicJS/js/morphic_ext.js:293 | `sort()` gives a sorted permutation of its input |
| JsText.SortedUnique | InkMorphicJS/js/morphic_ext.js:293 | two sorted permutations of one multiset are equal, so the sort result is determined |
| JsText.UniqElements | js/js/assistant.js:56 | `_.uniq` keeps every element of the input exactly once |
| JsText.UniqInFirstOccurrenceOrder | js/js/assistant.js:56 | `_.uniq` lists elements in the order of their first occurrences |
| JsText.FlattenMember | InkMorphicJS/js/morphic_ext.js:114 | an element is in the flattened list exactly when it is in one of the lists |
| JsText.FlattenAppend | InkMorphicJS/js/morphic_ext.js:114 | flattening distributes over concatenation |
| JsText.Find | InkMorphicJS/js/morphic_ext.js:286 | `find` is undefined exactly when no element passes, and otherwise returns the first element that passes |
| JsText.Compact | InkMorphicJS/js/morphic_ext.js:280 | `_.compact` keeps exactly the defined, non-empty strings |
| Levenshtein.LevenshteinDistance | InkMorphicJS/js/morphic_ext.js:295-319 | returns `\|b\|` for an empty `a`, `\|a\|` for an empty `b`, and otherwise the textbook edit distance |
| Levenshtein.FillRow | InkMorphicJS/js/morphic_ext.js:308-316 | the inner loop fills row `i` with the matrix recurrence and changes no other row |
| Levenshtein.MatrixValueIsEditDistance | js/js/morphic_ext.js:205-216 | copying the diagonal on equal characters, without a minimum, still computes the edit distance |
| Levenshtein.ZeroIffEqual | js/js/assistant.js:159-191 | the distance is 0 exactly when the strings are equal |
| Levenshtein.Symmetric | js/js/recognizers.js:74-106 | the distance is symmetric |
| Levenshtein.AtMostLonger | InkMorphicJS/js/morphic_ext.js:295-319 | the distance is at most the longer length |
| Levenshtein.LengthGap | InkMorphicJS/js/morphic_ext.js:295-319 | the distance is at least the difference of the lengths |
| Levenshtein.TruncatedSubstitution | InkMorphicJS/js/morphic_ext.js:288-289 | a substituted first letter costs two edits once the longer string is cut one short |
| Targets.Names | js/js/recognizers.js:64 | the keys in enumeration order |
| Targets.Lookup | js/js/recognizers.js:65 | `obj[name]` is undefined exactly when no key is `name`, and otherwise that key's member |
| Targets.FunctionKeys | js/js/recognizers.js:64-65 | the function-valued keys, in enumeration order: exactly the keys whose member is a function |
| Targets.Functions | InkMorphicJS/js/morphic_ext.js:115 | `_.functions` is sorted and holds exactly the function-valued keys |
| Targets.Tokens | js/js/recognizers.js:264 | the `/([^\s,]+)/g` matches are non-empty and contain no comma or whitespace |
| Targets.ParamNames | js/js/recognizers.js:262-268 | every parameter name found is a non-empty token |
| Targets.ParamNamesOfDeclaration | InkMorphicJS/js/morphic_ext.js:146-152 | for a function declared with parameters `a, b, c`, the names come back in order |
| Targets.NoParamNames | js/js/assistant.js:195-201 | a function declared with `()` has no parameter names |
| Targets.TokensOfCommaList | js/js/recognizers.js:264 | a comma-joined list of tokens splits back into the same tokens |
| FuzzyMatch.Verdict | InkMorphicJS/js/morphic_ext.js:281-292 | an entry maps to itself or to undefined |
| FuzzyMatch.MatchesFromList | InkMorphicJS/js/morphic_ext.js:277-293 | returns [] for text shorter than 2; otherwise a sorted sub-multiset of the list |
| FuzzyMatch.MatchesFromListMembers | InkMorphicJS/js/morphic_ext.js:280-293 | a name is returned exactly when it is a non-empty entry of the list whose verdict keeps it |
| FuzzyMatch.ExactMatchReturned | InkMorphicJS/js/morphic_ext.js:281-283 | an entry equal to the text up to case is returned, however long it is |
| FuzzyMatch.ReturnedNameHasCloseParts | InkMorphicJS/js/morphic_ext.js:284-290 | any other returned name is shorter than twice the text and has a part whose lower-cased prefix is within distance 1 of the text, raw or with whitespace removed |
| FuzzyMatch.TypedPrefixSelects | InkMorphicJS/js/morphic_ext.js:284-290 | writing the start of a name part selects the name |
| FuzzyMatch.EmptyPartNeverMatches | InkMorphicJS/js/morphic_ext.js:286-290 | an empty part fails the test once the text has two or more non-space characters |
| FuzzyMatch.EmptyPartMatchesOneLetter | InkMorphicJS/js/morphic_ext.js:286-290 | with exactly one non-space character (text such as `"a "`, which passes the length guard) the empty part passes, and `find` returns the falsy `""` |
| FuzzyMatch.SubstitutionRejected | InkMorphicJS/js/morphic_ext.js:288-289 | "ax" does not select "bx" |
| FuzzyMatch.NormaliseJs | js/js/morphic_ext.js:181 | normalising never lengthens the text |
| FuzzyMatch.MatchesFromListJs | js/js/morphic_ext.js:179-191 | returns [] for text shorter than 2; otherwise a sorted sub-multiset of the list |
| FuzzyMatch.MatchesFromListJsMembers | js/js/morphic_ext.js:182-191 | a name is returned exactly when it is shorter than twice the normalised text and some part passes the distance test |
| FuzzyMatch.NoExactBypassJs | js/js/morphic_ext.js:183 | without an exact-match bypass, a name at least twice the normalised length is never returned, even when it equals the text |
| FuzzyMatch.OnlyFirstRunRemoved | js/js/morphic_ext.js:181 | only the first whitespace run of the text is removed |
| FuzzyMatch.VariantsAgreeOnSpaceFreeText | js/js/morphic_ext.js:179-191 | on whitespace-free text, the js variant returns a subset of the InkMorphicJS one, and differs only on exact matches |
| FuzzyMatch.MatchingKeys | js/js/recognizers.js:64-70 | the pushed keys are exactly the function-valued keys that pass the prefix test |
| FuzzyMatch.FunctionMatches | js/js/recognizers.js:60-72 | returns [] for text shorter than 2; otherwise a sorted list |
| FuzzyMatch.FunctionMatchesMembers | js/js/recognizers.js:64-71 | returns exactly the function-valued keys shorter than twice the text whose unlowered prefix is within distance 1 |
| FuzzyMatch.MatchFunctions | js/js/assistant.js:145-157 | the for-in loop with `push` and the final `sort` computes `FunctionMatches` |
| FuzzyMatch.KeyWithTypedPrefixFound | js/js/recognizers.js:65-67 | a function key that begins with the normalised text is found |
| FuzzyMatch.CaseSensitiveKeys | js/js/recognizers.js:66 | keys are not lower-cased: "Dx" does not pass for "dx" |
| MorphicExt.Captions | InkMorphicJS/js/morphic_ext.js:159 | the caption of each candidate, in order |
| MorphicExt.MakeFunctionFor | InkMorphicJS/js/morphic_ext.js:124-145 | a direct call, or a parameter dialog with non-empty token names, always for the given name |
| MorphicExt.MakeFunctionForDeclared | InkMorphicJS/js/morphic_ext.js:129-143 | a function declared with parameters opens a dialog asking for exactly those |
| MorphicExt.MakeFunctionForNoParams | InkMorphicJS/js/morphic_ext.js:126-128 | a function declared without parameters is called directly |
| MorphicExt.FunctionCandidates | InkMorphicJS/js/morphic_ext.js:116-118 | one `[function, name]` pair per name, none of them an eval |
| MorphicExt.MorphMatches | InkMorphicJS/js/morphic_ext.js:115 | every match is a function of the morph |
| MorphicExt.MorphCandidatesNamed | InkMorphicJS/js/morphic_ext.js:113-122 | every candidate is a fuzzy match of some text, and it is made by `makeFunctionFor` |
| MorphicExt.MorphBlockJs | js/js/morphic_ext.js:34-40 | a text's block ends with the literal text evaluated, and nothing earlier is an eval |
| MorphicExt.MorphCandidatesJsOffersTexts | js/js/morphic_ext.js:39 | every text is offered literally |
| MorphicExt.MorphCandidatesJsActions | js/js/morphic_ext.js:33-42 | each candidate evaluates one of the texts under that caption, or calls a morph function made by `makeFunctionFor` |
| MorphicExt.MorphCandidatesJsAppend | js/js/morphic_ext.js:33-42 | texts contribute in input order |
| MorphicExt.WorldCandidate | js/js/morphic_ext.js:165-171 | "rectangle", "circle" and "string" make a Morph, CircleBoxMorph or String under "Make new …"; any other name is a world function under its bare name |
| MorphicExt.MakerIndex | js/js/morphic_ext.js:160-166 | the makers sit at indexes 0 to 2 of `funcList`, and every other name sits at index 3 or later |
| MorphicExt.WorldCandidatesOf | InkMorphicJS/js/morphic_ext.js:263-270 | one candidate per matched name, in order |
| MorphicExt.WorldMatches | InkMorphicJS/js/morphic_ext.js:262 | every match is in `funcList` |
| MorphicExt.WorldBlockJs | js/js/morphic_ext.js:164-174 | on the world too, each text's block ends with the literal text |
| MorphicExt.WorldCandidatesJsOffersTexts | js/js/morphic_ext.js:173 | every text is offered literally on the world |
| MorphicExt.RectangleOffersNewMorph | InkMorphicJS/js/morphic_ext.js:258-268 | writing "rectangle", in any case, offers "Make new rectangle" |
| MorphicExt.MatchedMakerOffered | InkMorphicJS/js/morphic_ext.js:263-270 | each matched name's candidate is offered |
| MorphicExt.WorldCandidatesSingle | InkMorphicJS/js/morphic_ext.js:261-273 | for one text, the candidates are those of its matches |
| MorphicExt.HelpMenu | InkMorphicJS/js/morphic_ext.js:155-168 | the item captions are the distinct captions in first-occurrence order |
| MorphicExt.HelpMenuFirstOccurrence | js/js/morphic_ext.js:75-88 | every item is the first candidate carrying its caption |
| MorphicExt.FillHelpMenu | InkMorphicJS/js/morphic_ext.js:155-168 | the loop over the list with the `names` array computes `HelpMenu` |
| MorphicExt.TerminatedIsJoin | InkMorphicJS/js/morphic_ext.js:204 | appending each text plus "," is the join plus a trailing "," |
| MorphicExt.RunMessage | InkMorphicJS/js/morphic_ext.js:203-206 | with children the message is `name(` + texts joined by "," + `)`; without children the "(" is cut and it is `name)` |
| MorphicExt.RunMessageArguments | js/js/morphic_ext.js:122-128 | the evaluated call passes the children's texts as its arguments, in order |
| MorphicExt.ParameterCallMenu | InkMorphicJS/js/morphic_ext.js:200-230 | the dialog's menu is exactly its three fixed items "Run", "Start Ticking" and "Cancel", in that order, whatever was written |
| MorphicExt.ParameterCallMenuJs | js/js/morphic_ext.js:119-137 | the dialog's menu is exactly "Run" then "Cancel", whatever was written |
| MorphicExt.ParameterQuestionCandidates | js/js/morphic_ext.js:139-148 | one item per text that sets the question's text to it |
| MorphicExt.ParameterQuestionMenu | InkMorphicJS/js/morphic_ext.js:231-240 | the question's menu offers each distinct text once |
| Recognizers.TopAlternates | js/js/recognizers.js:34-35 | the first alternate of every word |
| Recognizers.StatusLineIsJoin | js/js/recognizers.js:28-35 | the status line is a space followed by the top alternates joined by spaces |
| Recognizers.StatusLine | js/js/recognizers.js:28-35 | one space per word at least, so the line is as long as the word count; `StatusLineIsJoin` gives its contents |
| Recognizers.RecognitionLock.Recognize | js/js/recognizers.js:14-18 | starts exactly when no recognition runs and there are strokes, and then sets the flag and remembers whether a `thenDo` was passed |
| Recognizers.RecognitionLock.Succeeded | js/js/recognizers.js:20-49 | shows the status line, hands the results to `thenDo` when one was passed, and clears the flag unless `thenDo` throws |
| Recognizers.ThrowingThenDoBlocks | js/js/recognizers.js:14-18 | after a `thenDo` that throws, the next `recognize` returns at once even with ink present |
| Recognizers.RecognitionLock.Failed | js/js/recognizers.js:51-56 | reports the error and still clears the flag |
| Recognizers.SymbolicFunction | js/js/recognizers.js:108-126 | at most one entry, and only for one-character texts |
| Recognizers.SymbolicTable | js/js/recognizers.js:108-126 | entries exist exactly for "x", "X" and the five arrows; "x" and "X" give `destroy` |
| Recognizers.SymbolicArrow | js/js/recognizers.js:113-122 | each arrow gives the `moveBy` message for its ten-pixel offset |
| Recognizers.RecognitionBlock | js/js/recognizers.js:209-214 | a text's block ends with the text itself |
| Recognizers.RecognitionList | js/js/recognizers.js:205-215 | the `forEach` that reassigns `list` computes `RecognitionCandidates` |
| Recognizers.AddText | js/js/recognizers.js:209-214 | one turn appends the symbolic entries of a short text, then the fuzzy matches, then the text |
| Recognizers.RecognitionOffersTexts | js/js/recognizers.js:214 | every recognised text is a candidate |
| Recognizers.RecognitionCandidates | js/js/recognizers.js:205-215 | at least one candidate per recognised text; `RecognitionOffersTexts` shows each text is among them |
| Recognizers.RecognitionProvenance | js/js/recognizers.js:207-215 | every candidate is a text, a gesture entry of a short text, or a fuzzy match of a text |
| Recognizers.RecognitionOffersSymbols | js/js/recognizers.js:209-211 | a short text's gesture entries are candidates |
| Recognizers.MenuItems | js/js/recognizers.js:217-237 | one item per name, captioned by it |
| Recognizers.ArgumentItems | js/js/recognizers.js:239-247 | one item per text that replaces the argument's text |
| Recognizers.ParameterText | js/js/recognizers.js:241 | the chosen text followed by the old text's last character |
| Recognizers.ShowStrokeRecognitions | js/js/recognizers.js:175-258 | the item loops compute `RecognitionMenu`, and the menu is shown exactly when some text was recognised |
| Recognizers.AddArgumentItems | js/js/recognizers.js:239-247 | the loop computes `ArgumentItems` |
| Recognizers.AddMenuItems | js/js/recognizers.js:217-237 | the loop computes `MenuItems` |
| Recognizers.MenuNonEmpty | js/js/recognizers.js:250 | the de-duplicated list is non-empty exactly when some text was recognised |
| Recognizers.MorphMenuItems | js/js/recognizers.js:217-237 | each distinct candidate is offered once; a function of the target is sent as a message, and anything else is evaluated |
| Recognizers.MenuItem | js/js/recognizers.js:217-237 | the item is captioned by the text; it evaluates the text exactly when the target has no function of that name, and otherwise calls, or asks parameters for, the function of that name |
| Recognizers.RecognitionMenu | js/js/recognizers.js:175-258 | over an argument the menu lists the texts as recognised; over a morph or the world each caption appears once |
| Recognizers.WorldMakersCalledDirectly | js/js/recognizers.js:184-202 | on the world, every maker is called directly |
| Recognizers.ArgumentLabels | js/js/recognizers.js:134-135 | one label per name; `LabelsSpellCall` states their endings |
| Recognizers.ClickMessage | js/js/recognizers.js:151-156 | the message is the text, "(", and the argument texts concatenated |
| Recognizers.LabelsSpellCall | js/js/recognizers.js:169-171 | untouched labels spell the names joined by "," and closed by ")" |
| Recognizers.FilledArguments | js/js/recognizers.js:241 | writing a value on each argument keeps its "," or ")" |
| Recognizers.CallWithValues | js/js/assistant.js:119-124 | choosing a value for each argument and clicking yields `text(v1,…,vn)` |
| Assistant.KeyIndex | js/js/assistant.js:21 | the position of a key, or the entry count when it is absent |
| Assistant.SetMember | js/js/assistant.js:21 | `t[key] = value` replaces the entry or appends it, and keeps the other entries |
| Assistant.MakeTarget | js/js/assistant.js:4-27 | whatever the morph's keys, the target is exactly the two fixed functions |
| Assistant.HelpBlock | js/js/assistant.js:51-53 | a text's block ends with the text |
| Assistant.HelpList | js/js/assistant.js:50-54 | the `forEach` that reassigns `list` computes `HelpCandidates` |
| Assistant.HelpCandidates | js/js/assistant.js:50-54 | at least one candidate per recognised text; `HelpOffersTexts` shows each text is among them |
| Assistant.AddHelpText | js/js/assistant.js:51-53 | one turn appends the fuzzy matches, then the text |
| Assistant.ShowHelp | js/js/assistant.js:40-94 | the items are `HelpMenu` of the texts, and the menu is shown exactly when some text was recognised |
| Assistant.HelpOffersTexts | js/js/assistant.js:53 | every recognised text is offered |
| Assistant.HelpMenuNonEmpty | js/js/assistant.js:86 | the de-duplicated list is non-empty exactly when some text was recognised |
| Assistant.HelpAgreesWithRecognizers | js/js/assistant.js:50-54 | without one-character texts, the assistant's list is the recognizers' list |
| Assistant.HelpMenuItems | js/js/assistant.js:56-74 | each distinct candidate is offered once; the two fixed functions are called directly, and everything else is evaluated |
| Assistant.HelpMenu | js/js/assistant.js:56-74 | each caption of the help menu appears once |
| Assistant.FixedFunctionsOnly | js/js/assistant.js:19-25 | the target's functions are exactly "add as Morph" and "make a Rectangle" |
| Assistant.FixedFunctionCalledDirectly | js/js/assistant.js:97-99 | both fixed functions take no parameters and are called directly |
| Strokes.StrokeBounds | InkMorphicJS/js/default.js:97-114 | the `forEach` that updates x1, y1, x2 and y2 computes `BoundsOf` |
| Strokes.BoundsOfBox | InkMorphicJS/js/morphic_ext.js:86-103 | no strokes give (MAX_SAFE_INTEGER, MAX_SAFE_INTEGER, 0, 0); right and bottom are at least 0; the box contains every rectangle; each edge is its sentinel or the edge of some stroke |
| Strokes.TagStroke | InkMorphicJS/js/stroke_manager.js:83-85 | one tagged point per point of the stroke; `TaggedPositions` and `TaggedIds` state what is kept |
| Strokes.Positions | InkMorphicJS/js/stroke_manager.js:84 | the position of each tagged point |
| Strokes.TaggedPositions | InkMorphicJS/js/stroke_manager.js:82-86 | tagging keeps every point of the group, in stroke order |
| Strokes.TaggedIds | js/js/stroke_manager.js:78-82 | tags lie in `[first, first + strokes)` and never decrease |
| Strokes.TaggedPointsOfGroup | InkMorphicJS/js/stroke_manager.js:82-86 | a group's points are its strokes' points in order, tagged with stroke indexes 0 to n-1 in non-decreasing order |
| Strokes.HexText | InkMorphicJS/js/stroke_manager.js:163 | `toString(16)` has at least one digit |
| Strokes.HexTextOfByte | InkMorphicJS/js/stroke_manager.js:163 | a byte below 16 has one lower-case digit; any other byte has two |
| Strokes.ByteHex | InkMorphicJS/js/stroke_manager.js:162-168 | two lower-case digits, zero-padded |
| Strokes.ColorToCss | InkMorphicJS/js/stroke_manager.js:160-161 | seven characters starting with "#" |
| Strokes.CssIsLower | js/js/stroke_manager.js:153-162 | the CSS text is already lower-case |
| Strokes.HexRunLength | InkMorphicJS/js/stroke_manager.js:178 | the length of the leading hexadecimal-digit run |
| Strokes.ParseIntHex | js/js/stroke_manager.js:171 | `parseInt(s, 16)` is NaN when only whitespace is left |
| Strokes.ParseTwoDigits | InkMorphicJS/js/stroke_manager.js:178-180 | two hexadecimal digits parse to their value |
| Strokes.ParseByteHex | js/js/stroke_manager.js:155-161 | `parseInt(byteHex(n), 16)` gives `n` back |
| Strokes.FromNameOrHex | InkMorphicJS/js/stroke_manager.js:171-185 | a named colour exactly for a known lower-cased name; otherwise a 7-character "#…" is decoded with alpha 255; anything else is gray |
| Strokes.ColorRoundTrip | js/js/stroke_manager.js:153-178 | a colour written by `colorToCSS` decodes back to its channels with alpha 255 |
| Strokes.HexRoundTrip | InkMorphicJS/js/stroke_manager.js:175-181 | "#" plus six hexadecimal digits decodes to channels that `colorToCSS` writes back as the lower-cased text |
| StrokeStore.Keep | InkMorphicJS/js/stroke_manager.js:46 | `deleteSelected` never lengthens the stroke list; `KeepMembers` states which strokes survive |
| StrokeStore.StrokeManager.SetMode | InkMorphicJS/js/stroke_manager.js:36-42 | "inking" and "erasing" select those modes; any other string changes nothing |
| StrokeStore.StrokeManager.SetStrokeStyle | js/js/stroke_manager.js:29-32 | later strokes use the given colour |
| StrokeStore.StrokeManager.ProcessPointerDown | InkMorphicJS/js/stroke_manager.js:49-51 | the call is forwarded and nothing else changes |
| StrokeStore.StrokeManager.ProcessPointerUpdate | InkMorphicJS/js/stroke_manager.js:53-55 | the call is forwarded and nothing else changes |
| StrokeStore.StrokeManager.ProcessPointerUp | InkMorphicJS/js/stroke_manager.js:57-59 | the call is forwarded and nothing else changes |
| StrokeStore.StrokeManager.DeleteStrokes | InkMorphicJS/js/stroke_manager.js:44-47 | every given stroke ends up selected; the given strokes and the already selected ones are removed, in order |
| StrokeStore.StrokeManager.DeleteSelected | js/js/stroke_manager.js:44 | exactly the selected strokes are removed |
| StrokeStore.KeepMembers | js/js/stroke_manager.js:42-45 | a stroke survives exactly when it was held and not deleted |
| StrokeStore.KeepNothing | js/js/stroke_manager.js:42-45 | deleting nothing keeps every stroke |
| StrokeStore.KeepIdempotent | InkMorphicJS/js/stroke_manager.js:44-47 | deleting twice is deleting once |
| StrokeStore.KeepOnlyMatters | InkMorphicJS/js/stroke_manager.js:44-47 | only the deleted strokes that are held matter |
| RecognitionPass.Settle | InkMorphicJS/js/stroke_manager.js:99-107 | only the first `resolve` or `reject` settles the promise |
| RecognitionPass.Pairing | InkMorphicJS/js/stroke_manager.js:118-126 | result `i` pairs list `i` with group `i`, and has no group past the last one |
| RecognitionPass.Calls | InkMorphicJS/js/stroke_manager.js:90-91 | one pending call per group and recognizer |
| RecognitionPass.Accumulated | InkMorphicJS/js/stroke_manager.js:98 | one list per group |
| RecognitionPass.NothingDelivered | InkMorphicJS/js/stroke_manager.js:138 | before any recognizer answers, the lists are the platform's alternates |
| RecognitionPass.Deliver | js/js/stroke_manager.js:87 | an answer is appended to its own group's list only |
| RecognitionPass.RecognizeInkAny | InkMorphicJS/js/stroke_manager.js:148-157 | resolves with the best template's name whatever its score, and rejects when `Recognize` throws |
| RecognitionPass.RecognizeInkThreshold | js/js/stroke_manager.js:137-150 | resolves with the name only when the score exceeds 0.7, resolves with [] otherwise, and rejects when `Recognize` throws |
| RecognitionPass.ThresholdOnlyDrops | js/js/stroke_manager.js:141-145 | the threshold only drops names: both copies fail together, and the js answer is a sub-list of the other |
| InkMorphicCoordinator.Pass.Group | InkMorphicJS/js/stroke_manager.js:79-81 | the groups and alternates are recorded, each group's slot is its index, and nothing is delivered yet |
| InkMorphicCoordinator.Pass.StartCalls | InkMorphicJS/js/stroke_manager.js:90-91 | the counter rises by one per recognizer, and so do the pending calls for that group |
| InkMorphicCoordinator.Pass.CountDown | InkMorphicJS/js/stroke_manager.js:99-100 | decrements the counter and resolves with the paired lists once it is 0 or less |
| InkMorphicCoordinator.StrokeManager.Recognize | InkMorphicJS/js/stroke_manager.js:69-76 | rejects with the busy error while the flag is held or when there are no strokes; otherwise takes the flag and empties the lists |
| InkMorphicCoordinator.StrokeManager.GroupsResolved | InkMorphicJS/js/stroke_manager.js:78-91 | releases the flag before any recognizer runs and appends the alternates. With zero recognizers it resolves at once; otherwise one call per group and recognizer is pending, and the lists start as the alternates |
| InkMorphicCoordinator.StrokeManager.FanOut | InkMorphicJS/js/stroke_manager.js:81-91 | all increments happen before any settlement, giving group × recognizer pending calls |
| InkMorphicCoordinator.StrokeManager.StartGroup | InkMorphicJS/js/stroke_manager.js:87-91 | one group adds one pending call per recognizer; with no recognizers it resolves the pass, and only the first resolution takes effect |
| InkMorphicCoordinator.StrokeManager.GroupingFailed | InkMorphicJS/js/stroke_manager.js:112-114 | releases the flag and rejects with the grouping error |
| InkMorphicCoordinator.StrokeManager.RecognizerAnswered | InkMorphicJS/js/stroke_manager.js:93-101 | appends the answer to the group's list and counts down. On empty lists it seeds `[[]]` and redirects to slot 0; on a missing slot it throws without counting down. It resolves only when no call is pending, and the first settlement wins |
| InkMorphicCoordinator.StrokeManager.RecognizerFailed | InkMorphicJS/js/stroke_manager.js:103-108 | counts down, then rejects; the rejection is ignored when this failure was the last call and resolved the pass |
| JsCoordinator.StrokeManager.Recognize | js/js/stroke_manager.js:67-72 | rejects while the lists are non-null or when there are no strokes; otherwise takes the lock by setting the lists to [] |
| JsCoordinator.StrokeManager.GroupsResolved | js/js/stroke_manager.js:75-99 | with the lists held, appends the alternates and starts group × recognizer calls, keeping the lock; with null lists and some alternates, `push` on the null list throws, the lock stays free and nothing starts; with no groups nothing is pending, so the lock is never released |
| JsCoordinator.StrokeManager.FanOut | js/js/stroke_manager.js:77-98 | group × recognizer pending calls, all counted before any settlement |
| JsCoordinator.StrokeManager.GroupingFailed | js/js/stroke_manager.js:101-103 | rejects and leaves the lock held |
| JsCoordinator.StrokeManager.Finish | js/js/stroke_manager.js:106-115 | resolves with the lists paired with the groups, then sets the lock to null |
| JsCoordinator.StrokeManager.RecognizerAnswered | js/js/stroke_manager.js:86-91 | appends the answer and counts down; resolves and releases the lock exactly when the counter reaches 0, and then nothing is pending |
| JsCoordinator.StrokeManager.RecognizerFailed | js/js/stroke_manager.js:92-97 | counts down; the last failure finishes the pass first; any earlier failure rejects it |
| JsCoordinator.StrokeManager.constructor | js/js/stroke_manager.js:21 | the point-cloud recognizer is the one registered recognizer |
| InkCanvas.OldestFirst | InkMorphicJS/js/ink_canvas_wrapper.js:79-82 | one update per intermediate point, from the last index down |
| InkCanvas.OldestFirstAppend | js/js/ink_canvas_wrapper.js:68-71 | forwarding oldest-first reverses the list: older points go first |
| InkCanvas.ForwardOldestFirst | js/js/ink_canvas_manager.js:64-67 | the reverse loop forwards `OldestFirst` of the points and changes nothing else |
| InkCanvas.InkMorphicWrapper.constructor | InkMorphicJS/js/ink_canvas_wrapper.js:10-37 | sets `penId`, not `penID`, so no pointer id is accepted before the first pen-down; starts in ink mode |
| InkCanvas.InkMorphicWrapper.Configure | InkMorphicJS/js/default.js:58-63 | `onDrawEnd` and `onDelete` are set as the application sets them; the pen id and pending callbacks are untouched |
| InkCanvas.InkMorphicWrapper.InkMode | InkMorphicJS/js/ink_canvas_wrapper.js:40-45 | blue ink, inking mode, and the shared `erasing` flag cleared |
| InkCanvas.InkMorphicWrapper.EraserMode | InkMorphicJS/js/ink_canvas_wrapper.js:46-51 | erasing mode and the shared flag set |
| InkCanvas.InkMorphicWrapper.HandlePointerDown | InkMorphicJS/js/ink_canvas_wrapper.js:53-68 | accepted exactly for the pen when `onDrawStart` does not refuse; then eraser mode iff `isEraser`, `penID` recorded, and the down point forwarded |
| InkCanvas.InkMorphicWrapper.HandlePointerMove | InkMorphicJS/js/ink_canvas_wrapper.js:70-85 | only the pen's pointer is followed, and its intermediate points are forwarded oldest-first |
| InkCanvas.InkMorphicWrapper.HandlePointerUp | InkMorphicJS/js/ink_canvas_wrapper.js:87-104 | for the pen's pointer: `onDrawEnd` sees the pen id, `penID` becomes -1, the up point is forwarded, `onDelete` runs only if erasing, and it ends in ink mode |
| InkCanvas.InkMorphicWrapper.Changed | InkMorphicJS/js/ink_canvas_wrapper.js:106-134 | back to ink mode, then `onRedraw` |
| InkCanvas.InkMorphicWrapper.DeleteStrokes | InkMorphicJS/js/ink_canvas_wrapper.js:136-140 | deletes the strokes, redraws, then runs `onDelete` if set |
| InkCanvas.InkMorphicWrapper.Recognize | InkMorphicJS/js/ink_canvas_wrapper.js:142-149 | the stroke manager's pass over the held strokes, with nothing pending yet: while the flag is held or without strokes it is rejected and the flag and candidate lists stay as they were; otherwise it takes the flag and empties the lists |
| InkCanvas.JsWrapper.constructor | js/js/ink_canvas_wrapper.js:4-28 | `penId` is set, `penID` stays unset, and it starts in ink mode |
| InkCanvas.JsWrapper.HandlePointerDown | js/js/ink_canvas_wrapper.js:42-59 | accepted exactly for the pen when `drawTest` does not refuse; then eraser mode iff `isEraser`, and `penID` recorded |
| InkCanvas.JsWrapper.HandlePointerMove | js/js/ink_canvas_wrapper.js:61-75 | only the pen's pointer is followed, and points are forwarded oldest-first |
| InkCanvas.JsWrapper.HandlePointerUp | js/js/ink_canvas_wrapper.js:77-88 | only for the pen's pointer: `penID` becomes -1, the up point is forwarded, ink mode is restored, and one redraw happens |
| InkCanvas.JsWrapper.DeleteStrokes | js/js/ink_canvas_wrapper.js:120-123 | deletes the strokes, then redraws |
| InkCanvas.JsWrapper.Changed | js/js/ink_canvas_wrapper.js:90-97 | back to blue ink in inking mode with one more redraw; the strokes and the recorded pen are untouched |
| InkCanvas.JsWrapper.Recognize | js/js/ink_canvas_wrapper.js:125-127 | exactly the stroke manager's pass |
| InkCanvas.World.Step | js/js/ink_canvas_manager.js:89-95 | one step runs the scheduled closure: arming schedules the render, and the render runs on the next step |
| InkCanvas.CanvasManager.constructor | js/js/ink_canvas_manager.js:4-22 | no pen recorded (`penId` is -1), blue ink in inking mode, the strokes untouched |
| InkCanvas.CanvasManager.HandlePointerDown | js/js/ink_canvas_manager.js:37-55 | accepted exactly for the pen over a morph that allows drawing over it |
| InkCanvas.CanvasManager.HandlePointerMove | js/js/ink_canvas_manager.js:57-71 | only the pen's pointer is followed, and points are forwarded oldest-first |
| InkCanvas.CanvasManager.HandlePointerUp | js/js/ink_canvas_manager.js:73-84 | only for the pen's pointer: `penID` becomes -1, the up point is forwarded, ink mode is restored, and the render is scheduled |
| InkCanvas.CanvasManager.Changed | js/js/ink_canvas_manager.js:86-96 | ink mode, and the render scheduled two world steps later |
| InkCanvas.CanvasManager.DeleteStrokes | js/js/ink_canvas_manager.js:120-123 | deletes the strokes, then `changed()` |
| App.ArmedAfterAppend | InkMorphicJS/js/default.js:58-63 | only the last arming or disarming callback counts |
| App.Application.RunCallbacks | InkMorphicJS/js/default.js:58-67 | `onDrawEnd` arms, `onDelete` disarms, and `onRedraw` schedules the redraw |
| App.Application.PointerDown | InkMorphicJS/js/default.js:55-57 | drawing starts exactly for the pen over a morph that allows drawing over it: the pen's id is recorded, the down point forwarded and the mode chosen by `isEraser`; a refused event changes none of these; strokes, callbacks and the assistant flag are untouched |
| App.Application.PointerUp | InkMorphicJS/js/default.js:58-67 | ending an ink stroke arms the assistant, ending an erasing stroke leaves it disarmed, and either schedules the redraw; the pen id becomes -1, the up point is forwarded and the wrapper returns to inking; any other pointer changes nothing |
| App.StrokeEndedArms | InkMorphicJS/js/default.js:58-67 | the callbacks of a finished stroke (`onDrawEnd`, `onDelete` if it erased, `onRedraw`) leave the assistant armed exactly when the stroke did not erase, and ask for a redraw |
| App.Application.Loop | InkMorphicJS/js/default.js:79-95 | with the assistant armed, it is disarmed and exactly one recognition pass starts, rejected with the recognizer's state unchanged when recognition is busy or there are no strokes; unarmed, nothing starts and the recognizer's flag and lists are unchanged |
| App.Application.DeleteResultStrokes | InkMorphicJS/js/default.js:88-90 | the completion callback deletes that result's strokes and disarms the assistant |
| App.Responses | InkMorphicJS/js/default.js:85-91 | one response per result, in order, anchored at the first stroke's corner with that group's bounds; it stops at the first result without strokes |
| App.PairedResultsAnswered | InkMorphicJS/js/default.js:84-91 | when every group has strokes, each paired list is answered with its own group's candidates |
| Templates.PointCloudRecognizer.SetupShapes | InkMorphicJS/js/pdollar_ext.js:7-29 | resets the list and installs destroy, clone, rectangle and tickmark, each with stroke ids starting at 1 and never skipping |
| Templates.PointCloudRecognizer.SetupShapesJs | js/js/pdollar_ext.js:4-22 | resets the list and installs destroy, clone and makeRectangle, each with stroke ids starting at 1 and never skipping |
| Templates.TaggedStartsAt | InkMorphicJS/js/pdollar_ext.js:9-28 | strokes tagged from 1 give ids that start at 1 and never skip |
| Templates.InkMorphicShapesTagged | InkMorphicJS/js/pdollar_ext.js:9-28 | each template is its strokes tagged from 1 |
| Templates.TemplateSizes | InkMorphicJS/js/pdollar_ext.js:9-28 | 4, 14, 8 and 4 points whose last stroke ids are 2, 4, 4 and 2, named destroy, clone, rectangle and tickmark in that order |
| Templates.Continuity | InkMorphicJS/js/pdollar_ext.js:9-28 | the C, the square and the tick each start a stroke where the last one ended; the X does not |
| Templates.SquareIsClosed | InkMorphicJS/js/pdollar_ext.js:19-24 | the square ends at its first point, and the C does not |
| Templates.JsShapesAreInkMorphicShapes | js/js/pdollar_ext.js:5-21 | the js templates are the first three InkMorphicJS ones, with the square renamed makeRectangle |

`Recognizers.ClickMessage`, `ArgumentLabels` and `CallWithValues` also
describe `sendMessage` in js/js/assistant.js:97-141, which is the same code.
`Strokes.StrokeBounds` is also `getStrokeBounds` in
InkMorphicJS/js/morphic_ext.js:86-103 and js/js/assistant.js:204-221.
`Levenshtein.LevenshteinDistance` is the same method in all four copies.

## Left out

- The `$P` recognizer itself (`Recognize`, resampling, scaling and the point-cloud distance) is floating-point geometry outside the core. A recognizer's answer is a parameter: `Option<Match>`, with the score as a `real`.
- The Windows ink platform is a parameter or a recorded call: `recognizeAsync`, stroke grouping, the handwriting alternates, `getInkPoints`, `processPointer*`, `deleteSelected` and the `Windows.UI.Colors` name table (the `knownNames` parameter). `StrokeStore.StrokeManager` holds the strokes and the forwarded calls in their place.
- Rendering and widgets are left out: canvas drawing, Bezier segments, `renderStroke`, menu and text morph layout, `popup`, shadows and `world.inform`. Only the captions, actions, messages and state changes they depend on are modelled.
- `eval` is modelled as the message string it would evaluate. What the evaluation does is left out.
- Promises are modelled as explicit event methods. Any interleaving of the events is allowed, except that every counter increment comes before any settlement.
- The comment-stripping regex of `getParamNames` is left out. Function text is taken to be comment-free.
- `toLowerCase` folds ASCII letters only, and `\s` is a fixed set of whitespace characters. Other Unicode case mappings and space separators are left out.
- Strings are sequences of Unicode scalar values, not of UTF-16 code units as in JavaScript. For characters outside the Basic Multilingual Plane (emoji, rare CJK), lengths differ from JavaScript's. So do the length test `k.length < text.length * 2`, the slice points of `slice(0, text.length - 1)`, the `charAt` steps of the edit distance, and the order `.sort()` gives.
- Names inherited from `Object.prototype` (`toString`, `constructor`, `hasOwnProperty` and the like) pass `typeof target[text] === "function"` in JavaScript, but a `Targets.Target` holds only the object's own enumerable entries. `Recognizers.MenuItem` and `Assistant.HelpMenu` therefore turn such a text into a plain-text item, where JavaScript would make it a function call. The `for-in` loops of `fuzzyMatchFunctions` never see those names anyway, because they are not enumerable.
- `Array.prototype.getUnique`, used by `showStrokeRecognitions`, is defined outside the files of this model. It is assumed to keep each element's first occurrence, in input order, as `_.uniq` does, and is modelled by `JsText.Uniq`.
- Coordinates are integers. Floating-point positions and rectangle sizes are not modelled.
- `respondToPossibleText` (InkMorphicJS/js/morphic_ext.js:107-111) is `findFunctionCandidates` followed by `fillHelpMenu` and a popup. Its pieces are modelled and `App.Responses` names each call, but the popup is not.
- `thenDo`, the completion callback passed to menu items, is modelled only in the `InkMorphicJS` bootstrap (`App.Application.DeleteResultStrokes`). The `thenDo` of the js tree's `recognize` is modelled by what it receives and whether it throws (`Recognizers.RecognitionLock.Succeeded`). What it does is left out.
- `fromArgb` is not modelled: the decoded channels are kept as `Option<int>`, with NaN as `None` and no range check.
- `getStrokes`, which maps each stroke's colour through `colorToCSS`, and `setLineWidth` are left out. The colour conversion itself is modelled.
- `StrokeStore.StrokeManager.SetStrokeStyle`: the style is kept as the given string, not as the `fromNameOrHex` colour it is converted to. `Strokes.FromNameOrHex` models that conversion.
- InkMorphicCoordinator.StrokeManager.constructor: the JavaScript starts `currentRecognitionResults` as `null`; the model starts it as `[]`. Every `recognize` that passes the lock sets it to `[]` before reading it.
- `world.onNextStep` belongs to morphic.js, which is not part of this model. The world is modelled as running and clearing the scheduled closure once per step.
- The `isParameter` branch of `Assistant.showHelp` is not modelled. `makeTarget` never returns a target with `isParameter`, so the branch cannot run.
- InkMorphicJS/js/literal_recognizer.js, js/js/scenario1.js and js/js/sample-configuration.js are not part of this model.
- Morph behaviour outside the core is left out: `allowsDrawingOver` (which is a parameter), `clone`, "Make shape into Morph", `ParameterQuestionMorph.edit` and the "Start Ticking" closure body.
- The cursor and the context's `strokeStyle` on the canvas are left out.
- `Recognizers.MenuItem`, `Recognizers.MenuItems` and `Recognizers.ArgumentItems` do not record the `deleteStrokes(strokes)` that every item of `showStrokeRecognitions` runs after its action (js/js/recognizers.js:225, :234 and :245). `deleteStrokes` is a global of the host page, outside the files of this model. The message and `eval` items catch their action's error first, so choosing one removes the recognised strokes even when its action fails. The model's `Candidate` carries only the action.
- `MorphicExt.HelpMenu` and `MorphicExt.FillHelpMenu` likewise do not record the `thenDo()` each item runs after its function (js/js/morphic_ext.js:82). It is a callback of the caller.

Comparing a lower-cased prefix with the text suggests that a one-letter
slip is tolerated. In the code, the prefix is one character shorter than
the text, so it is always one edit away from the text itself. A substituted
letter therefore costs two edits, and the name is rejected
(`Levenshtein.TruncatedSubstitution`, `FuzzyMatch.SubstitutionRejected`).

=== FILE: app.dfy ===
/** The InkMorphicJS bootstrap (`app.onloaded`): drawing is allowed where
    the top morph allows drawing over it; finishing an ink stroke arms the
    assistant, deleting strokes disarms it; each animation frame with the
    assistant armed disarms it and starts one recognition pass; each result
    of a pass is offered to the morph under its first stroke. */
module App {
  import opened JsText
  import opened Strokes
  import StrokeStore
  import InkMorphicCoordinator
  import opened RecognitionPass
  import InkCanvas

  /** The `assistantEnabled` flag after the callbacks `calls` ran, in
      order: `onDrawEnd` arms it, `onDelete` disarms it, `onRedraw` leaves
      it alone. */
  function ArmedAfter(armed: bool, calls: seq<InkCanvas.Callback>): bool {
    if calls == [] then armed
    else
      var last := calls[|calls| - 1];
      match last
      case DrawEnd(_) => true
      case Deleted => false
      case Redraw => ArmedAfter(armed, calls[..|calls| - 1])
  }

  /** Only the last arming or disarming callback counts. */
  lemma {:induction false} ArmedAfterAppend(armed: bool, calls: seq<InkCanvas.Callback>, more: seq<InkCanvas.Callback>)
    ensures ArmedAfter(armed, calls + more) == ArmedAfter(ArmedAfter(armed, calls), more)
  {
    if more != [] {
      assert (calls + more)[..|calls + more| - 1] == calls + more[..|more| - 1];
      ArmedAfterAppend(armed, calls, more[..|more| - 1]);
    } else {
      assert calls + more == calls;
    }
  }

  /** The callbacks a wrapper's pointer-up runs when it ends the pen's
      stroke, both `onDrawEnd` and `onDelete` being set. */
  function StrokeEnded(pointerId: int, erasing: bool): seq<InkCanvas.Callback> {
    [InkCanvas.DrawEnd(Some(pointerId))] + (if erasing then [InkCanvas.Deleted] else []) + [InkCanvas.Redraw]
  }

  /** Ending a stroke arms the assistant unless the stroke erased, and
      asks for a redraw. */
  lemma StrokeEndedArms(armed: bool, pointerId: int, erasing: bool)
    ensures ArmedAfter(armed, StrokeEnded(pointerId, erasing)) == !erasing
    ensures InkCanvas.Redraw in StrokeEnded(pointerId, erasing)
  {
    var erased := if erasing then [InkCanvas.Deleted] else [];
    var ended := StrokeEnded(pointerId, erasing);
    assert ended[|ended| - 1] == InkCanvas.Redraw;
    ArmedAfterAppend(armed, [InkCanvas.DrawEnd(Some(pointerId))] + erased, [InkCanvas.Redraw]);
    ArmedAfterAppend(armed, [InkCanvas.DrawEnd(Some(pointerId))], erased);
    assert [InkCanvas.Redraw][..0] == [];
    assert [InkCanvas.DrawEnd(Some(pointerId))][..0] == [];
  }

  lemma DropPrefix<T>(a: seq<T>, b: seq<T>)
    ensures (a + b)[|a|..] == b
  {
  }

  class Application {
    const wrapper: InkCanvas.InkMorphicWrapper
    const world: InkCanvas.World
    var assistantEnabled: bool

    /** The wrapper's `onDrawEnd`, `onDelete` and `onRedraw` are set. */
    constructor (wrapper: InkCanvas.InkMorphicWrapper, world: InkCanvas.World)
      modifies wrapper
      ensures this.wrapper == wrapper && this.world == world && !assistantEnabled
      ensures wrapper.hasDrawEnd && wrapper.hasDelete
      ensures wrapper.penID == old(wrapper.penID) && wrapper.callbacks == old(wrapper.callbacks)
    {
      this.wrapper := wrapper;
      this.world := world;
      assistantEnabled := false;
      new;
      wrapper.Configure(true, true);
    }

    /** The callbacks that ran during a wrapper call. */
    method RunCallbacks(calls: seq<InkCanvas.Callback>)
      modifies this, world
      ensures assistantEnabled == ArmedAfter(old(assistantEnabled), calls)
      ensures InkCanvas.Redraw in calls ==> world.onNextStep == InkCanvas.ArmRender
      ensures InkCanvas.Redraw !in calls ==> world.onNextStep == old(world.onNextStep)
      ensures world.renders == old(world.renders)
    {
      for i := 0 to |calls|
        invariant assistantEnabled == ArmedAfter(old(assistantEnabled), calls[..i])
        invariant InkCanvas.Redraw in calls[..i] ==> world.onNextStep == InkCanvas.ArmRender
        invariant InkCanvas.Redraw !in calls[..i] ==> world.onNextStep == old(world.onNextStep)
        invariant world.renders == old(world.renders)
      {
        assert calls[..i + 1] == calls[..i] + [calls[i]];
        ArmedAfterAppend(old(assistantEnabled), calls[..i], [calls[i]]);
        assert [calls[i]][..0] == [];
        match calls[i]
        case DrawEnd(_) => assistantEnabled := true;
        case Deleted => assistantEnabled := false;
        case Redraw => world.onNextStep := InkCanvas.ArmRender;
      }
      assert calls[..|calls|] == calls;
    }

    /** A pointer-down: `onDrawStart` answers whether the top morph at the
        event allows drawing over it. */
    method PointerDown(evt: InkCanvas.PointerEvent, allowsDrawingOver: bool) returns (accepted: bool)
      requires wrapper.ink != wrapper.recognition.flag as object
      modifies wrapper, wrapper.ink, wrapper.flag
      ensures accepted <==> evt.pointerType == "pen" && allowsDrawingOver
      ensures accepted ==>
                wrapper.penID == Some(evt.pointerId) && wrapper.ink.forwarded == old(wrapper.ink.forwarded) + [StrokeStore.Down(evt.current)]
                && wrapper.flag.erasing == evt.isEraser
                && wrapper.ink.mode == (if evt.isEraser then StrokeStore.Erasing else StrokeStore.Inking)
      ensures !accepted ==>
                wrapper.penID == old(wrapper.penID) && wrapper.ink.forwarded == old(wrapper.ink.forwarded)
                && wrapper.ink.mode == old(wrapper.ink.mode) && wrapper.flag.erasing == old(wrapper.flag.erasing)
      ensures wrapper.ink.strokes == old(wrapper.ink.strokes) && wrapper.callbacks == old(wrapper.callbacks)
      ensures assistantEnabled == old(assistantEnabled)
    {
      accepted := wrapper.HandlePointerDown(evt, Some(allowsDrawingOver));
    }

    /** A pointer-up: when it ends the pen's stroke, an ink stroke arms the
        assistant and an erasing stroke leaves it disarmed, and the world
        renders the strokes two steps later. */
    method PointerUp(evt: InkCanvas.PointerEvent) returns (accepted: bool)
      requires wrapper.hasDrawEnd && wrapper.hasDelete
      modifies this, world, wrapper, wrapper.ink, wrapper.flag
      ensures accepted <==> old(wrapper.penID) == Some(evt.pointerId)
      ensures accepted ==> assistantEnabled == !old(wrapper.flag.erasing) && world.onNextStep == InkCanvas.ArmRender
      ensures !accepted ==> assistantEnabled == old(assistantEnabled) && world.onNextStep == old(world.onNextStep)
      ensures accepted ==>
                wrapper.penID == Some(-1) && wrapper.ink.forwarded == old(wrapper.ink.forwarded) + [StrokeStore.Up(evt.current)]
                && wrapper.ink.mode == StrokeStore.Inking && !wrapper.flag.erasing
      ensures !accepted ==>
                wrapper.penID == old(wrapper.penID) && wrapper.ink.forwarded == old(wrapper.ink.forwarded)
                && wrapper.ink.mode == old(wrapper.ink.mode) && wrapper.flag.erasing == old(wrapper.flag.erasing)
      ensures wrapper.ink.strokes == old(wrapper.ink.strokes)
      ensures wrapper.hasDrawEnd && wrapper.hasDelete
    {
      var before := wrapper.callbacks;
      ghost var erasing := wrapper.flag.erasing;
      accepted := wrapper.HandlePointerUp(evt);
      var calls := wrapper.callbacks[|before|..];
      ghost var ended := if accepted then StrokeEnded(evt.pointerId, erasing) else [];
      assert wrapper.callbacks == before + ended;
      DropPrefix(before, ended);
      StrokeEndedArms(old(assistantEnabled), evt.pointerId, erasing);
      RunCallbacks(calls);
    }

    /** One animation frame after the world's step: with the assistant
        armed, it is disarmed first and then one recognition pass starts;
        otherwise nothing happens. */
    method Loop() returns (started: bool, p: InkMorphicCoordinator.Pass?)
      modifies this, wrapper.recognition, wrapper.recognition.flag
      ensures !assistantEnabled
      ensures started <==> old(assistantEnabled)
      ensures !started ==> p == null
      ensures started ==> p != null && fresh(p) && p.Valid() && !p.grouped && p.pending == multiset{} && p.left == 0
      ensures started && !old(wrapper.recognition.flag.currentlyRecognizing) && wrapper.ink.strokes != [] ==>
                p.outcome.Pending? && wrapper.recognition.flag.currentlyRecognizing
      ensures started && (old(wrapper.recognition.flag.currentlyRecognizing) || wrapper.ink.strokes == []) ==>
                p.outcome == InkMorphicCoordinator.RecognitionPass.Rejected(InkMorphicCoordinator.RecognitionPass.BusyError)
                && wrapper.recognition.flag.currentlyRecognizing == old(wrapper.recognition.flag.currentlyRecognizing)
                && wrapper.recognition.results == old(wrapper.recognition.results)
      ensures !started ==>
                wrapper.recognition.flag.currentlyRecognizing == old(wrapper.recognition.flag.currentlyRecognizing)
                && wrapper.recognition.results == old(wrapper.recognition.results)
    {
      started := assistantEnabled;
      p := null;
      if assistantEnabled {
        assistantEnabled := false;
        p := wrapper.Recognize();
      }
    }

    /** The callback handed with each result: delete that result's strokes,
        which redraws and runs `onDelete`, so the assistant is disarmed. */
    method DeleteResultStrokes(given: seq<StrokeStore.Stroke>)
      requires wrapper.hasDelete
      modifies this, world, wrapper, wrapper.ink, wrapper.flag, set s | s in given
      ensures !assistantEnabled && world.onNextStep == InkCanvas.ArmRender
      ensures wrapper.ink.strokes ==
                StrokeStore.Keep(old(wrapper.ink.strokes), old(StrokeStore.SelectedOf(wrapper.ink.strokes)) + set s | s in given)
    {
      var before := wrapper.callbacks;
      wrapper.DeleteStrokes(given);
      var calls := wrapper.callbacks[|before|..];
      assert calls == [InkCanvas.Redraw, InkCanvas.Deleted];
      RunCallbacks(calls);
      assert calls[..1] == [InkCanvas.Redraw] && [InkCanvas.Redraw][..0] == [];
    }
  }

  // ---------------------------------------------------------------------
  // Results to morphs

  /** `target.respondToPossibleText(result.textCandidates,
      getStrokeBounds(strokes), deleteStrokes)` for the morph under
      `anchor`, the first stroke's `boundingRect` corner. */
  datatype Response = Response(anchor: Position, candidates: seq<string>, bounds: Bounds, group: GroupId)

  /** The responses to the results of a pass, in order, `rectsOf` giving
      each group's strokes' rectangles. A result without a group, or with
      an empty one, throws on `strokes[0]`, which ends the `forEach`. */
  function Responses(results: seq<GroupResult>, rectsOf: GroupId -> seq<Rect>): (r: seq<Response>)
    ensures |r| <= |results|
    ensures forall i :: 0 <= i < |r| ==>
              results[i].strokes.Some? && rectsOf(results[i].strokes.value) != []
              && r[i] == Response(Position(rectsOf(results[i].strokes.value)[0].x, rectsOf(results[i].strokes.value)[0].y),
                                  results[i].textCandidates, BoundsOf(rectsOf(results[i].strokes.value)),
                                  results[i].strokes.value)
    ensures |r| < |results| ==> results[|r|].strokes.None? || rectsOf(results[|r|].strokes.value) == []
  {
    if results == [] then []
    else
      var first := results[0];
      match first.strokes
      case None => []
      case Some(g) =>
        var rects := rectsOf(g);
        if rects == [] then []
        else [Response(Position(rects[0].x, rects[0].y), first.textCandidates, BoundsOf(rects), g)]
             + Responses(results[1..], rectsOf)
  }

  /** A pass whose results all carry non-empty groups gets one response per
      result. */
  lemma ResponsesComplete(results: seq<GroupResult>, rectsOf: GroupId -> seq<Rect>)
    requires forall i :: 0 <= i < |results| ==> results[i].strokes.Some? && rectsOf(results[i].strokes.value) != []
    ensures |Responses(results, rectsOf)| == |results|
  {
  }

  /** The results of `finishRecognition` over `groups` with no more lists
      than groups are answered in full when every group has strokes. */
  lemma PairedResultsAnswered(lists: seq<seq<string>>, groups: seq<GroupId>, rectsOf: GroupId -> seq<Rect>)
    requires |lists| <= |groups|
    requires forall i :: 0 <= i < |groups| ==> rectsOf(groups[i]) != []
    ensures |Responses(Pairing(lists, groups), rectsOf)| == |lists|
    ensures forall i :: 0 <= i < |lists| ==>
              Responses(Pairing(lists, groups), rectsOf)[i].candidates == lists[i]
              && Responses(Pairing(lists, groups), rectsOf)[i].group == groups[i]
  {
    ResponsesComplete(Pairing(lists, groups), rectsOf);
  }
}

=== FILE: assistant.dfy ===
/** The assistant of the js tree (`js/js/assistant.js`): the object it
    offers for a morph (`makeTarget`) and the help menu `showHelp` builds
    from the recognised texts. Its `sendMessage` and `getParamNames` are the
    ones of the recognizer front end, modelled there. */
module Assistant {
  import opened JsText
  import opened Targets
  import opened FuzzyMatch
  import opened MorphicExt
  import opened Recognizers

  // ---------------------------------------------------------------------
  // makeTarget

  const AddAsMorphBody: string := " { }"
  const MakeRectangleBody: string := " { var m = new Morph(); this.world.add(m); }"

  /** The two functions every target starts with. */
  const AssistantTarget: Target := [
    Entry("add as Morph", Function("function " + "()" + AddAsMorphBody)),
    Entry("make a Rectangle", Function("function" + "()" + MakeRectangleBody))
  ]

  /** `typeof f` for a key `f` of a `for (f in morph)` loop: a property name
      is a string. */
  function TypeOfKey(key: string): string {
    "string"
  }

  /** Where `key` sits among the entries, or their count if absent. */
  function KeyIndex(t: seq<Entry>, key: string): (r: nat)
    ensures r <= |t|
    ensures r < |t| ==> t[r].name == key
    ensures forall i :: 0 <= i < r ==> t[i].name != key
  {
    if t == [] then 0 else if t[0].name == key then 0 else 1 + KeyIndex(t[1..], key)
  }

  /** `t[key] = value` on a JavaScript object: replaces the member under an
      existing key, otherwise adds the key at the end. */
  function SetMember(t: Target, key: string, m: Member): (r: Target)
    ensures Entry(key, m) in r
    ensures forall e :: e in t && e.name != key ==> e in r
    ensures |r| == |t| || r == t + [Entry(key, m)]
  {
    var j := KeyIndex(t, key);
    if j < |t| then
      var r := t[j := Entry(key, m)];
      assert r[j] == Entry(key, m);
      assert forall i :: 0 <= i < |t| && i != j ==> r[i] == t[i];
      r
    else
      var r := t + [Entry(key, m)];
      assert r[|t|] == Entry(key, m);
      r
  }

  /** `makeTarget(morph)`: the loop over the morph's keys tests the type of
      the key, never of the member, so nothing is copied and the target is
      always the same two functions. */
  method MakeTarget(morphKeys: seq<string>) returns (t: Target)
    ensures t == AssistantTarget
  {
    t := AssistantTarget;
    for i := 0 to |morphKeys|
      invariant t == AssistantTarget
    {
      var f := morphKeys[i];
      if TypeOfKey(f) == "function" {
        t := SetMember(t, f, Function("function () { return m[f].apply(m, arguments); }"));
      }
    }
  }

  // ---------------------------------------------------------------------
  // Assistant.prototype.showHelp

  /** What one recognised text adds: its fuzzy matches, then the text. */
  function HelpBlock(obj: Target, text: string): (r: seq<string>)
    ensures |r| >= 1 && r[|r| - 1] == text
  {
    FunctionMatches(obj, text) + [text]
  }

  function HelpCandidates(obj: Target, texts: seq<string>): (r: seq<string>)
    ensures |r| >= |texts|
  {
    if texts == [] then []
    else HelpCandidates(obj, texts[..|texts| - 1]) + HelpBlock(obj, texts[|texts| - 1])
  }

  /** The `forEach` over the text candidates that reassigns `list`. */
  method HelpList(obj: Target, texts: seq<string>) returns (list: seq<string>)
    ensures list == HelpCandidates(obj, texts)
  {
    list := [];
    var i := 0;
    while i < |texts|
      invariant 0 <= i <= |texts|
      invariant list == HelpCandidates(obj, texts[..i])
    {
      HelpCandidatesStep(obj, texts, i);
      list := AddHelpText(obj, list, texts[i]);
      i := i + 1;
    }
    assert texts[..i] == texts;
  }

  lemma HelpCandidatesStep(obj: Target, texts: seq<string>, i: nat)
    requires i < |texts|
    ensures HelpCandidates(obj, texts[..i + 1]) == HelpCandidates(obj, texts[..i]) + HelpBlock(obj, texts[i])
  {
    assert texts[..i + 1][..i] == texts[..i];
  }

  /** One turn of that loop: the fuzzy matches, then the text. */
  method AddHelpText(obj: Target, list: seq<string>, text: string) returns (list': seq<string>)
    ensures list' == list + HelpBlock(obj, text)
  {
    var funcs := MatchFunctions(obj, text);
    list' := list + funcs;
    list' := list' + [text];
  }

  /** The menu `showHelp` adds for any morph. */
  function HelpMenu(texts: seq<string>): (r: seq<Candidate>)
    ensures Distinct(Captions(r))
  {
    UniqElements(HelpCandidates(AssistantTarget, texts));
    MenuItems(AssistantTarget, Uniq(HelpCandidates(AssistantTarget, texts)))
  }

  /** `showHelp(result)`: the target made for the morph under the first
      stroke, the candidate list, one item per distinct candidate; no menu
      without items. */
  method ShowHelp(morphKeys: seq<string>, texts: seq<string>) returns (items: seq<Candidate>, shown: bool)
    ensures items == HelpMenu(texts)
    ensures shown <==> texts != []
  {
    var target := MakeTarget(morphKeys);
    var list := HelpList(target, texts);
    items := AddMenuItems(target, Uniq(list));
    HelpMenuNonEmpty(target, texts);
    shown := |items| >= 1;
  }

  /** Every recognised text is offered. */
  lemma {:induction false} HelpOffersTexts(obj: Target, texts: seq<string>, i: nat)
    requires i < |texts|
    ensures texts[i] in HelpCandidates(obj, texts)
  {
    var n := |texts| - 1;
    var init, block := texts[..n], HelpBlock(obj, texts[n]);
    assert HelpCandidates(obj, texts) == HelpCandidates(obj, init) + block;
    if i == n {
      assert block[|block| - 1] in block;
    } else {
      HelpOffersTexts(obj, init, i);
      assert init[i] == texts[i];
    }
  }

  lemma HelpMenuNonEmpty(obj: Target, texts: seq<string>)
    ensures Uniq(HelpCandidates(obj, texts)) != [] <==> texts != []
  {
    var list := HelpCandidates(obj, texts);
    UniqElements(list);
    if texts != [] {
      HelpOffersTexts(obj, texts, 0);
      assert texts[0] in Uniq(list);
    }
  }

  /** Without one-character texts the assistant's list is the recognizer
      front end's: only the gesture table differs. */
  lemma {:induction false} HelpAgreesWithRecognizers(obj: Target, texts: seq<string>)
    requires forall i :: 0 <= i < |texts| ==> |texts[i]| >= 2
    ensures HelpCandidates(obj, texts) == RecognitionCandidates(obj, texts)
  {
    if texts != [] {
      var n := |texts| - 1;
      var init, last := texts[..n], texts[n];
      assert |last| >= 2;
      HelpAgreesWithRecognizers(obj, init);
      BlocksAgree(obj, last);
      assert HelpCandidates(obj, texts) == HelpCandidates(obj, init) + HelpBlock(obj, last);
      assert RecognitionCandidates(obj, texts) == RecognitionCandidates(obj, init) + RecognitionBlock(obj, last);
    }
  }

  lemma BlocksAgree(obj: Target, text: string)
    requires |text| >= 2
    ensures HelpBlock(obj, text) == RecognitionBlock(obj, text)
  {
    var m := FunctionMatches(obj, text);
    calc {
      RecognitionBlock(obj, text);
      [] + m + [text];
      { assert [] + m == m; }
      m + [text];
      HelpBlock(obj, text);
    }
  }

  /** The menu is the same whatever morph the strokes land on; its only
      functions are the two fixed ones, called directly, and every other
      item evaluates its text. */
  lemma HelpMenuItems(texts: seq<string>)
    ensures Captions(HelpMenu(texts)) == Uniq(HelpCandidates(AssistantTarget, texts))
    ensures forall c :: c in HelpMenu(texts) ==>
              if c.caption == "add as Morph" || c.caption == "make a Rectangle" then c.action == CallDirect(c.caption)
              else c.action == EvalText(c.caption)
  {
    forall c | c in HelpMenu(texts)
      ensures if c.caption == "add as Morph" || c.caption == "make a Rectangle" then c.action == CallDirect(c.caption)
              else c.action == EvalText(c.caption)
    {
      if IsFunction(AssistantTarget, c.caption) {
        FixedFunctionCalledDirectly(c.caption);
      } else {
        FixedFunctionsOnly(c.caption);
      }
    }
  }

  lemma FixedFunctionsOnly(name: string)
    ensures IsFunction(AssistantTarget, name) <==> name == "add as Morph" || name == "make a Rectangle"
  {
    var t := AssistantTarget;
    if name == "add as Morph" {
      assert Lookup(t, name) == Some(t[0].member);
    } else if name == "make a Rectangle" {
      assert t[0].name != name;
      assert Lookup(t, name) == Some(t[1].member);
    } else {
      assert forall i :: 0 <= i < |t| ==> t[i].name != name;
    }
  }

  lemma FixedFunctionCalledDirectly(name: string)
    requires IsFunction(AssistantTarget, name)
    ensures name == "add as Morph" || name == "make a Rectangle"
    ensures MakeFunctionFor(AssistantTarget, name) == CallDirect(name)
  {
    FixedFunctionsOnly(name);
    if name == "add as Morph" {
      NoParamNames("function ", AddAsMorphBody);
    } else {
      NoParamNames("function", MakeRectangleBody);
    }
  }
}

=== FILE: canvas.dfy ===
/** The pointer routing of the canvas wrappers: a pen-down passes the
    drawing gate, picks eraser or ink mode and remembers the pen's pointer
    id; moves and ups of that pointer only are forwarded to the stroke
    manager, the intermediate points of a move oldest first; a pen-up ends
    the stroke and redraws. The constructors set a field spelled `penId`,
    while the handlers test `penID`, which stays `undefined` (`None`) until
    the first pen-down. Drawing on the canvas is not modelled; the
    stroke manager records what it is handed. */
module InkCanvas {
  import opened JsText
  import opened Strokes
  import StrokeStore
  import InkMorphicCoordinator
  import JsCoordinator

  /** A pointer event: its type, its pointer id, the eraser bit of its
      current point, the current point and `intermediatePoints`, most
      recent first. */
  datatype PointerEvent = PointerEvent(
    pointerType: string, pointerId: int, isEraser: bool,
    current: Position, intermediate: seq<Position>)

  /** `processPointerUpdate` for each intermediate point, from the last
      index down to 0: the oldest point first. */
  function OldestFirst(points: seq<Position>): (r: seq<StrokeStore.PointerCall>)
    ensures |r| == |points|
    ensures forall k :: 0 <= k < |points| ==> r[k] == StrokeStore.Update(points[|points| - 1 - k])
  {
    seq(|points|, k requires 0 <= k < |points| => StrokeStore.Update(points[|points| - 1 - k]))
  }

  /** Forwarding oldest first reverses the event's list: the points of two
      consecutive lists of intermediate points, the later one first in the
      event, reach the stroke manager in the order they were taken. */
  lemma OldestFirstAppend(newer: seq<Position>, older: seq<Position>)
    ensures OldestFirst(newer + older) == OldestFirst(older) + OldestFirst(newer)
  {
  }

  /** Forwarding each point of `points`, from the last index down, is a
      loop shared by the three handlers. */
  method ForwardOldestFirst(manager: StrokeStore.StrokeManager, points: seq<Position>)
    modifies manager
    ensures manager.forwarded == old(manager.forwarded) + OldestFirst(points)
    ensures manager.strokes == old(manager.strokes) && manager.mode == old(manager.mode) && manager.style == old(manager.style)
  {
    var i := |points| - 1;
    while i >= 0
      invariant -1 <= i < |points|
      invariant manager.forwarded == old(manager.forwarded) + OldestFirst(points)[..|points| - 1 - i]
      invariant manager.strokes == old(manager.strokes) && manager.mode == old(manager.mode) && manager.style == old(manager.style)
    {
      assert OldestFirst(points)[..|points| - i] == OldestFirst(points)[..|points| - 1 - i] + [StrokeStore.Update(points[i])];
      manager.ProcessPointerUpdate(points[i]);
      i := i - 1;
    }
    assert OldestFirst(points)[..|points|] == OldestFirst(points);
  }

  // ---------------------------------------------------------------------
  // InkMorphicJS: InkCanvasWrapper

  /** The module-level `erasing`, shared by every wrapper. */
  class ErasingFlag {
    var erasing: bool

    constructor ()
      ensures !erasing
    {
      erasing := false;
    }
  }

  /** A configuration callback that ran, with what it could observe. */
  datatype Callback = DrawEnd(penIdAtCall: Option<int>) | Deleted | Redraw

  class InkMorphicWrapper {
    /** The ink half of `strokeManager`: strokes, mode, colour, points. */
    const ink: StrokeStore.StrokeManager
    /** Its recognition half. */
    const recognition: InkMorphicCoordinator.StrokeManager
    const flag: ErasingFlag
    /** Whether `onDrawEnd` and `onDelete` are set. */
    var hasDrawEnd: bool
    var hasDelete: bool
    /** `this.penId`, set by the constructor and never read. */
    var penId: int
    /** `this.penID`, set by pen-down and compared by the other handlers. */
    var penID: Option<int>
    /** The callbacks that have run, oldest first. */
    var callbacks: seq<Callback>

    constructor (ink: StrokeStore.StrokeManager, recognition: InkMorphicCoordinator.StrokeManager, flag: ErasingFlag)
      modifies ink, flag
      ensures this.ink == ink && this.recognition == recognition && this.flag == flag
      ensures !hasDrawEnd && !hasDelete && penId == -1 && penID == None && callbacks == []
      ensures ink.mode == StrokeStore.Inking && ink.style == "blue" && !flag.erasing
      ensures ink.strokes == old(ink.strokes) && ink.forwarded == old(ink.forwarded)
    {
      this.ink := ink;
      this.recognition := recognition;
      this.flag := flag;
      hasDrawEnd := false;
      hasDelete := false;
      penId := -1;
      penID := None;
      callbacks := [];
      new;
      InkMode();
    }

    /** Sets `onDrawEnd` and `onDelete`, as the application does. */
    method Configure(drawEnd: bool, delete: bool)
      modifies this
      ensures hasDrawEnd == drawEnd && hasDelete == delete
      ensures penID == old(penID) && callbacks == old(callbacks)
    {
      hasDrawEnd := drawEnd;
      hasDelete := delete;
    }

    /** `inkMode()`: blue ink, inking mode, `erasing` cleared. */
    method InkMode()
      modifies ink, flag
      ensures ink.mode == StrokeStore.Inking && ink.style == "blue" && !flag.erasing
      ensures ink.strokes == old(ink.strokes) && ink.forwarded == old(ink.forwarded)
    {
      ink.SetStrokeStyle("blue");
      ink.SetMode("inking");
      flag.erasing := false;
    }

    /** `eraserMode()`: erasing mode, `erasing` set. */
    method EraserMode()
      modifies ink, flag
      ensures ink.mode == StrokeStore.Erasing && flag.erasing
      ensures ink.strokes == old(ink.strokes) && ink.forwarded == old(ink.forwarded) && ink.style == old(ink.style)
    {
      ink.SetMode("erasing");
      flag.erasing := true;
    }

    /** `handlePointerDown(evt)`; `drawStart` is what `onDrawStart` returns,
        `None` when it is not set. */
    method HandlePointerDown(evt: PointerEvent, drawStart: Option<bool>) returns (accepted: bool)
      modifies this, ink, flag
      ensures accepted <==> evt.pointerType == "pen" && drawStart != Some(false)
      ensures accepted ==>
                penID == Some(evt.pointerId) && ink.forwarded == old(ink.forwarded) + [StrokeStore.Down(evt.current)]
                && flag.erasing == evt.isEraser
                && ink.mode == (if evt.isEraser then StrokeStore.Erasing else StrokeStore.Inking)
      ensures !accepted ==>
                penID == old(penID) && ink.forwarded == old(ink.forwarded) && ink.mode == old(ink.mode)
                && flag.erasing == old(flag.erasing)
      ensures ink.strokes == old(ink.strokes) && callbacks == old(callbacks)
      ensures hasDrawEnd == old(hasDrawEnd) && hasDelete == old(hasDelete)
    {
      accepted := false;
      if evt.pointerType == "pen" {
        if drawStart == Some(false) {
          return;
        }
        if evt.isEraser {
          EraserMode();
        } else {
          InkMode();
        }
        ink.ProcessPointerDown(evt.current);
        penID := Some(evt.pointerId);
        accepted := true;
      }
    }

    /** `handlePointerMove(evt)`: only the pen's pointer is followed. */
    method HandlePointerMove(evt: PointerEvent) returns (accepted: bool)
      modifies ink
      ensures accepted <==> penID == Some(evt.pointerId)
      ensures accepted ==> ink.forwarded == old(ink.forwarded) + OldestFirst(evt.intermediate)
      ensures !accepted ==> ink.forwarded == old(ink.forwarded)
      ensures ink.strokes == old(ink.strokes) && ink.mode == old(ink.mode) && ink.style == old(ink.style)
    {
      accepted := penID == Some(evt.pointerId);
      if accepted {
        ForwardOldestFirst(ink, evt.intermediate);
      }
    }

    /** `handlePointerUp(evt)`: `onDrawEnd` runs while `penID` still holds
        the pen's id, then `penID` becomes -1 and the up point is
        forwarded; `onDelete` runs if the stroke was an erasing one, by
        this wrapper or any other; `changed()` returns to ink mode and
        asks for a redraw. */
    method HandlePointerUp(evt: PointerEvent) returns (accepted: bool)
      modifies this, ink, flag
      ensures accepted <==> old(penID) == Some(evt.pointerId)
      ensures accepted ==>
                penID == Some(-1) && ink.forwarded == old(ink.forwarded) + [StrokeStore.Up(evt.current)]
                && callbacks == old(callbacks)
                   + (if hasDrawEnd then [DrawEnd(Some(evt.pointerId))] else [])
                   + (if old(flag.erasing) && hasDelete then [Deleted] else [])
                   + [Redraw]
                && ink.mode == StrokeStore.Inking && !flag.erasing
      ensures !accepted ==>
                penID == old(penID) && ink.forwarded == old(ink.forwarded) && callbacks == old(callbacks)
                && ink.mode == old(ink.mode) && flag.erasing == old(flag.erasing)
      ensures ink.strokes == old(ink.strokes)
      ensures hasDrawEnd == old(hasDrawEnd) && hasDelete == old(hasDelete)
    {
      accepted := penID == Some(evt.pointerId);
      if accepted {
        if hasDrawEnd {
          callbacks := callbacks + [DrawEnd(penID)];
        }
        penID := Some(-1);
        ink.ProcessPointerUp(evt.current);
        if flag.erasing && hasDelete {
          callbacks := callbacks + [Deleted];
        }
        Changed();
      }
    }

    /** `changed()`: back to ink mode, then `onRedraw`. */
    method Changed()
      modifies this, ink, flag
      ensures callbacks == old(callbacks) + [Redraw]
      ensures ink.mode == StrokeStore.Inking && ink.style == "blue" && !flag.erasing
      ensures ink.strokes == old(ink.strokes) && ink.forwarded == old(ink.forwarded)
      ensures penID == old(penID) && hasDrawEnd == old(hasDrawEnd) && hasDelete == old(hasDelete)
    {
      InkMode();
      callbacks := callbacks + [Redraw];
    }

    /** `deleteStrokes(strokes)`: delegated, then a redraw, then `onDelete`. */
    method DeleteStrokes(given: seq<StrokeStore.Stroke>)
      modifies this, ink, flag, set s | s in given
      ensures ink.strokes == StrokeStore.Keep(old(ink.strokes), old(StrokeStore.SelectedOf(ink.strokes)) + set s | s in given)
      ensures forall s :: s in given ==> s.selected
      ensures callbacks == old(callbacks) + [Redraw] + (if hasDelete then [Deleted] else [])
      ensures ink.forwarded == old(ink.forwarded) && penID == old(penID)
      ensures hasDrawEnd == old(hasDrawEnd) && hasDelete == old(hasDelete)
    {
      ink.DeleteStrokes(given);
      Changed();
      if hasDelete {
        callbacks := callbacks + [Deleted];
      }
    }

    /** `recognize()`: the stroke manager's pass, settled as it settles. */
    method Recognize() returns (p: InkMorphicCoordinator.Pass)
      modifies recognition, recognition.flag
      ensures fresh(p) && p.Valid() && !p.grouped && p.pending == multiset{} && p.left == 0
      ensures old(recognition.flag.currentlyRecognizing) || ink.strokes == [] ==>
                p.outcome == InkMorphicCoordinator.RecognitionPass.Rejected(InkMorphicCoordinator.RecognitionPass.BusyError)
                && recognition.flag.currentlyRecognizing == old(recognition.flag.currentlyRecognizing)
                && recognition.results == old(recognition.results)
      ensures !old(recognition.flag.currentlyRecognizing) && ink.strokes != [] ==>
                p.outcome.Pending? && recognition.flag.currentlyRecognizing && recognition.results == []
    {
      p := recognition.Recognize(|ink.strokes|);
    }
  }

  // ---------------------------------------------------------------------
  // js: InkCanvasWrapper

  class JsWrapper {
    const ink: StrokeStore.StrokeManager
    const recognition: JsCoordinator.StrokeManager
    var penId: int
    var penID: Option<int>
    /** How many times `redrawCallback` has run. */
    var redraws: nat

    constructor (ink: StrokeStore.StrokeManager, recognition: JsCoordinator.StrokeManager)
      modifies ink
      ensures this.ink == ink && this.recognition == recognition
      ensures penId == -1 && penID == None && redraws == 0
      ensures ink.mode == StrokeStore.Inking && ink.style == "blue"
      ensures ink.strokes == old(ink.strokes) && ink.forwarded == old(ink.forwarded)
    {
      this.ink := ink;
      this.recognition := recognition;
      penId := -1;
      penID := None;
      redraws := 0;
      new;
      ink.SetStrokeStyle("blue");
      ink.SetMode("inking");
    }

    /** `handlePointerDown(evt)`; `drawTest` is what `this.drawTest`
        returns, `None` when it is not set. */
    method HandlePointerDown(evt: PointerEvent, drawTest: Option<bool>) returns (accepted: bool)
      modifies this, ink
      ensures accepted <==> evt.pointerType == "pen" && drawTest != Some(false)
      ensures accepted ==>
                penID == Some(evt.pointerId) && ink.forwarded == old(ink.forwarded) + [StrokeStore.Down(evt.current)]
                && ink.mode == (if evt.isEraser then StrokeStore.Erasing else StrokeStore.Inking)
      ensures !accepted ==> penID == old(penID) && ink.forwarded == old(ink.forwarded) && ink.mode == old(ink.mode)
      ensures ink.strokes == old(ink.strokes) && redraws == old(redraws)
    {
      accepted := false;
      if evt.pointerType == "pen" {
        if drawTest == Some(false) {
          return;
        }
        if evt.isEraser {
          ink.SetMode("erasing");
        } else {
          ink.SetStrokeStyle("blue");
          ink.SetMode("inking");
        }
        ink.ProcessPointerDown(evt.current);
        penID := Some(evt.pointerId);
        accepted := true;
      }
    }

    method HandlePointerMove(evt: PointerEvent) returns (accepted: bool)
      modifies ink
      ensures accepted <==> penID == Some(evt.pointerId)
      ensures accepted ==> ink.forwarded == old(ink.forwarded) + OldestFirst(evt.intermediate)
      ensures !accepted ==> ink.forwarded == old(ink.forwarded)
      ensures ink.strokes == old(ink.strokes) && ink.mode == old(ink.mode) && ink.style == old(ink.style)
    {
      accepted := penID == Some(evt.pointerId);
      if accepted {
        ForwardOldestFirst(ink, evt.intermediate);
      }
    }

    /** `handlePointerUp(evt)`: `penID` becomes -1, the up point is
        forwarded, and `changed()` returns to ink mode and redraws. */
    method HandlePointerUp(evt: PointerEvent) returns (accepted: bool)
      modifies this, ink
      ensures accepted <==> old(penID) == Some(evt.pointerId)
      ensures accepted ==>
                penID == Some(-1) && ink.forwarded == old(ink.forwarded) + [StrokeStore.Up(evt.current)]
                && ink.mode == StrokeStore.Inking && redraws == old(redraws) + 1
      ensures !accepted ==>
                penID == old(penID) && ink.forwarded == old(ink.forwarded) && ink.mode == old(ink.mode)
                && redraws == old(redraws)
      ensures ink.strokes == old(ink.strokes)
    {
      accepted := penID == Some(evt.pointerId);
      if accepted {
        penID := Some(-1);
        ink.ProcessPointerUp(evt.current);
        Changed();
      }
    }

    method Changed()
      modifies this, ink
      ensures redraws == old(redraws) + 1 && penID == old(penID)
      ensures ink.mode == StrokeStore.Inking && ink.style == "blue"
      ensures ink.strokes == old(ink.strokes) && ink.forwarded == old(ink.forwarded)
    {
      ink.SetStrokeStyle("blue");
      ink.SetMode("inking");
      redraws := redraws + 1;
    }

    /** `deleteStrokes(strokes)`: delegated, then a redraw. */
    method DeleteStrokes(given: seq<StrokeStore.Stroke>)
      modifies this, ink, set s | s in given
      ensures ink.strokes == StrokeStore.Keep(old(ink.strokes), old(StrokeStore.SelectedOf(ink.strokes)) + set s | s in given)
      ensures forall s :: s in given ==> s.selected
      ensures redraws == old(redraws) + 1 && ink.forwarded == old(ink.forwarded) && penID == old(penID)
    {
      ink.DeleteStrokes(given);
      Changed();
    }

    /** `recognize()`: exactly the stroke manager's pass. */
    method Recognize() returns (p: JsCoordinator.Pass)
      modifies recognition.lock
      ensures fresh(p) && p.Valid() && !p.grouped
      ensures old(recognition.lock.current).Some? || ink.strokes == [] ==>
                p.outcome == JsCoordinator.RecognitionPass.Rejected(JsCoordinator.RecognitionPass.BusyError)
                && recognition.lock.current == old(recognition.lock.current)
      ensures old(recognition.lock.current).None? && ink.strokes != [] ==>
                p.outcome.Pending? && recognition.lock.current == Some([])
    {
      p := recognition.Recognize(|ink.strokes|);
    }
  }

  // ---------------------------------------------------------------------
  // js: InkCanvasManager

  /** What the world will run on its next step. */
  datatype NextStep = Nothing | ArmRender | RenderStrokes

  /** The morphic world, as far as the canvas manager uses it. The world
      takes `onNextStep` away before running it. */
  class World {
    var onNextStep: NextStep
    /** How many times the strokes have been rendered. */
    var renders: nat

    constructor ()
      ensures onNextStep == Nothing && renders == 0
    {
      onNextStep := Nothing;
      renders := 0;
    }

    /** One world step. */
    method Step()
      modifies this
      ensures old(onNextStep) == Nothing ==> onNextStep == Nothing && renders == old(renders)
      ensures old(onNextStep) == ArmRender ==> onNextStep == RenderStrokes && renders == old(renders)
      ensures old(onNextStep) == RenderStrokes ==> onNextStep == Nothing && renders == old(renders) + 1
    {
      var next := onNextStep;
      onNextStep := Nothing;
      match next
      case Nothing =>
      case ArmRender => onNextStep := RenderStrokes;
      case RenderStrokes => renders := renders + 1;
    }
  }

  class CanvasManager {
    const ink: StrokeStore.StrokeManager
    const world: World
    var penId: int
    var penID: Option<int>

    constructor (world: World, ink: StrokeStore.StrokeManager)
      modifies ink
      ensures this.ink == ink && this.world == world && penId == -1 && penID == None
      ensures ink.mode == StrokeStore.Inking && ink.style == "blue"
      ensures ink.strokes == old(ink.strokes) && ink.forwarded == old(ink.forwarded)
    {
      this.ink := ink;
      this.world := world;
      penId := -1;
      penID := None;
      new;
      ink.SetStrokeStyle("blue");
      ink.SetMode("inking");
    }

    /** `handlePointerDown(evt)`; `allowsDrawingOver` is the answer of the
        top morph at the event's position. */
    method HandlePointerDown(evt: PointerEvent, allowsDrawingOver: bool) returns (accepted: bool)
      modifies this, ink
      ensures accepted <==> evt.pointerType == "pen" && allowsDrawingOver
      ensures accepted ==>
                penID == Some(evt.pointerId) && ink.forwarded == old(ink.forwarded) + [StrokeStore.Down(evt.current)]
                && ink.mode == (if evt.isEraser then StrokeStore.Erasing else StrokeStore.Inking)
      ensures !accepted ==> penID == old(penID) && ink.forwarded == old(ink.forwarded) && ink.mode == old(ink.mode)
      ensures ink.strokes == old(ink.strokes)
    {
      accepted := false;
      if evt.pointerType == "pen" {
        if !allowsDrawingOver {
          return;
        }
        if evt.isEraser {
          ink.SetMode("erasing");
        } else {
          ink.SetStrokeStyle("blue");
          ink.SetMode("inking");
        }
        ink.ProcessPointerDown(evt.current);
        penID := Some(evt.pointerId);
        accepted := true;
      }
    }

    method HandlePointerMove(evt: PointerEvent) returns (accepted: bool)
      modifies ink
      ensures accepted <==> penID == Some(evt.pointerId)
      ensures accepted ==> ink.forwarded == old(ink.forwarded) + OldestFirst(evt.intermediate)
      ensures !accepted ==> ink.forwarded == old(ink.forwarded)
      ensures ink.strokes == old(ink.strokes) && ink.mode == old(ink.mode) && ink.style == old(ink.style)
    {
      accepted := penID == Some(evt.pointerId);
      if accepted {
        ForwardOldestFirst(ink, evt.intermediate);
      }
    }

    method HandlePointerUp(evt: PointerEvent) returns (accepted: bool)
      modifies this, ink, world
      ensures accepted <==> old(penID) == Some(evt.pointerId)
      ensures accepted ==>
                penID == Some(-1) && ink.forwarded == old(ink.forwarded) + [StrokeStore.Up(evt.current)]
                && ink.mode == StrokeStore.Inking && world.onNextStep == ArmRender
      ensures !accepted ==>
                penID == old(penID) && ink.forwarded == old(ink.forwarded) && ink.mode == old(ink.mode)
                && world.onNextStep == old(world.onNextStep)
      ensures ink.strokes == old(ink.strokes) && world.renders == old(world.renders)
    {
      accepted := penID == Some(evt.pointerId);
      if accepted {
        penID := Some(-1);
        ink.ProcessPointerUp(evt.current);
        Changed();
      }
    }

    /** `changed()`: ink mode, then a render of the strokes scheduled for
        the second world step from now, not the first. */
    method Changed()
      modifies ink, world
      ensures world.onNextStep == ArmRender && world.renders == old(world.renders)
      ensures ink.mode == StrokeStore.Inking && ink.style == "blue"
      ensures ink.strokes == old(ink.strokes) && ink.forwarded == old(ink.forwarded)
    {
      ink.SetStrokeStyle("blue");
      ink.SetMode("inking");
      world.onNextStep := ArmRender;
    }

    /** `deleteStrokes(strokes)`: delegated, then `changed()`. */
    method DeleteStrokes(given: seq<StrokeStore.Stroke>)
      modifies ink, world, set s | s in given
      ensures ink.strokes == StrokeStore.Keep(old(ink.strokes), old(StrokeStore.SelectedOf(ink.strokes)) + set s | s in given)
      ensures forall s :: s in given ==> s.selected
      ensures world.onNextStep == ArmRender && ink.forwarded == old(ink.forwarded)
    {
      ink.DeleteStrokes(given);
      Changed();
    }
  }
}

=== FILE: coordinator_inkmorphic.dfy ===
/** `StrokeManager.recognize` of the InkMorphicJS copy, driven by the events
    its promises would deliver: the call itself, the platform's grouping
    settling one way or the other, and each recognizer call settling. The
    single-flight flag is module-level and is released as soon as grouping
    settles, so a new pass may start, and reset the manager's candidate
    lists, while recognizers of the previous pass are still out. */
module InkMorphicCoordinator {
  import opened JsText
  import opened RecognitionPass

  /** The module-level `currentlyRecognizing`, shared by every manager. */
  class RecognitionFlag {
    var currentlyRecognizing: bool

    constructor ()
      ensures !currentlyRecognizing
    {
      currentlyRecognizing := false;
    }
  }

  /** One call of `recognize` and the variables its callbacks close over. */
  class Pass {
    /** Grouping has succeeded and the recognizers have been started. */
    var grouped: bool
    /** `strokeGroups`. */
    var groups: seq<GroupId>
    /** Each group's `resultId`, which a callback may reset to 0. */
    var slots: seq<nat>
    /** The recognizer calls that have not settled yet, by group index. */
    var pending: multiset<GroupId>
    /** `recognizersLeftToProcess`. */
    var left: int
    var outcome: Outcome
    /** The platform's alternates per group, and the results delivered to
        each group so far, in order of arrival. */
    ghost var alternates: seq<seq<string>>
    ghost var delivered: seq<seq<seq<string>>>

    constructor (outcome: Outcome)
      ensures !grouped && groups == [] && slots == [] && pending == multiset{} && left == 0
      ensures this.outcome == outcome && alternates == [] && delivered == []
    {
      grouped := false;
      groups := [];
      slots := [];
      pending := multiset{};
      left := 0;
      this.outcome := outcome;
      alternates := [];
      delivered := [];
    }

    /** Outstanding calls belong to groups of the pass, and the fan-in
        counter never falls below their number. */
    ghost predicate Valid()
      reads this
    {
      |slots| == |groups| && |alternates| == |delivered|
      && (forall g :: g in pending ==> g < |groups|)
      && (!grouped ==> pending == multiset{})
      && left >= |pending|
    }

    /** No callback has thrown: the counter is exactly the number of
        outstanding calls. */
    predicate Exact()
      reads this
    {
      left == |pending|
    }

    /** `determineStrokeGroups` resolved with `groups`. */
    method Group(groups: seq<GroupId>, alternates: seq<seq<string>>)
      requires |groups| == |alternates|
      modifies this
      ensures grouped && this.groups == groups && slots == Indexes(|groups|)
      ensures this.alternates == alternates && delivered == NoneDelivered(|groups|)
      ensures pending == old(pending) && left == old(left) && outcome == old(outcome)
    {
      grouped := true;
      this.groups := groups;
      slots := Indexes(|groups|);
      this.alternates := alternates;
      delivered := NoneDelivered(|groups|);
    }

    /** A recognizer call on group `g` has settled. */
    method Settled(g: GroupId)
      requires g in pending
      modifies this
      ensures pending == old(pending) - multiset{g} && |pending| == |old(pending)| - 1
      ensures grouped == old(grouped) && groups == old(groups) && slots == old(slots) && left == old(left)
      ensures outcome == old(outcome) && alternates == old(alternates) && delivered == old(delivered)
    {
      pending := pending - multiset{g};
    }

    /** `resultId = 0` for group `g`. */
    method ResetSlot(g: GroupId)
      requires g < |slots|
      modifies this
      ensures slots == old(slots)[g := 0]
      ensures grouped == old(grouped) && groups == old(groups) && pending == old(pending) && left == old(left)
      ensures outcome == old(outcome) && alternates == old(alternates) && delivered == old(delivered)
    {
      slots := slots[g := 0];
    }

    /** Records `names` as delivered to group `g`. */
    ghost method Deliver(g: GroupId, names: seq<string>)
      modifies this
      ensures delivered == if g < |old(delivered)| then old(delivered)[g := old(delivered)[g] + [names]] else old(delivered)
      ensures grouped == old(grouped) && groups == old(groups) && slots == old(slots) && pending == old(pending)
      ensures left == old(left) && outcome == old(outcome) && alternates == old(alternates)
    {
      if g < |delivered| {
        delivered := delivered[g := delivered[g] + [names]];
      }
    }

    /** `--recognizersLeftToProcess`, resolving with `lists` paired with the
        groups when the counter drops to 0 or below. */
    method CountDown(lists: seq<seq<string>>)
      modifies this
      ensures left == old(left) - 1
      ensures outcome == (if left <= 0 then Settle(old(outcome), Resolved(Pairing(lists, groups))) else old(outcome))
      ensures grouped == old(grouped) && groups == old(groups) && slots == old(slots) && pending == old(pending)
      ensures alternates == old(alternates) && delivered == old(delivered)
    {
      left := left - 1;
      if left <= 0 {
        outcome := Settle(outcome, Resolved(Pairing(lists, groups)));
      }
    }

    /** `recognizersLeftToProcess++` once per registered recognizer, for the
        recognizers started on group `g`. */
    method StartCalls(g: GroupId, recognizerCount: nat)
      modifies this
      ensures pending == old(pending) + Copies(g, recognizerCount)
      ensures left == old(left) + recognizerCount
      ensures grouped == old(grouped) && groups == old(groups) && slots == old(slots) && outcome == old(outcome)
      ensures alternates == old(alternates) && delivered == old(delivered)
    {
      for r := 0 to recognizerCount
        invariant pending == old(pending) + Copies(g, r)
        invariant left == old(left) + r
        invariant grouped == old(grouped) && groups == old(groups) && slots == old(slots) && outcome == old(outcome)
        invariant alternates == old(alternates) && delivered == old(delivered)
      {
        left := left + 1;
        AddCopy(old(pending), g, r);
        pending := pending + multiset{g};
      }
    }
  }

  function Indexes(n: nat): (r: seq<nat>)
    ensures |r| == n && forall i :: 0 <= i < n ==> r[i] == i
  {
    seq(n, i requires 0 <= i < n => i)
  }

  function NoneDelivered(n: nat): (r: seq<seq<seq<string>>>)
    ensures |r| == n && forall i :: 0 <= i < n ==> r[i] == []
  {
    seq(n, i requires 0 <= i < n => [])
  }

  class StrokeManager {
    const flag: RecognitionFlag
    /** `this.recognizers.length`. */
    const recognizerCount: nat
    /** `this.currentRecognitionResults`: one candidate list per group. */
    var results: seq<seq<string>>

    constructor (flag: RecognitionFlag, recognizerCount: nat)
      ensures this.flag == flag && this.recognizerCount == recognizerCount && results == []
    {
      this.flag := flag;
      this.recognizerCount := recognizerCount;
      results := [];
    }

    /** The manager's lists are the pass's alternates followed by what was
        delivered for each group, and every group still writes to its own
        list. */
    ghost predicate Accumulates(p: Pass)
      reads this, p
    {
      p.grouped && |p.alternates| == |p.groups| && |p.delivered| == |p.groups| && |p.slots| == |p.groups|
      && (forall i :: 0 <= i < |p.slots| ==> p.slots[i] == i)
      && results == Accumulated(p.alternates, p.delivered)
    }

    /** `recognize()`: refused while any manager's pass holds the flag or
        when there are no strokes; otherwise it takes the flag, empties the
        candidate lists and starts grouping. */
    method Recognize(strokeCount: nat) returns (p: Pass)
      modifies this, flag
      ensures fresh(p) && p.Valid() && !p.grouped && p.pending == multiset{} && p.left == 0
      ensures old(flag.currentlyRecognizing) || strokeCount == 0 ==>
                p.outcome == Rejected(BusyError) && flag.currentlyRecognizing == old(flag.currentlyRecognizing)
                && results == old(results)
      ensures !old(flag.currentlyRecognizing) && strokeCount > 0 ==>
                p.outcome == Pending && flag.currentlyRecognizing && results == []
    {
      if flag.currentlyRecognizing || strokeCount == 0 {
        p := new Pass(Rejected(BusyError));
      } else {
        flag.currentlyRecognizing := true;
        results := [];
        p := new Pass(Pending);
      }
    }

    /** Grouping succeeded with `groups` and, for each, the platform's
        alternates: `determineStrokeGroups` appends the alternates to the
        candidate lists, the flag is released, and every group starts every
        recognizer; with no recognizers the pass resolves at the first
        group. */
    method GroupsResolved(p: Pass, groups: seq<GroupId>, alternates: seq<seq<string>>)
      requires p.Valid() && !p.grouped && p.outcome.Pending? && p.left == 0
      requires |groups| == |alternates|
      modifies this, flag, p
      ensures !flag.currentlyRecognizing
      ensures results == old(results) + alternates
      ensures p.Valid() && p.Exact() && p.grouped && p.groups == groups && p.slots == Indexes(|groups|)
      ensures p.alternates == alternates && p.delivered == NoneDelivered(|groups|)
      ensures recognizerCount == 0 ==>
                p.pending == multiset{} && p.outcome == (if groups == [] then Pending else Resolved(Pairing(results, groups)))
      ensures recognizerCount > 0 ==> p.pending == Calls(|groups|, recognizerCount) && p.outcome == Pending
      ensures p.left == |groups| * recognizerCount
      ensures old(results) == [] ==> Accumulates(p)
    {
      results := results + alternates;
      flag.currentlyRecognizing := false;
      p.Group(groups, alternates);
      FanOut(p);
      if recognizerCount == 0 {
        NoCalls(|groups|, 0);
      }
      if old(results) == [] {
        NothingDelivered(alternates);
        assert NoneDelivered(|groups|) == seq(|alternates|, i => []);
      }
    }

    /** The `forEach` over the groups: each starts every recognizer, or,
        with none registered, resolves the pass. */
    method FanOut(p: Pass)
      requires p.left == 0 && p.pending == multiset{} && p.outcome.Pending?
      modifies p
      ensures p.pending == Calls(|p.groups|, recognizerCount) && p.left == |p.groups| * recognizerCount
      ensures p.left == |p.pending| && forall h :: h in p.pending ==> h < |p.groups|
      ensures recognizerCount == 0 ==>
                p.outcome == (if p.groups == [] then Pending else Resolved(Pairing(results, p.groups)))
      ensures recognizerCount > 0 ==> p.outcome == Pending
      ensures p.grouped == old(p.grouped) && p.groups == old(p.groups) && p.slots == old(p.slots)
      ensures p.alternates == old(p.alternates) && p.delivered == old(p.delivered)
    {
      for g := 0 to |p.groups|
        invariant p.grouped == old(p.grouped) && p.groups == old(p.groups) && p.slots == old(p.slots)
        invariant p.alternates == old(p.alternates) && p.delivered == old(p.delivered)
        invariant p.pending == Calls(g, recognizerCount) && p.left == g * recognizerCount
        invariant recognizerCount == 0 ==> p.outcome == (if g == 0 then Pending else Resolved(Pairing(results, p.groups)))
        invariant recognizerCount > 0 ==> p.outcome == Pending
      {
        StartGroup(p, g);
      }
      CallsBounded(|p.groups|, recognizerCount);
    }

    /** The body of that `forEach` for group `g`: with no recognizers the
        pass resolves (only the first resolution counts); otherwise every
        recognizer is started on the group. */
    method StartGroup(p: Pass, g: GroupId)
      requires p.pending == Calls(g, recognizerCount) && p.left == g * recognizerCount
      modifies p
      ensures p.pending == Calls(g + 1, recognizerCount) && p.left == (g + 1) * recognizerCount
      ensures recognizerCount == 0 ==> p.outcome == Settle(old(p.outcome), Resolved(Pairing(results, p.groups)))
      ensures recognizerCount > 0 ==> p.outcome == old(p.outcome)
      ensures p.grouped == old(p.grouped) && p.groups == old(p.groups) && p.slots == old(p.slots)
      ensures p.alternates == old(p.alternates) && p.delivered == old(p.delivered)
    {
      if recognizerCount == 0 {
        p.outcome := Settle(p.outcome, Resolved(Pairing(results, p.groups)));
        assert Calls(g + 1, 0) == Calls(g, 0) + Copies(g, 0) == Calls(g, 0);
      } else {
        p.StartCalls(g, recognizerCount);
        assert (g + 1) * recognizerCount == g * recognizerCount + recognizerCount;
      }
    }

    /** Grouping failed: the flag is released and the pass is rejected. */
    method GroupingFailed(p: Pass)
      requires p.Valid() && !p.grouped && p.outcome.Pending?
      modifies flag, p
      ensures !flag.currentlyRecognizing
      ensures p.outcome == Rejected(GroupingError) && p.Valid() && !p.grouped
    {
      flag.currentlyRecognizing := false;
      p.outcome := Rejected(GroupingError);
    }

    /** A recognizer started on group `g` answered `names`. If the lists
        were emptied by a later pass meanwhile, the answer goes to a fresh
        list 0 and the group writes there from then on; if the group's list
        does not exist, the callback throws before counting down. */
    method RecognizerAnswered(p: Pass, g: GroupId, names: seq<string>)
      requires p.Valid() && p.grouped && g in p.pending
      modifies this, p
      ensures p.Valid() && p.grouped && p.groups == old(p.groups)
      ensures p.pending == old(p.pending) - multiset{g}
      ensures old(results) == [] ==> results == [names] && p.slots == old(p.slots)[g := 0] && p.left == old(p.left) - 1
      ensures old(results) != [] && old(p.slots[g]) >= |old(results)| ==>
                results == old(results) && p.left == old(p.left) && p.outcome == old(p.outcome)
      ensures old(results) != [] && old(p.slots[g]) < |old(results)| ==>
                results == old(results)[old(p.slots[g]) := old(results)[old(p.slots[g])] + names]
                && p.left == old(p.left) - 1
      // the first settlement of the pass wins
      ensures !old(p.outcome).Pending? ==> p.outcome == old(p.outcome)
      // the pass resolves only once every call has settled, with the lists it has then
      ensures old(p.outcome).Pending? && p.outcome.Resolved? ==>
                p.pending == multiset{} && p.outcome == Resolved(Pairing(results, p.groups))
      ensures old(p.outcome).Pending? && p.Exact() && p.pending == multiset{} ==>
                p.outcome == Resolved(Pairing(results, p.groups))
      // once a callback has thrown, the pass can no longer resolve
      ensures old(p.left > |p.pending|) ==> p.left > |p.pending|
      ensures old(Accumulates(p)) ==>
                Accumulates(p) && p.alternates == old(p.alternates)
                && p.delivered == old(p.delivered)[g := old(p.delivered)[g] + [names]]
    {
      p.Settled(g);
      if |results| == 0 {
        results := [[]];
        p.ResetSlot(g);
      }
      var slot := p.slots[g];
      if slot < |results| {
        p.Deliver(g, names);
        results := results[slot := results[slot] + names];
        p.CountDown(results);
      }
      assert [] + names == names;
      if old(Accumulates(p)) {
        Deliver(p.alternates, old(p.delivered), g, names);
      }
    }

    /** A recognizer started on group `g` failed with `error`: the counter
        goes down, which resolves the pass if this was the last call, and
        then the pass is rejected, which only has an effect otherwise. */
    method RecognizerFailed(p: Pass, g: GroupId, error: string)
      requires p.Valid() && p.grouped && g in p.pending
      modifies p
      ensures p.Valid() && p.grouped && p.groups == old(p.groups)
      ensures p.pending == old(p.pending) - multiset{g}
      ensures p.left == old(p.left) - 1
      ensures p.slots == old(p.slots) && p.alternates == old(p.alternates) && p.delivered == old(p.delivered)
      // the first settlement of the pass wins
      ensures !old(p.outcome).Pending? ==> p.outcome == old(p.outcome)
      // a failure that is not the last to settle rejects the pass
      ensures old(p.outcome).Pending? && p.pending != multiset{} ==> p.outcome == Rejected(error)
      // the last one resolves it, if no callback has thrown
      ensures old(p.outcome).Pending? && p.outcome.Resolved? ==>
                p.pending == multiset{} && p.outcome == Resolved(Pairing(results, p.groups))
      ensures old(p.outcome).Pending? && p.Exact() && p.pending == multiset{} ==>
                p.outcome == Resolved(Pairing(results, p.groups))
      ensures old(p.left > |p.pending|) ==> p.left > |p.pending|
    {
      p.Settled(g);
      p.CountDown(results);
      p.outcome := Settle(p.outcome, Rejected(error));
    }
  }
}

=== FILE: coordinator_js.dfy ===
/** `StrokeManager.recognize` of the js copy. Here the module-level
    `currentRecognitionResults` is both the candidate lists and the
    single-flight lock: `null` means free. Only `finishRecognition` sets it
    back to `null`, and only the call that brings the fan-in counter to
    exactly 0 reaches it, so a pass whose grouping fails, or that has no
    group or no recognizer, keeps the lock for good. */
module JsCoordinator {
  import opened JsText
  import opened RecognitionPass

  /** The module-level `currentRecognitionResults`; `None` is `null`. */
  class ResultsLock {
    var current: Option<seq<seq<string>>>

    constructor ()
      ensures current == None
    {
      current := None;
    }
  }

  /** One call of `recognize` and the variables its callbacks close over. */
  class Pass {
    var grouped: bool
    var groups: seq<GroupId>
    /** The recognizer calls that have not settled yet, by group index. */
    var pending: multiset<GroupId>
    /** `recognizersLeftToProcess`. */
    var left: int
    var outcome: Outcome
    ghost var alternates: seq<seq<string>>
    ghost var delivered: seq<seq<seq<string>>>

    constructor (outcome: Outcome)
      ensures !grouped && groups == [] && pending == multiset{} && left == 0
      ensures this.outcome == outcome && alternates == [] && delivered == []
    {
      grouped := false;
      groups := [];
      pending := multiset{};
      left := 0;
      this.outcome := outcome;
      alternates := [];
      delivered := [];
    }

    /** Outstanding calls belong to groups of the pass, and the fan-in
        counter never falls below their number. */
    ghost predicate Valid()
      reads this
    {
      |alternates| == |delivered|
      && (forall g :: g in pending ==> g < |groups|)
      && (!grouped ==> pending == multiset{})
      && left >= |pending|
    }

    /** No callback has thrown: the counter is exactly the number of
        outstanding calls. */
    predicate Exact()
      reads this
    {
      left == |pending|
    }

    /** `determineStrokeGroups` resolved with `groups`. */
    method Group(groups: seq<GroupId>, alternates: seq<seq<string>>)
      requires |groups| == |alternates|
      modifies this
      ensures grouped && this.groups == groups
      ensures this.alternates == alternates && |delivered| == |groups| && forall i :: 0 <= i < |groups| ==> delivered[i] == []
      ensures pending == old(pending) && left == old(left) && outcome == old(outcome)
    {
      grouped := true;
      this.groups := groups;
      this.alternates := alternates;
      delivered := seq(|groups|, i => []);
    }

    /** `recognizersLeftToProcess++` for every recognizer started on group
        `g`. */
    method StartCalls(g: GroupId, recognizerCount: nat)
      modifies this
      ensures pending == old(pending) + Copies(g, recognizerCount)
      ensures left == old(left) + recognizerCount
      ensures grouped == old(grouped) && groups == old(groups) && outcome == old(outcome)
      ensures alternates == old(alternates) && delivered == old(delivered)
    {
      for r := 0 to recognizerCount
        invariant pending == old(pending) + Copies(g, r)
        invariant left == old(left) + r
        invariant grouped == old(grouped) && groups == old(groups) && outcome == old(outcome)
        invariant alternates == old(alternates) && delivered == old(delivered)
      {
        left := left + 1;
        AddCopy(old(pending), g, r);
        pending := pending + multiset{g};
      }
    }

    /** A recognizer call on group `g` has settled. */
    method Settled(g: GroupId)
      requires g in pending
      modifies this
      ensures pending == old(pending) - multiset{g} && |pending| == |old(pending)| - 1
      ensures grouped == old(grouped) && groups == old(groups) && left == old(left)
      ensures outcome == old(outcome) && alternates == old(alternates) && delivered == old(delivered)
    {
      pending := pending - multiset{g};
    }

    /** Records `names` as delivered to group `g`. */
    ghost method Deliver(g: GroupId, names: seq<string>)
      modifies this
      ensures delivered == if g < |old(delivered)| then old(delivered)[g := old(delivered)[g] + [names]] else old(delivered)
      ensures grouped == old(grouped) && groups == old(groups) && pending == old(pending)
      ensures left == old(left) && outcome == old(outcome) && alternates == old(alternates)
    {
      if g < |delivered| {
        delivered := delivered[g := delivered[g] + [names]];
      }
    }
  }

  class StrokeManager {
    const lock: ResultsLock
    /** `this.recognizers.length`. */
    const recognizerCount: nat

    /** The constructor registers one point-cloud recognizer. */
    constructor (lock: ResultsLock)
      ensures this.lock == lock && recognizerCount == 1
    {
      this.lock := lock;
      recognizerCount := 1;
    }

    /** The lists are the pass's alternates followed by what was delivered
        for each group. */
    ghost predicate Accumulates(p: Pass)
      reads this, lock, p
    {
      p.grouped && |p.alternates| == |p.groups| && |p.delivered| == |p.groups|
      && lock.current == Some(Accumulated(p.alternates, p.delivered))
    }

    /** `recognize()`: refused while the lists are non-null or when there
        are no strokes; otherwise it takes the lock by setting the lists
        to `[]` and starts grouping. */
    method Recognize(strokeCount: nat) returns (p: Pass)
      modifies lock
      ensures fresh(p) && p.Valid() && !p.grouped && p.left == 0
      ensures old(lock.current).Some? || strokeCount == 0 ==>
                p.outcome == Rejected(BusyError) && lock.current == old(lock.current)
      ensures old(lock.current).None? && strokeCount > 0 ==>
                p.outcome == Pending && lock.current == Some([])
    {
      if lock.current.Some? || strokeCount == 0 {
        p := new Pass(Rejected(BusyError));
      } else {
        lock.current := Some([]);
        p := new Pass(Pending);
      }
    }

    /** Grouping succeeded: `determineStrokeGroups` appends the alternates
        to the lists, and every group starts every recognizer. The lock
        stays held; with no group or no recognizer no call is outstanding,
        so nothing will ever release it. Should the lists be `null`, the
        first append throws and grouping never settles. */
    method GroupsResolved(p: Pass, groups: seq<GroupId>, alternates: seq<seq<string>>)
      requires p.Valid() && !p.grouped && p.outcome.Pending? && p.left == 0
      requires |groups| == |alternates|
      modifies lock, p
      ensures old(lock.current).None? && alternates != [] ==>
                lock.current == None && !p.grouped && p.pending == multiset{} && p.outcome == Pending
      ensures old(lock.current).Some? ==> lock.current == Some(old(lock.current).value + alternates)
      ensures old(lock.current).Some? || alternates == [] ==>
                p.grouped && p.groups == groups && p.outcome == Pending
                && p.pending == Calls(|groups|, recognizerCount) && p.left == |groups| * recognizerCount
      ensures p.Valid() && p.Exact()
      ensures groups == [] || recognizerCount == 0 ==> p.pending == multiset{}
      ensures old(lock.current) == Some([]) ==> Accumulates(p)
    {
      if lock.current.None? && alternates != [] {
        // `currentRecognitionResults.push` throws on `null`
      } else {
        if lock.current.Some? {
          lock.current := Some(lock.current.value + alternates);
        }
        p.Group(groups, alternates);
        FanOut(p);
        if groups == [] || recognizerCount == 0 {
          NoCalls(|groups|, recognizerCount);
        }
        if old(lock.current) == Some([]) {
          NothingDelivered(alternates);
          assert p.delivered == seq(|alternates|, i => []);
          assert [] + alternates == alternates;
        }
      }
    }

    /** The `forEach` over the groups, each starting every recognizer. */
    method FanOut(p: Pass)
      requires p.left == 0 && p.pending == multiset{}
      modifies p
      ensures p.pending == Calls(|p.groups|, recognizerCount) && p.left == |p.groups| * recognizerCount
      ensures p.left == |p.pending| && forall h :: h in p.pending ==> h < |p.groups|
      ensures p.grouped == old(p.grouped) && p.groups == old(p.groups) && p.outcome == old(p.outcome)
      ensures p.alternates == old(p.alternates) && p.delivered == old(p.delivered)
    {
      for g := 0 to |p.groups|
        invariant p.grouped == old(p.grouped) && p.groups == old(p.groups) && p.outcome == old(p.outcome)
        invariant p.alternates == old(p.alternates) && p.delivered == old(p.delivered)
        invariant p.pending == Calls(g, recognizerCount) && p.left == g * recognizerCount
      {
        p.StartCalls(g, recognizerCount);
      }
    }

    /** Grouping failed: the pass is rejected and the lock stays held. */
    method GroupingFailed(p: Pass)
      requires p.Valid() && !p.grouped && p.outcome.Pending?
      modifies p
      ensures lock.current == old(lock.current)
      ensures p.outcome == Rejected(GroupingError) && p.Valid() && !p.grouped && p.pending == multiset{}
    {
      p.outcome := Rejected(GroupingError);
    }

    /** `finishRecognition`: resolve with the lists paired with the groups
        and set the lists back to `null`, which releases the lock. */
    method Finish(p: Pass)
      requires lock.current.Some?
      modifies lock, p
      ensures p.outcome == Settle(old(p.outcome), Resolved(Pairing(old(lock.current).value, p.groups)))
      ensures lock.current == None
      ensures p.grouped == old(p.grouped) && p.groups == old(p.groups) && p.pending == old(p.pending) && p.left == old(p.left)
      ensures p.alternates == old(p.alternates) && p.delivered == old(p.delivered)
    {
      p.outcome := Settle(p.outcome, Resolved(Pairing(lock.current.value, p.groups)));
      lock.current := None;
    }

    /** A recognizer started on group `g` answered `names`: they are
        appended to the group's list, and the call that brings the counter
        to exactly 0 finishes the pass. With the lists gone or too short,
        the callback throws before counting down. */
    method RecognizerAnswered(p: Pass, g: GroupId, names: seq<string>)
      requires p.Valid() && p.grouped && g in p.pending
      modifies lock, p
      ensures p.Valid() && p.grouped && p.groups == old(p.groups)
      ensures p.pending == old(p.pending) - multiset{g}
      ensures old(lock.current).None? || g >= |old(lock.current).value| ==>
                lock.current == old(lock.current) && p.left == old(p.left) && p.outcome == old(p.outcome)
      ensures old(lock.current).Some? && g < |old(lock.current).value| ==> p.left == old(p.left) - 1
      // the lock is released exactly by the answer that brings the counter to 0
      ensures old(lock.current).Some? && g < |old(lock.current).value| ==>
                (lock.current.None? <==> p.left == 0)
      ensures old(lock.current).Some? && g < |old(lock.current).value| && p.left != 0 ==>
                lock.current == Some(old(lock.current).value[g := old(lock.current).value[g] + names])
                && p.outcome == old(p.outcome)
      ensures old(lock.current).Some? && lock.current.None? ==> p.pending == multiset{}
      // the first settlement of the pass wins
      ensures !old(p.outcome).Pending? ==> p.outcome == old(p.outcome)
      // the pass resolves only once every call has settled
      ensures old(p.outcome).Pending? && p.outcome.Resolved? ==> p.pending == multiset{}
      ensures old(p.outcome).Pending? && p.Exact() && p.pending == multiset{} ==> p.outcome.Resolved?
      ensures old(p.left > |p.pending|) ==> p.left > |p.pending|
      ensures old(Accumulates(p)) && p.left != 0 ==>
                Accumulates(p) && p.alternates == old(p.alternates)
                && p.delivered == old(p.delivered)[g := old(p.delivered)[g] + [names]]
      ensures old(Accumulates(p)) && p.left == 0 ==>
                p.outcome == Settle(old(p.outcome), Resolved(Pairing(
                  Accumulated(old(p.alternates), old(p.delivered)[g := old(p.delivered)[g] + [names]]), p.groups)))
    {
      p.Settled(g);
      if lock.current.Some? && g < |lock.current.value| {
        var lists := lock.current.value;
        p.Deliver(g, names);
        lock.current := Some(lists[g := lists[g] + names]);
        p.left := p.left - 1;
        if p.left == 0 {
          Finish(p);
        }
      }
      if old(Accumulates(p)) {
        Deliver(p.alternates, old(p.delivered), g, names);
      }
    }

    /** A recognizer started on group `g` failed with `error`: if it brings
        the counter to exactly 0 the pass finishes, and then it is
        rejected, which only has an effect otherwise. */
    method RecognizerFailed(p: Pass, g: GroupId, error: string)
      requires p.Valid() && p.grouped && g in p.pending
      modifies lock, p
      ensures p.Valid() && p.grouped && p.groups == old(p.groups)
      ensures p.pending == old(p.pending) - multiset{g}
      ensures p.alternates == old(p.alternates) && p.delivered == old(p.delivered)
      ensures p.left == old(p.left) - 1
      ensures old(p.left) - 1 == 0 && old(lock.current).None? ==>
                p.outcome == old(p.outcome) && lock.current == None
      // the lock is released only by the call that brings the counter to 0
      ensures lock.current.None? <==> old(lock.current).None? || p.left == 0
      ensures lock.current.Some? ==> lock.current == old(lock.current)
      ensures old(lock.current).Some? && lock.current.None? ==> p.pending == multiset{}
      // the first settlement of the pass wins
      ensures !old(p.outcome).Pending? ==> p.outcome == old(p.outcome)
      // a failure that is not the last to settle rejects the pass
      ensures old(p.outcome).Pending? && p.pending != multiset{} ==> p.outcome == Rejected(error)
      ensures old(p.outcome).Pending? && p.outcome.Resolved? ==> p.pending == multiset{}
      ensures old(p.outcome).Pending? && old(lock.current).Some? && p.Exact() && p.pending == multiset{} ==>
                p.outcome.Resolved?
      ensures old(p.left > |p.pending|) ==> p.left > |p.pending|
    {
      p.Settled(g);
      p.left := p.left - 1;
      if p.left == 0 && lock.current.None? {
        // `finishRecognition` throws on the `null` lists: neither resolve
        // nor reject is reached
      } else {
        if p.left == 0 {
          Finish(p);
        }
        p.outcome := Settle(p.outcome, Rejected(error));
      }
    }
  }
}

=== FILE: fuzzy_match.dfy ===
/** The fuzzy name matchers that turn a recognised string into the names of
    operations it plausibly means. Three copies exist:
    - `fuzzyMatchesFromList` of InkMorphicJS/js/morphic_ext.js, which has
      an exact-match bypass and tries the text both with every whitespace
      character removed and as it is;
    - `fuzzyMatchesFromList` of js/js/morphic_ext.js, which removes only the
      first whitespace run and has no bypass;
    - `fuzzyMatchFunctions` of js/js/recognizers.js and js/js/assistant.js,
      a loop over an object's function-valued keys that compares the name
      without lower-casing it or splitting it into parts.
    Every copy compares the first `|text| - 1` characters of a candidate
    with the whole normalised text and accepts a distance below two. */
module FuzzyMatch {
  import opened JsText
  import opened Levenshtein
  import opened Targets

  // ---------------------------------------------------------------------
  // InkMorphicJS/js/morphic_ext.js

  /** The test `find` applies to each part, with `t` the lower-cased text. */
  predicate PartMatches(part: string, t: string) {
    var p := ToLower(part);
    var ns := RemoveAllSpaces(t);
    EditDistance(Slice(p, 0, |ns| - 1), ns) < 2 || EditDistance(Slice(p, 0, |t| - 1), t) < 2
  }

  /** What `list.map` produces for the entry `k`: `k` itself, or `undefined`. */
  function Verdict(k: string, t: string): (r: Option<string>)
    ensures r.Some? ==> r.value == k
  {
    if ToLower(k) == t then Some(k)
    else if |k| < 2 * |t| && Truthy(Find(NameParts(k), part => PartMatches(part, t))) then Some(k)
    else None
  }

  function Verdicts(list: seq<string>, t: string): (r: seq<Option<string>>)
    ensures |r| == |list|
    ensures forall i :: 0 <= i < |list| ==> r[i] == Verdict(list[i], t)
  {
    if list == [] then [] else [Verdict(list[0], t)] + Verdicts(list[1..], t)
  }

  /** `fuzzyMatchesFromList(text, list)`. */
  function MatchesFromList(text: string, list: seq<string>): (r: seq<string>)
    ensures |text| < 2 ==> r == []
    ensures Sorted(r)
    ensures multiset(r) <= multiset(list)
  {
    if |text| < 2 then []
    else
      var t := ToLower(text);
      CompactSubMultiset(Verdicts(list, t), list);
      Sort(Compact(Verdicts(list, t)))
  }

  /** The names offered are exactly the non-empty entries of the list that
      pass: equal to the lower-cased text up to case, or short enough with a
      truthy part found by the part test. */
  lemma MatchesFromListMembers(text: string, list: seq<string>)
    requires |text| >= 2
    ensures forall k :: k in MatchesFromList(text, list) <==> k in list && k != "" && Verdict(k, ToLower(text)).Some?
  {
    var t := ToLower(text);
    KeptMembers(list, t);
    SortMembers(Compact(Verdicts(list, t)));
  }

  lemma KeptMembers(list: seq<string>, t: string)
    ensures forall k :: k in Compact(Verdicts(list, t)) <==> k in list && k != "" && Verdict(k, t).Some?
  {
    var vs := Verdicts(list, t);
    forall k | k in list && k != "" && Verdict(k, t).Some?
      ensures Some(k) in vs
    {
      var i :| 0 <= i < |list| && list[i] == k;
      assert vs[i] == Some(k);
    }
  }


  /** A name equal to the text up to case is always offered, however long. */
  lemma ExactMatchReturned(text: string, list: seq<string>, k: string)
    requires |text| >= 2 && k in list
    requires ToLower(k) == ToLower(text)
    ensures k in MatchesFromList(text, list)
  {
    assert |k| == |ToLower(k)|;
    MatchesFromListMembers(text, list);
  }

  /** Any other name offered is short enough and has a non-empty part (or is
      itself a name) whose lower-cased prefix is within distance one of the
      text, taken either with its whitespace removed or as it is. */
  lemma ReturnedNameHasCloseParts(text: string, list: seq<string>, k: string)
    requires k in MatchesFromList(text, list)
    requires ToLower(k) != ToLower(text)
    ensures k in list && |text| >= 2 && |k| < 2 * |text|
    ensures exists i :: 0 <= i < |NameParts(k)| && NameParts(k)[i] != ""
              && PartMatches(NameParts(k)[i], ToLower(text))
  {
    var t := ToLower(text);
    if |text| >= 2 {
      MatchesFromListMembers(text, list);
    }
    var found := Find(NameParts(k), part => PartMatches(part, t));
    assert Truthy(found);
  }

  /** Cutting the last character off a string costs exactly one edit. */
  lemma DropLastDistance(s: string)
    requires |s| >= 1
    ensures EditDistance(s[..|s| - 1], s) == 1
  {
    var a := s[..|s| - 1];
    assert s[..|s| - 1] == a;
    ZeroIffEqual(a, a);
    LengthGap(a, s);
  }

  /** Writing the start of a name part (or of the name) selects the name:
      with space-free text `w` of two or more characters, a name `k` short
      enough, and a part of `k` whose lower-cased form begins with
      `toLowerCase(w)`, `k` is offered. */
  lemma TypedPrefixSelects(w: string, list: seq<string>, k: string, i: nat)
    requires |w| >= 2 && NoSpaces(w)
    requires k in list && |k| < 2 * |w|
    requires i < |NameParts(k)| && |NameParts(k)[i]| >= |w|
    requires ToLower(NameParts(k)[i])[..|w|] == ToLower(w)
    ensures k in MatchesFromList(w, list)
  {
    var t := ToLower(w);
    var parts := NameParts(k);
    assert NoSpaces(t);
    NoSpacesUnchanged(t);
    PrefixPartMatches(parts[i], t);
    EmptyPartNeverMatches(t);
    var found := Find(parts, part => PartMatches(part, t));
    assert found.Some?;
    assert Truthy(found);
    assert Verdict(k, t).Some?;
    MatchesFromListMembers(w, list);
  }

  /** A part that begins with the text passes the part test. */
  lemma PrefixPartMatches(part: string, t: string)
    requires |t| >= 1
    requires |part| >= |t| && ToLower(part)[..|t|] == t
    ensures PartMatches(part, t)
  {
    PrefixCut(ToLower(part), t);
    CutPartMatches(part, t);
  }

  lemma PrefixCut(p: string, t: string)
    requires |t| >= 1 && |p| >= |t| && p[..|t|] == t
    ensures Slice(p, 0, |t| - 1) == t[..|t| - 1]
  {
    SlicePrefix(p, |t| - 1);
    assert p[..|t| - 1] == p[..|t|][..|t| - 1];
  }

  lemma CutPartMatches(part: string, t: string)
    requires |t| >= 1 && Slice(ToLower(part), 0, |t| - 1) == t[..|t| - 1]
    ensures PartMatches(part, t)
  {
    DropLastDistance(t);
  }

  /** An empty part, which `find` would return as a falsy value, passes the
      part test only for text with at most one non-space character. */
  lemma EmptyPartNeverMatches(t: string)
    requires |RemoveAllSpaces(t)| >= 2
    ensures !PartMatches("", t)
  {
    assert Slice(ToLower(""), 0, |RemoveAllSpaces(t)| - 1) == "";
    assert Slice(ToLower(""), 0, |t| - 1) == "";
  }

  /** With exactly one non-space character the empty part does pass, so
      `find` stops at a leading empty part and returns the falsy `""`. */
  lemma EmptyPartMatchesOneLetter(t: string)
    requires |RemoveAllSpaces(t)| == 1
    ensures PartMatches("", t)
  {
    assert Slice(ToLower(""), 0, |RemoveAllSpaces(t)| - 1) == "";
    assert EditDistance("", RemoveAllSpaces(t)) == 1;
  }

  /** A substituted first letter is not forgiven: the name "bx" is not
      offered for the text "ax", because "b" (the name cut to one character)
      is two edits from "ax". */
  lemma SubstitutionRejected()
    ensures MatchesFromList("ax", ["bx"]) == []
  {
    TruncatedSubstitution();
    NoUpperUnchanged("bx");
    assert SplitParts("bx") == ["bx"] by { SplitWord("bx"); }
    assert NameParts("bx") == ["bx", "bx"];
    NoSpacesUnchanged("ax");
    assert ToLower("bx") == "bx" && ToLower("ax") == "ax";
    assert Slice("bx", 0, 1) == "b";
    assert !PartMatches("bx", "ax");
    assert Verdict("bx", "ax").None?;
    MatchesFromListMembers("ax", ["bx"]);
  }

  // ---------------------------------------------------------------------
  // js/js/morphic_ext.js

  /** `text.toLowerCase().replace(/\s+/, "")`. */
  function NormaliseJs(text: string): (t: string)
    ensures |t| <= |text|
  {
    RemoveFirstSpaceRun(ToLower(text))
  }

  predicate PartMatchesJs(part: string, t: string) {
    EditDistance(Slice(ToLower(part), 0, |t| - 1), t) < 2
  }

  function VerdictJs(k: string, t: string): (r: Option<string>)
    ensures r.Some? ==> r.value == k
  {
    if |k| < 2 * |t| && Truthy(Find(NameParts(k), part => PartMatchesJs(part, t))) then Some(k)
    else None
  }

  function VerdictsJs(list: seq<string>, t: string): (r: seq<Option<string>>)
    ensures |r| == |list|
    ensures forall i :: 0 <= i < |list| ==> r[i] == VerdictJs(list[i], t)
  {
    if list == [] then [] else [VerdictJs(list[0], t)] + VerdictsJs(list[1..], t)
  }

  /** `fuzzyMatchesFromList(text, list)` of the js tree. */
  function MatchesFromListJs(text: string, list: seq<string>): (r: seq<string>)
    ensures |text| < 2 ==> r == []
    ensures Sorted(r)
    ensures multiset(r) <= multiset(list)
  {
    if |text| < 2 then []
    else
      var t := NormaliseJs(text);
      CompactSubMultiset(VerdictsJs(list, t), list);
      Sort(Compact(VerdictsJs(list, t)))
  }

  /** The names offered are exactly the non-empty entries of the list shorter
      than twice the normalised text whose first part passing the test is
      not empty; there is no exact-match bypass. */
  lemma MatchesFromListJsMembers(text: string, list: seq<string>)
    requires |text| >= 2
    ensures forall k :: k in MatchesFromListJs(text, list) <==>
              k in list && k != "" && |k| < 2 * |NormaliseJs(text)|
              && Truthy(Find(NameParts(k), part => PartMatchesJs(part, NormaliseJs(text))))
  {
    var t := NormaliseJs(text);
    KeptMembersJs(list, t);
    SortMembers(Compact(VerdictsJs(list, t)));
  }

  lemma KeptMembersJs(list: seq<string>, t: string)
    ensures forall k :: k in Compact(VerdictsJs(list, t)) <==> k in list && k != "" && VerdictJs(k, t).Some?
  {
    var vs := VerdictsJs(list, t);
    forall k | k in list && k != "" && VerdictJs(k, t).Some?
      ensures Some(k) in vs
    {
      var i :| 0 <= i < |list| && list[i] == k;
      assert vs[i] == Some(k);
    }
  }


  /** Without the exact-match bypass a name longer than twice the normalised
      text is never offered, even when it equals the text. */
  lemma NoExactBypassJs(text: string, list: seq<string>, k: string)
    requires |k| >= 2 * |NormaliseJs(text)|
    ensures k !in MatchesFromListJs(text, list)
  {
    if |text| >= 2 {
      MatchesFromListJsMembers(text, list);
    }
  }

  /** Only the first whitespace run is removed: the text `w + sp + rest`,
      with `sp` the first run of whitespace, is compared as
      `toLowerCase(w + rest)`, later whitespace included. */
  lemma OnlyFirstRunRemoved(w: string, sp: string, rest: string)
    requires NoSpaces(w) && sp != [] && AllSpaces(sp)
    requires rest == [] || !IsSpace(rest[0])
    ensures NormaliseJs(w + sp + rest) == ToLower(w) + ToLower(rest)
  {
    ToLowerAppend(w + sp, rest);
    ToLowerAppend(w, sp);
    assert ToLower(sp) == sp;
    FirstRunOnly(ToLower(w), sp, ToLower(rest));
  }

  /** On text without whitespace the two trees agree except for the exact-
      match bypass: the js matcher offers a subset of what the InkMorphicJS
      matcher offers, and the InkMorphicJS matcher offers nothing more than
      the js one besides names equal to the text up to case. */
  lemma VariantsAgreeOnSpaceFreeText(w: string, list: seq<string>, k: string)
    requires NoSpaces(w)
    ensures k in MatchesFromListJs(w, list) ==> k in MatchesFromList(w, list)
    ensures k in MatchesFromList(w, list) && ToLower(k) != ToLower(w) ==> k in MatchesFromListJs(w, list)
  {
    if |w| >= 2 {
      var t := ToLower(w);
      assert NoSpaces(t);
      NoSpacesUnchanged(t);
      assert NormaliseJs(w) == t;
      FindAgrees(NameParts(k), part => PartMatches(part, t), part => PartMatchesJs(part, t));
      MatchesFromListMembers(w, list);
      MatchesFromListJsMembers(w, list);
    }
  }

  // ---------------------------------------------------------------------
  // js/js/recognizers.js and js/js/assistant.js

  /** The test `fuzzyMatchFunctions` applies to a function-valued key `k`,
      with `t` the normalised text; `k` keeps its case. */
  predicate KeyMatches(k: string, t: string) {
    |k| < 2 * |t| && EditDistance(Slice(k, 0, |t| - 1), t) < 2
  }

  /** The keys `fuzzyMatchFunctions` pushes, in enumeration order. */
  function MatchingKeys(obj: seq<Entry>, t: string): (r: seq<string>)
    ensures forall k :: k in r <==> exists i :: 0 <= i < |obj| && obj[i].name == k
                                                && obj[i].member.Function? && KeyMatches(k, t)
  {
    if obj == [] then []
    else
      var rest := MatchingKeys(obj[1..], t);
      assert forall i :: 0 < i < |obj| ==> obj[i] == obj[1..][i - 1];
      if obj[0].member.Function? && KeyMatches(obj[0].name, t) then [obj[0].name] + rest
      else rest
  }

  /** What `fuzzyMatchFunctions(obj, text)` returns. */
  function FunctionMatches(obj: Target, text: string): (r: seq<string>)
    ensures |text| < 2 ==> r == []
    ensures Sorted(r)
  {
    if |text| < 2 then [] else Sort(MatchingKeys(obj, NormaliseJs(text)))
  }

  /** The names offered are exactly the function-valued keys that pass the
      key test against the normalised text. */
  lemma FunctionMatchesMembers(obj: Target, text: string)
    requires |text| >= 2
    ensures forall k :: k in FunctionMatches(obj, text) <==> IsFunction(obj, k) && KeyMatches(k, NormaliseJs(text))
  {
    var keys := MatchingKeys(obj, NormaliseJs(text));
    SortMembers(keys);
    forall k ensures IsFunction(obj, k) <==> exists i :: 0 <= i < |obj| && obj[i].name == k && obj[i].member.Function? {
      if IsFunction(obj, k) {
        var i :| 0 <= i < |obj| && obj[i] == Entry(k, Lookup(obj, k).value);
      }
      if exists i :: 0 <= i < |obj| && obj[i].name == k && obj[i].member.Function? {
        var i :| 0 <= i < |obj| && obj[i].name == k && obj[i].member.Function?;
        var j :| 0 <= j < |obj| && obj[j] == Entry(k, Lookup(obj, k).value);
        assert i == j;
      }
    }
  }

  /** `fuzzyMatchFunctions(obj, text)`: the for-in loop over the keys,
      pushing each function-valued key that passes, then the sort. */
  method MatchFunctions(obj: Target, text: string) returns (r: seq<string>)
    ensures r == FunctionMatches(obj, text)
  {
    if |text| < 2 { return []; }
    var list := [];
    var t := NormaliseJs(text);
    var i := 0;
    while i < |obj|
      invariant 0 <= i <= |obj|
      invariant list + MatchingKeys(obj[i..], t) == MatchingKeys(obj, t)
    {
      var k := obj[i].name;
      assert obj[i..][1..] == obj[i + 1..];
      if obj[i].member.Function? && |k| < 2 * |t| {
        var d := LevenshteinDistance(Slice(k, 0, |t| - 1), t);
        if d < 2 {
          list := list + [k];
        }
      }
      i := i + 1;
    }
    assert obj[|obj|..] == [];
    assert list == MatchingKeys(obj, t);
    r := Sort(list);
  }

  /** A function-valued key that begins with the lower-cased, space-free
      text and is less than twice as long is found. */
  lemma KeyWithTypedPrefixFound(obj: Target, w: string, k: string)
    requires |w| >= 2 && NoSpaces(w)
    requires IsFunction(obj, k) && |k| < 2 * |w|
    requires |k| >= |w| && k[..|w|] == ToLower(w)
    ensures k in FunctionMatches(obj, w)
  {
    var t := ToLower(w);
    assert NoSpaces(t);
    NoSpacesUnchanged(t);
    KeyWithPrefixMatches(k, t);
    FunctionMatchesMembers(obj, w);
  }

  lemma KeyWithPrefixMatches(k: string, t: string)
    requires |t| >= 1 && |k| < 2 * |t|
    requires |k| >= |t| && k[..|t|] == t
    ensures KeyMatches(k, t)
  {
    assert Slice(k, 0, |t| - 1) == t[..|t| - 1];
    DropLastDistance(t);
  }

  /** Names are not lower-cased: an upper-case first letter is a substitution
      that costs a second edit, so "Destroy" is not found for "destroy". */
  lemma CaseSensitiveKeys()
    ensures !KeyMatches("Dx", "dx")
  {
    assert Slice("Dx", 0, 1) == "D";
    assert EditDistance("", "d") == 1;
    assert EditDistance("D", "d") == 1;
    assert EditDistance("", "dx") == 2;
  }
}

=== FILE: js_text.dfy ===
/** JavaScript string and array primitives the prototype relies on:
    `toLowerCase`, the `\s` character class, `replace` with `/\s+/g` and
    `/\s+/`, `slice` with its negative-index rule, `indexOf`, the camelCase
    `replace` and `split(/\s|_/)` used for name parts, the default `sort` of
    strings, and the de-duplicating helpers `_.uniq` / `getUnique`. */
module JsText {

  // ---------------------------------------------------------------------
  // Characters

  /** The characters matched by the regular-expression class `\s`. */
  predicate IsSpace(c: char) {
    c == ' ' || c == '\t' || c == '\n' || c == '\r' || c == '\U{B}' || c == '\U{C}'
    || c == '\U{A0}' || c == '\U{FEFF}' || c == '\U{2028}' || c == '\U{2029}'
  }

  predicate IsLowerAscii(c: char) { 'a' <= c <= 'z' }
  predicate IsUpperAscii(c: char) { 'A' <= c <= 'Z' }

  function LowerChar(c: char): (r: char)
    ensures !IsUpperAscii(r)
    ensures IsUpperAscii(c) ==> r as int == c as int + 32
    ensures !IsUpperAscii(c) ==> r == c
  {
    if IsUpperAscii(c) then (c as int + 32) as char else c
  }

  /** `String.prototype.toLowerCase`, on the ASCII letters. */
  function ToLower(s: string): (r: string)
    ensures |r| == |s|
    ensures forall i :: 0 <= i < |s| ==> r[i] == LowerChar(s[i])
  {
    seq(|s|, i requires 0 <= i < |s| => LowerChar(s[i]))
  }

  lemma ToLowerAppend(s: string, t: string)
    ensures ToLower(s + t) == ToLower(s) + ToLower(t)
  {
  }

  lemma ToLowerPrefix(s: string, n: nat)
    requires n <= |s|
    ensures ToLower(s[..n]) == ToLower(s)[..n]
  {
  }

  lemma ToLowerIdempotent(s: string)
    ensures ToLower(ToLower(s)) == ToLower(s)
  {
  }

  // ---------------------------------------------------------------------
  // Regular-expression replacements

  /** `s.replace(/\s+/g, "")`: every whitespace character removed. */
  function RemoveAllSpaces(s: string): (r: string)
    ensures |r| <= |s|
    ensures forall i :: 0 <= i < |r| ==> !IsSpace(r[i])
    ensures forall c :: c in r ==> c in s
  {
    if s == [] then []
    else if IsSpace(s[0]) then RemoveAllSpaces(s[1..])
    else [s[0]] + RemoveAllSpaces(s[1..])
  }

  /** Leading whitespace removed. */
  function DropSpaces(s: string): (r: string)
    ensures |r| <= |s| && r == s[|s| - |r|..]
    ensures r != [] ==> !IsSpace(r[0])
  {
    if s != [] && IsSpace(s[0]) then DropSpaces(s[1..]) else s
  }

  /** `s.replace(/\s+/, "")`: the regular expression has no `g` flag, so only
      the first run of whitespace is removed. */
  function RemoveFirstSpaceRun(s: string): (r: string)
    ensures |r| <= |s|
  {
    if s == [] then []
    else if IsSpace(s[0]) then DropSpaces(s)
    else [s[0]] + RemoveFirstSpaceRun(s[1..])
  }

  /** Strings without whitespace are left alone by both replacements. */
  lemma {:induction false} NoSpacesUnchanged(s: string)
    requires NoSpaces(s)
    ensures RemoveAllSpaces(s) == s && RemoveFirstSpaceRun(s) == s
  {
    if s != [] {
      NoSpacesUnchanged(s[1..]);
    }
  }

  predicate NoSpaces(s: string) { forall i :: 0 <= i < |s| ==> !IsSpace(s[i]) }
  predicate AllSpaces(s: string) { forall i :: 0 <= i < |s| ==> IsSpace(s[i]) }

  /** The non-global replacement removes the first whitespace run and keeps
      every later space: `w + sp + rest` becomes `w + rest`. */
  lemma {:induction false} FirstRunOnly(w: string, sp: string, rest: string)
    requires NoSpaces(w) && sp != [] && AllSpaces(sp)
    requires rest == [] || !IsSpace(rest[0])
    ensures RemoveFirstSpaceRun(w + sp + rest) == w + rest
  {
    if w == [] {
      assert w + sp + rest == sp + rest;
      LeadingRunDropped(sp, rest);
    } else {
      var tail := w[1..] + sp + rest;
      calc {
        RemoveFirstSpaceRun(w + sp + rest);
        { assert w + sp + rest == [w[0]] + tail; }
        RemoveFirstSpaceRun([w[0]] + tail);
        { assert !IsSpace(w[0]); FirstRunStep(w[0], tail); }
        [w[0]] + RemoveFirstSpaceRun(tail);
        { FirstRunOnly(w[1..], sp, rest); }
        [w[0]] + (w[1..] + rest);
        { assert [w[0]] + w[1..] == w; }
        w + rest;
      }
    }
  }

  lemma LeadingRunDropped(sp: string, rest: string)
    requires sp != [] && AllSpaces(sp)
    requires rest == [] || !IsSpace(rest[0])
    ensures RemoveFirstSpaceRun(sp + rest) == rest
  {
    assert (sp + rest)[0] == sp[0];
    DropSpaceRun(sp, rest);
  }

  lemma FirstRunStep(c: char, tail: string)
    requires !IsSpace(c)
    ensures RemoveFirstSpaceRun([c] + tail) == [c] + RemoveFirstSpaceRun(tail)
  {
    assert ([c] + tail)[0] == c && ([c] + tail)[1..] == tail;
  }

  lemma {:induction false} DropSpaceRun(sp: string, rest: string)
    requires AllSpaces(sp)
    requires rest == [] || !IsSpace(rest[0])
    ensures DropSpaces(sp + rest) == rest
  {
    if sp == [] {
      assert sp + rest == rest;
    } else {
      assert (sp + rest)[1..] == sp[1..] + rest;
      DropSpaceRun(sp[1..], rest);
    }
  }

  // ---------------------------------------------------------------------
  // slice and indexOf

  /** How `slice` turns an argument into a position: a negative index counts
      from the end, and the result is clamped to `[0, len]`. */
  function ClampIndex(k: int, len: nat): (r: nat)
    ensures r <= len
    ensures 0 <= k <= len ==> r == k
    ensures k < 0 && len + k >= 0 ==> r == len + k
  {
    if k < 0 then (if len + k < 0 then 0 else len + k)
    else if k > len then len
    else k
  }

  /** `s.slice(start, end)`. */
  function Slice(s: string, start: int, end: int): (r: string)
    ensures |r| <= |s|
  {
    var b, e := ClampIndex(start, |s|), ClampIndex(end, |s|);
    if e <= b then [] else s[b..e]
  }

  lemma SlicePrefix(s: string, n: nat)
    ensures Slice(s, 0, n) == if n <= |s| then s[..n] else s
  {
  }

  /** `s.indexOf(c)`: the first position of `c`, or -1. */
  function IndexOf(s: string, c: char): (r: int)
    ensures -1 <= r < |s|
    ensures r == -1 <==> c !in s
    ensures r >= 0 ==> s[r] == c && c !in s[..r]
  {
    if s == [] then -1
    else if s[0] == c then 0
    else var k := IndexOf(s[1..], c); if k < 0 then -1 else k + 1
  }

  /** `list.indexOf(x)` on an array of strings. */
  function IndexOfIn(list: seq<string>, x: string): (r: int)
    ensures -1 <= r < |list|
    ensures r == -1 <==> x !in list
    ensures r >= 0 ==> list[r] == x && x !in list[..r]
  {
    if list == [] then -1
    else if list[0] == x then 0
    else var k := IndexOfIn(list[1..], x); if k < 0 then -1 else k + 1
  }

  // ---------------------------------------------------------------------
  // Name parts

  predicate IsPartSeparator(c: char) { IsSpace(c) || c == '_' }

  /** `k.replace(/([a-z](?=[A-Z]))/g, '$1 ')`: a space after every lower-case
      letter that is followed by an upper-case one. */
  function CamelSpaces(s: string): (r: string)
    ensures |r| >= |s|
  {
    if |s| < 2 then s
    else if IsLowerAscii(s[0]) && IsUpperAscii(s[1]) then [s[0], ' '] + CamelSpaces(s[1..])
    else [s[0]] + CamelSpaces(s[1..])
  }

  /** `s.split(/\s|_/)`: cut at every single separator character, so that the
      result has one more piece than `s` has separators. */
  function SplitParts(s: string): (r: seq<string>)
    ensures |r| >= 1
  {
    if s == [] then [[]]
    else
      var rest := SplitParts(s[1..]);
      if IsPartSeparator(s[0]) then [[]] + rest
      else [[s[0]] + rest[0]] + rest[1..]
  }

  predicate NoSeparator(s: string) {
    forall i :: 0 <= i < |s| ==> !IsPartSeparator(s[i])
  }

  /** No piece of a split holds a separator. */
  lemma {:induction false} SplitPartsHaveNoSeparator(s: string)
    ensures forall k :: 0 <= k < |SplitParts(s)| ==> NoSeparator(SplitParts(s)[k])
  {
    if s != [] {
      SplitPartsHaveNoSeparator(s[1..]);
      var rest := SplitParts(s[1..]);
      if !IsPartSeparator(s[0]) {
        assert NoSeparator([s[0]] + rest[0]);
      }
    }
  }

  /** A string without separators is one piece. */
  lemma {:induction false} SplitWord(w: string)
    requires NoSeparator(w)
    ensures SplitParts(w) == [w]
  {
    if w != [] {
      SplitWord(w[1..]);
      assert [w[0]] + w[1..] == w;
    }
  }

  /** A word followed by a separator is cut off as the first piece. */
  lemma {:induction false} SplitAfterWord(w: string, c: char, rest: string)
    requires NoSeparator(w) && IsPartSeparator(c)
    ensures SplitParts(w + [c] + rest) == [w] + SplitParts(rest)
  {
    if w == [] {
      assert w + [c] + rest == [c] + rest;
      assert ([c] + rest)[1..] == rest;
    } else {
      SplitAfterWord(w[1..], c, rest);
      assert (w + [c] + rest)[1..] == w[1..] + [c] + rest;
      assert [w[0]] + w[1..] == w;
    }
  }

  /** The candidate parts of an operation name: its camelCase/underscore
      pieces followed by the whole name. */
  function NameParts(k: string): (r: seq<string>)
    ensures |r| >= 2 && r[|r| - 1] == k
  {
    SplitParts(CamelSpaces(k)) + [k]
  }

  /** Names without upper-case letters are not spaced. */
  lemma {:induction false} NoUpperUnchanged(s: string)
    requires forall i :: 0 <= i < |s| ==> !IsUpperAscii(s[i])
    ensures CamelSpaces(s) == s
  {
    if |s| >= 2 {
      NoUpperUnchanged(s[1..]);
      assert [s[0]] + s[1..] == s;
    }
  }

  lemma NamePartsCamel()
    ensures NameParts("moveBy") == ["move", "By", "moveBy"]
  {
    var m, b := "move", "By";
    var k := m + b;
    assert k == "moveBy";
    assert CamelSpaces(b) == b by {
      assert b[1..] == "y";
      assert CamelSpaces(b) == [b[0]] + CamelSpaces(b[1..]);
    }
    CamelAfterLowerWord(m, b);
    assert CamelSpaces(k) == m + [' '] + b;
    assert NoSeparator(b);
    SplitWord(b);
    SplitAfterWord(m, ' ', b);
    assert SplitParts(CamelSpaces(k)) == [m, b];
    assert NameParts(k) == [m, b, k];
  }

  /** A lower-case word followed by an upper-case letter gets one space
      between them. */
  lemma {:induction false} CamelAfterLowerWord(w: string, rest: string)
    requires w != [] && forall i :: 0 <= i < |w| ==> IsLowerAscii(w[i])
    requires rest != [] && IsUpperAscii(rest[0])
    ensures CamelSpaces(w + rest) == w + [' '] + CamelSpaces(rest)
  {
    var s := w + rest;
    assert s[0] == w[0] && s[1..] == w[1..] + rest;
    if |w| > 1 {
      CamelAfterLowerWord(w[1..], rest);
      assert !IsUpperAscii(w[1]);
      assert [w[0]] + (w[1..] + [' '] + CamelSpaces(rest)) == w + [' '] + CamelSpaces(rest);
    } else {
      assert w[1..] + rest == rest;
    }
  }

  lemma NamePartsUnderscore()
    ensures NameParts("set_x") == ["set", "x", "set_x"]
  {
    var w, x := "set", "x";
    var k := w + ['_'] + x;
    assert k == "set_x";
    assert forall i :: 0 <= i < |k| ==> !IsUpperAscii(k[i]);
    NoUpperUnchanged(k);
    assert NoSeparator(x);
    SplitWord(x);
    SplitAfterWord(w, '_', x);
    assert SplitParts(CamelSpaces(k)) == [w, x];
    assert NameParts(k) == [w, x, k];
  }

  // ---------------------------------------------------------------------
  // Ordering and sort

  /** The order used by `Array.prototype.sort` without a comparator on
      strings: code-unit lexicographic order (`a` before or equal to `b`). */
  predicate LexLeq(a: string, b: string)
    decreases |a|
  {
    a == [] || (b != [] && (a[0] < b[0] || (a[0] == b[0] && LexLeq(a[1..], b[1..]))))
  }

  lemma LexTotal(a: string, b: string)
    ensures LexLeq(a, b) || LexLeq(b, a)
  {
  }

  lemma LexTransitive(a: string, b: string, c: string)
    requires LexLeq(a, b) && LexLeq(b, c)
    ensures LexLeq(a, c)
  {
  }

  lemma LexAntisymmetric(a: string, b: string)
    requires LexLeq(a, b) && LexLeq(b, a)
    ensures a == b
  {
  }

  predicate Sorted(s: seq<string>) {
    forall i, j {:trigger LexLeq(s[i], s[j])} :: 0 <= i < j < |s| ==> LexLeq(s[i], s[j])
  }

  /** Every element of a sub-multiset of `list` is in `list`. */
  lemma SubMultisetMembers(r: seq<string>, list: seq<string>)
    requires multiset(r) <= multiset(list)
    ensures forall k :: 0 <= k < |r| ==> r[k] in list
  {
    forall k | 0 <= k < |r| ensures r[k] in list {
      assert r[k] in multiset(r);
    }
  }

  function Insert(x: string, s: seq<string>): (r: seq<string>)
    requires Sorted(s)
    ensures Sorted(r)
    ensures multiset(r) == multiset(s) + multiset{x}
  {
    if s == [] then [x]
    else if LexLeq(x, s[0]) then
      assert forall j :: 0 < j < |s| ==> LexLeq(x, s[j]) by {
        forall j | 0 < j < |s| { LexTransitive(x, s[0], s[j]); }
      }
      ConsSorted(x, s);
      [x] + s
    else
      LexTotal(x, s[0]);
      var t := Insert(x, s[1..]);
      assert s == [s[0]] + s[1..];
      InsertedAfterHead(x, s, t);
      ConsSorted(s[0], t);
      [s[0]] + t
  }

  /** A sorted list stays sorted behind a head no greater than its elements. */
  lemma ConsSorted(a: string, t: seq<string>)
    requires Sorted(t)
    requires forall j :: 0 <= j < |t| ==> LexLeq(a, t[j])
    ensures Sorted([a] + t)
  {
    var r := [a] + t;
    forall i, j | 0 <= i < j < |r| ensures LexLeq(r[i], r[j]) {
      assert r[j] == t[j - 1];
      if i > 0 {
        assert r[i] == t[i - 1];
      }
    }
  }

  /** Inserting `x`, no smaller than the head, behind the head leaves every
      element no smaller than the head. */
  lemma InsertedAfterHead(x: string, s: seq<string>, t: seq<string>)
    requires Sorted(s) && s != [] && LexLeq(s[0], x)
    requires multiset(t) == multiset(s[1..]) + multiset{x}
    ensures forall j :: 0 <= j < |t| ==> LexLeq(s[0], t[j])
  {
    forall j | 0 <= j < |t| ensures LexLeq(s[0], t[j]) {
      var y := t[j];
      assert y in multiset(t);
      if y != x {
        assert y in multiset(s[1..]);
        var i :| 0 <= i < |s[1..]| && s[1..][i] == y;
        assert s[i + 1] == y;
      }
    }
  }

  /** `list.sort()`: the sorted arrangement of the input. */
  function Sort(s: seq<string>): (r: seq<string>)
    ensures Sorted(r)
    ensures multiset(r) == multiset(s)
  {
    if s == [] then []
    else
      assert s == [s[0]] + s[1..];
      Insert(s[0], Sort(s[1..]))
  }

  /** Sorting leaves nothing to choose: two sorted arrangements of the same
      strings are equal, so any sort algorithm gives `Sort`'s answer. */
  lemma {:induction false} SortedUnique(r: seq<string>, t: seq<string>)
    requires Sorted(r) && Sorted(t)
    requires multiset(r) == multiset(t)
    ensures r == t
  {
    if r != [] {
      assert r[0] in multiset(t);
      assert t != [];
      assert t[0] in multiset(r);
      var a, b := r[0], t[0];
      HeadIsLeast(r, b);
      HeadIsLeast(t, a);
      LexAntisymmetric(a, b);
      var r', t' := r[1..], t[1..];
      assert r == [a] + r' && t == [a] + t';
      assert multiset(r') == multiset(t') by {
        assert multiset(r) == multiset{a} + multiset(r');
        assert multiset(t) == multiset{a} + multiset(t');
        forall x ensures multiset(r')[x] == multiset(t')[x] {
          assert multiset(r)[x] == multiset{a}[x] + multiset(r')[x];
          assert multiset(t)[x] == multiset{a}[x] + multiset(t')[x];
        }
      }
      assert Sorted(r') && Sorted(t');
      SortedUnique(r', t');
    }
  }

  lemma LexReflexive(a: string)
    ensures LexLeq(a, a)
  {
  }

  lemma HeadIsLeast(r: seq<string>, x: string)
    requires Sorted(r) && x in r
    ensures LexLeq(r[0], x)
  {
    LexReflexive(x);
  }

  /** The elements kept by `list.filter(keep)`. */
  function Filter(list: seq<string>, keep: string -> bool): (r: seq<string>)
    ensures multiset(r) <= multiset(list)
    ensures forall x :: x in r <==> x in list && keep(x)
  {
    if list == [] then []
    else
      assert list == [list[0]] + list[1..];
      (if keep(list[0]) then [list[0]] else []) + Filter(list[1..], keep)
  }

  // ---------------------------------------------------------------------
  // De-duplication, flattening, joining

  /** `_.uniq(list)`, `list.getUnique()`: the first occurrence of every
      element, in input order. */
  function Uniq(list: seq<string>): (r: seq<string>)
  {
    if list == [] then []
    else
      var r := Uniq(list[..|list| - 1]);
      if list[|list| - 1] in r then r else r + [list[|list| - 1]]
  }

  predicate Distinct(s: seq<string>) {
    forall i, j :: 0 <= i < j < |s| ==> s[i] != s[j]
  }

  /** `Uniq` keeps exactly the input's elements, once each. */
  lemma {:induction false} UniqElements(list: seq<string>)
    ensures Distinct(Uniq(list))
    ensures forall x :: x in Uniq(list) <==> x in list
  {
    if list != [] {
      var init := list[..|list| - 1];
      UniqElements(init);
      assert list == init + [list[|list| - 1]];
    }
  }

  /** Once found, a first occurrence stays first when the list grows. */
  lemma {:induction false} IndexOfInExtend(list: seq<string>, y: string, x: string)
    requires x in list
    ensures IndexOfIn(list + [y], x) == IndexOfIn(list, x)
  {
    if list[0] != x {
      assert (list + [y])[1..] == list[1..] + [y];
      IndexOfInExtend(list[1..], y, x);
    }
  }

  /** `Uniq` keeps input order: its elements appear in the order of their
      first occurrences in the input. */
  lemma {:induction false} UniqInFirstOccurrenceOrder(list: seq<string>)
    ensures forall k, l :: 0 <= k < l < |Uniq(list)| ==>
      IndexOfIn(list, Uniq(list)[k]) < IndexOfIn(list, Uniq(list)[l])
  {
    if list != [] {
      var n := |list| - 1;
      var init := list[..n];
      assert list == init + [list[n]];
      UniqInFirstOccurrenceOrder(init);
      UniqElements(init);
      var u := Uniq(init);
      forall x | x in u ensures IndexOfIn(list, x) == IndexOfIn(init, x) {
        IndexOfInExtend(init, list[n], x);
      }
      if list[n] !in u {
        assert IndexOfIn(list, list[n]) == n by {
          assert list[n] !in init;
        }
      }
    }
  }

  /** `_.flatten(ss, true)`: the lists one after the other. */
  function Flatten<T>(ss: seq<seq<T>>): (r: seq<T>)
  {
    if ss == [] then [] else ss[0] + Flatten(ss[1..])
  }

  /** An element of the flattened list is an element of one of the lists. */
  lemma {:induction false} FlattenMember<T>(ss: seq<seq<T>>, x: T)
    ensures x in Flatten(ss) <==> exists i :: 0 <= i < |ss| && x in ss[i]
  {
    if ss != [] {
      FlattenMember(ss[1..], x);
      if x in Flatten(ss[1..]) {
        var i :| 0 <= i < |ss[1..]| && x in ss[1..][i];
        assert x in ss[i + 1];
      }
      if exists i :: 1 <= i < |ss| && x in ss[i] {
        var i :| 1 <= i < |ss| && x in ss[i];
        assert x in ss[1..][i - 1];
      }
    }
  }

  lemma FlattenSingle<T>(s: seq<T>)
    ensures Flatten([s]) == s
  {
    assert [s][1..] == [];
  }

  lemma FlattenAppend<T>(ss: seq<seq<T>>, tt: seq<seq<T>>)
    ensures Flatten(ss + tt) == Flatten(ss) + Flatten(tt)
  {
    if ss == [] {
      assert ss + tt == tt;
    } else {
      assert (ss + tt)[0] == ss[0];
      assert (ss + tt)[1..] == ss[1..] + tt;
      FlattenAppend(ss[1..], tt);
    }
  }

  /** `parts.join(sep)`. */
  function Join(parts: seq<string>, sep: string): (r: string)
  {
    if parts == [] then []
    else if |parts| == 1 then parts[0]
    else parts[0] + sep + Join(parts[1..], sep)
  }

  // ---------------------------------------------------------------------
  // find and compact

  datatype Option<T> = None | Some(value: T)

  /** `parts.find(p)`: the first element satisfying `p`, if any. */
  function Find(parts: seq<string>, p: string -> bool): (r: Option<string>)
    ensures r.None? <==> forall i :: 0 <= i < |parts| ==> !p(parts[i])
    ensures r.Some? ==> exists i :: 0 <= i < |parts| && parts[i] == r.value && p(r.value)
                                    && forall j :: 0 <= j < i ==> !p(parts[j])
  {
    if parts == [] then None
    else if p(parts[0]) then Some(parts[0])
    else
      var r := Find(parts[1..], p);
      if r.Some? then
        ghost var i :| 0 <= i < |parts[1..]| && parts[1..][i] == r.value && p(r.value)
                       && forall j :: 0 <= j < i ==> !p(parts[1..][j]);
        assert parts[i + 1] == r.value;
        r
      else r
  }

  /** A string is truthy in JavaScript exactly when it is not empty; a
      missing value (`undefined`) is falsy. */
  predicate Truthy(r: Option<string>) { r.Some? && r.value != "" }

  /** `_.compact(values)`: the values that are truthy, in order. */
  function Compact(values: seq<Option<string>>): (r: seq<string>)
    ensures forall x :: x in r <==> x != "" && Some(x) in values
  {
    if values == [] then []
    else
      assert values == [values[0]] + values[1..];
      (if Truthy(values[0]) then [values[0].value] else []) + Compact(values[1..])
  }

  /** Compacting values each of which is missing or the matching list entry
      keeps a sub-multiset of the list. */
  lemma {:induction false} CompactSubMultiset(values: seq<Option<string>>, list: seq<string>)
    requires |values| == |list|
    requires forall i :: 0 <= i < |values| && values[i].Some? ==> values[i].value == list[i]
    ensures multiset(Compact(values)) <= multiset(list)
  {
    if values != [] {
      CompactSubMultiset(values[1..], list[1..]);
      assert list == [list[0]] + list[1..];
    }
  }

  /** `find` depends only on the verdicts of the test on the elements. */
  lemma {:induction false} FindAgrees(parts: seq<string>, p: string -> bool, q: string -> bool)
    requires forall i :: 0 <= i < |parts| ==> p(parts[i]) == q(parts[i])
    ensures Find(parts, p) == Find(parts, q)
  {
    if parts != [] && !p(parts[0]) {
      FindAgrees(parts[1..], p, q);
    }
  }

  /** Sorting keeps exactly the elements of its input. */
  lemma SortMembers(s: seq<string>)
    ensures forall x :: x in Sort(s) <==> x in s
  {
    var r := Sort(s);
    assert forall x :: x in r <==> x in multiset(r);
    assert forall x :: x in s <==> x in multiset(s);
  }
}

=== FILE: levenshtein.dfy ===
/** `levenshteinDistance(a, b)`, the edit distance that every copy of the
    fuzzy name matcher relies on. The source fills a `(|b|+1) x (|a|+1)`
    matrix whose cell `[i][j]` is the distance between the first `i`
    characters of `b` and the first `j` characters of `a`; on equal
    characters it copies the diagonal without taking a minimum. */
module Levenshtein {

  function Min3(x: nat, y: nat, z: nat): (m: nat)
    ensures m <= x && m <= y && m <= z
    ensures m == x || m == y || m == z
  {
    if x <= y && x <= z then x else if y <= z then y else z
  }

  /** The textbook edit distance: fewest single-character substitutions,
      insertions and deletions turning `a` into `b`, by its usual recurrence
      on the last characters. */
  function EditDistance(a: string, b: string): nat
    decreases |a| + |b|
  {
    if |a| == 0 then |b|
    else if |b| == 0 then |a|
    else
      var a', b' := a[..|a| - 1], b[..|b| - 1];
      Min3(EditDistance(a', b') + (if a[|a| - 1] == b[|b| - 1] then 0 else 1),
           EditDistance(a', b) + 1,
           EditDistance(a, b') + 1)
  }

  /** The recurrence the source's matrix follows: cell `[|b|][|a|]`, with the
      diagonal taken unchanged when the last characters agree. */
  function MatrixValue(a: string, b: string): nat
    decreases |a| + |b|
  {
    if |a| == 0 then |b|
    else if |b| == 0 then |a|
    else
      var a', b' := a[..|a| - 1], b[..|b| - 1];
      if b[|b| - 1] == a[|a| - 1] then MatrixValue(a', b')
      else Min3(MatrixValue(a', b') + 1, MatrixValue(a', b) + 1, MatrixValue(a, b') + 1)
  }

  // ---------------------------------------------------------------------
  // Properties of the edit distance

  /** The distance is at least the difference of the lengths. */
  lemma {:induction false} LengthGap(a: string, b: string)
    decreases |a| + |b|
    ensures EditDistance(a, b) >= |a| - |b|
    ensures EditDistance(a, b) >= |b| - |a|
  {
    if |a| > 0 && |b| > 0 {
      var a', b' := a[..|a| - 1], b[..|b| - 1];
      LengthGap(a', b');
      LengthGap(a', b);
      LengthGap(a, b');
    }
  }

  /** The distance never exceeds the longer length. */
  lemma {:induction false} AtMostLonger(a: string, b: string)
    decreases |a| + |b|
    ensures EditDistance(a, b) <= if |a| >= |b| then |a| else |b|
  {
    if |a| > 0 && |b| > 0 {
      AtMostLonger(a[..|a| - 1], b[..|b| - 1]);
    }
  }

  /** The distance is symmetric. */
  lemma {:induction false} Symmetric(a: string, b: string)
    decreases |a| + |b|
    ensures EditDistance(a, b) == EditDistance(b, a)
  {
    if |a| > 0 && |b| > 0 {
      var a', b' := a[..|a| - 1], b[..|b| - 1];
      Symmetric(a', b');
      Symmetric(a', b);
      Symmetric(a, b');
    }
  }

  /** The distance is zero exactly for equal strings. */
  lemma {:induction false} ZeroIffEqual(a: string, b: string)
    decreases |a| + |b|
    ensures EditDistance(a, b) == 0 <==> a == b
  {
    if |a| > 0 && |b| > 0 {
      var a', b' := a[..|a| - 1], b[..|b| - 1];
      ZeroIffEqual(a', b');
      assert a == a' + [a[|a| - 1]] && b == b' + [b[|b| - 1]];
      if a == b {
        assert a' == b';
      }
    }
  }

  /** Dropping the last character of `b` lowers the distance by at most one. */
  lemma {:induction false} DropLastOfSecond(x: string, y: string, c: char)
    decreases |x| + |y|
    ensures EditDistance(x, y) <= EditDistance(x, y + [c]) + 1
  {
    var y2 := y + [c];
    assert y2[..|y2| - 1] == y;
    if |x| == 0 {
    } else if |y| == 0 {
      LengthGap(x, y2);
    } else {
      var x' := x[..|x| - 1];
      DropLastOfSecond(x', y, c);
    }
  }

  /** Dropping the last character of `a` lowers the distance by at most one. */
  lemma DropLastOfFirst(x: string, y: string, c: char)
    ensures EditDistance(x, y) <= EditDistance(x + [c], y) + 1
  {
    DropLastOfSecond(y, x, c);
    Symmetric(x, y);
    Symmetric(x + [c], y);
  }

  /** The source's matrix recurrence computes the textbook edit distance:
      copying the diagonal on equal characters loses nothing, because one
      deletion or insertion never saves more than one step. */
  lemma {:induction false} MatrixValueIsEditDistance(a: string, b: string)
    decreases |a| + |b|
    ensures MatrixValue(a, b) == EditDistance(a, b)
  {
    if |a| > 0 && |b| > 0 {
      var a', b' := a[..|a| - 1], b[..|b| - 1];
      MatrixValueIsEditDistance(a', b');
      if a[|a| - 1] == b[|b| - 1] {
        EqualLastIsFree(a, b);
      } else {
        MatrixValueIsEditDistance(a', b);
        MatrixValueIsEditDistance(a, b');
      }
    }
  }

  /** Equal last characters cost nothing: the distance is that of the two
      strings without them. */
  lemma EqualLastIsFree(a: string, b: string)
    requires |a| > 0 && |b| > 0 && a[|a| - 1] == b[|b| - 1]
    ensures EditDistance(a, b) == EditDistance(a[..|a| - 1], b[..|b| - 1])
  {
    var a', b' := a[..|a| - 1], b[..|b| - 1];
    assert a == a' + [a[|a| - 1]] && b == b' + [b[|b| - 1]];
    DropLastOfSecond(a', b', b[|b| - 1]);
    DropLastOfFirst(a', b', a[|a| - 1]);
  }

  // ---------------------------------------------------------------------
  // The matrix computation

  /** `levenshteinDistance(a, b)`: the early returns for an empty argument,
      then the matrix filled row by row. */
  method LevenshteinDistance(a: string, b: string) returns (d: nat)
    ensures |a| == 0 ==> d == |b|
    ensures |b| == 0 ==> d == |a|
    ensures d == EditDistance(a, b)
  {
    if |a| == 0 { return |b|; }
    if |b| == 0 { return |a|; }
    var matrix := new nat[|b| + 1, |a| + 1];
    var i := 0;
    while i <= |b|
      invariant 0 <= i <= |b| + 1
      invariant forall r :: 0 <= r < i ==> matrix[r, 0] == r
    {
      matrix[i, 0] := i;
      i := i + 1;
    }
    var j := 0;
    while j <= |a|
      invariant 0 <= j <= |a| + 1
      invariant forall r :: 0 <= r <= |b| ==> matrix[r, 0] == r
      invariant forall c :: 0 <= c < j ==> matrix[0, c] == c
    {
      matrix[0, j] := j;
      j := j + 1;
    }
    i := 1;
    while i <= |b|
      invariant 1 <= i <= |b| + 1
      invariant forall r :: 0 <= r <= |b| ==> matrix[r, 0] == r
      invariant forall r, c :: 0 <= r < i && 0 <= c <= |a| ==> matrix[r, c] == MatrixValue(a[..c], b[..r])
    {
      FillRow(matrix, a, b, i);
      i := i + 1;
    }
    d := matrix[|b|, |a|];
    assert a[..|a|] == a && b[..|b|] == b;
    MatrixValueIsEditDistance(a, b);
  }

  /** The inner loop of the matrix fill: row `i` from column 1 on, each cell
      from its left, upper and upper-left neighbours. */
  method FillRow(matrix: array2<nat>, a: string, b: string, i: nat)
    requires matrix.Length0 == |b| + 1 && matrix.Length1 == |a| + 1
    requires 1 <= i <= |b|
    requires matrix[i, 0] == i
    requires forall c :: 0 <= c <= |a| ==> matrix[i - 1, c] == MatrixValue(a[..c], b[..i - 1])
    modifies matrix
    ensures forall r, c :: 0 <= r < matrix.Length0 && 0 <= c < matrix.Length1 && r != i ==> matrix[r, c] == old(matrix[r, c])
    ensures forall c :: 0 <= c <= |a| ==> matrix[i, c] == MatrixValue(a[..c], b[..i])
  {
    assert MatrixValue(a[..0], b[..i]) == i;
    var j := 1;
    while j <= |a|
      invariant 1 <= j <= |a| + 1
      invariant forall r, c :: 0 <= r < matrix.Length0 && 0 <= c < matrix.Length1 && r != i ==> matrix[r, c] == old(matrix[r, c])
      invariant forall c :: 0 <= c < j ==> matrix[i, c] == MatrixValue(a[..c], b[..i])
    {
      assert a[..j][..j - 1] == a[..j - 1] && b[..i][..i - 1] == b[..i - 1];
      if b[i - 1] == a[j - 1] {
        matrix[i, j] := matrix[i - 1, j - 1];
      } else {
        matrix[i, j] := Min3(matrix[i - 1, j - 1] + 1, matrix[i, j - 1] + 1, matrix[i - 1, j] + 1);
      }
      j := j + 1;
    }
  }

  /** A substitution in the first character already costs two once the
      longer string is cut one character short, as the matchers do. */
  lemma TruncatedSubstitution()
    ensures EditDistance("b", "ax") == 2
  {
    assert EditDistance("", "a") == 1;
    assert EditDistance("b", "a") == 1;
    assert EditDistance("", "ax") == 2;
  }
}

=== FILE: morphic_ext.dfy ===
/** The candidate and menu assembly of the two `morphic_ext.js` files: what
    a morph offers for a list of recognised texts
    (`findFunctionCandidates` of `Morph`, `WorldMorph`, `ParameterCallMorph`
    and `ParameterQuestionMorph`), how a name becomes an action
    (`makeFunctionFor`), the menu `fillHelpMenu` builds from the candidates,
    and the call string a `ParameterCallMorph` evaluates. Actions are
    described, not performed: widgets and `eval` are outside the model. */
module MorphicExt {
  import opened JsText
  import opened Targets
  import opened FuzzyMatch

  /** The constructors behind the world's first three names: `Morph`,
      `CircleBoxMorph` and JavaScript's own `String`. */
  datatype MakerClass = PlainMorph | CircleBox | JsString

  datatype Action =
    | CallDirect(name: string)                          // this[name]()
    | AskParameters(name: string, params: seq<string>)  // a ParameterCallMorph with one question per parameter
    | MakeNew(cls: MakerClass)                          // a new morph over the stroke bounds
    | EvalText(text: string)                            // eval("this." + text)
    | SetQuestionText(text: string)                     // a ParameterQuestionMorph takes the text
    | RunCall                                           // evaluate the ParameterCallMorph's message once
    | StartTicking                                      // evaluate it on every step, at 10 fps
    | CancelCall                                        // close the ParameterCallMorph
    | ReplaceText(text: string)                         // an argument morph of a call shows this text

  /** The `[function, caption]` pairs passed to `fillHelpMenu`. */
  datatype Candidate = Candidate(action: Action, caption: string)

  function Captions(list: seq<Candidate>): (r: seq<string>)
    ensures |r| == |list| && forall i :: 0 <= i < |list| ==> r[i] == list[i].caption
  {
    seq(|list|, i requires 0 <= i < |list| => list[i].caption)
  }

  // ---------------------------------------------------------------------
  // makeFunctionFor

  function FunctionParams(target: Target, name: string): seq<string>
    requires IsFunction(target, name)
  {
    MemberParamNames(Lookup(target, name).value)
  }

  /** `makeFunctionFor(funcName)`: a direct call when `getParamNames` finds
      no parameter, otherwise a parameter dialog with one question per
      parameter name. */
  function MakeFunctionFor(target: Target, name: string): (r: Action)
    requires IsFunction(target, name)
    ensures r.CallDirect? || r.AskParameters?
    ensures r.name == name
    ensures r.AskParameters? ==> r.params != [] && forall k :: 0 <= k < |r.params| ==> r.params[k] != [] && IsToken(r.params[k])
  {
    var names := FunctionParams(target, name);
    if |names| == 0 then CallDirect(name) else AskParameters(name, names)
  }

  /** A function declared with parameters opens a dialog asking for exactly
      those parameters, in order. */
  lemma MakeFunctionForDeclared(target: Target, name: string, header: string, params: seq<string>, body: string)
    requires Lookup(target, name) == Some(Function(header + "(" + Join(params, ", ") + ")" + body))
    requires NoParens(header) && params != []
    requires forall k :: 0 <= k < |params| ==> params[k] != [] && IsToken(params[k]) && NoParens(params[k])
    ensures MakeFunctionFor(target, name) == AskParameters(name, params)
  {
    ParamNamesOfDeclaration(header, params, body);
  }

  /** A function declared without parameters is called directly. */
  lemma MakeFunctionForNoParams(target: Target, name: string, header: string, body: string)
    requires Lookup(target, name) == Some(Function(header + "()" + body))
    requires NoParens(header)
    ensures MakeFunctionFor(target, name) == CallDirect(name)
  {
    NoParamNames(header, body);
  }

  // ---------------------------------------------------------------------
  // Morph.prototype.findFunctionCandidates

  /** `funcNames.map((n) => [this.makeFunctionFor(n), n])`. */
  function FunctionCandidates(target: Target, names: seq<string>): (r: seq<Candidate>)
    requires forall k :: 0 <= k < |names| ==> IsFunction(target, names[k])
    ensures |r| == |names|
    ensures forall k :: 0 <= k < |r| ==> !r[k].action.EvalText?
  {
    seq(|names|, k requires 0 <= k < |names| => Candidate(MakeFunctionFor(target, names[k]), names[k]))
  }

  /** The fuzzy matches of one text among the morph's functions. */
  function MorphMatches(target: Target, text: string): (r: seq<string>)
    ensures forall k :: 0 <= k < |r| ==> IsFunction(target, r[k])
  {
    var r := MatchesFromList(text, Functions(target));
    SubMultisetMembers(r, Functions(target));
    r
  }

  /** The candidates of one text in InkMorphicJS/js/morphic_ext.js, where
      the literal fallback is commented out. */
  function MorphBlock(target: Target, text: string): (r: seq<Candidate>)
  {
    FunctionCandidates(target, MorphMatches(target, text))
  }

  /** `findFunctionCandidates` of InkMorphicJS: the blocks of the texts, in
      text order. */
  function MorphCandidates(target: Target, texts: seq<string>): seq<Candidate> {
    Flatten(seq(|texts|, i requires 0 <= i < |texts| => MorphBlock(target, texts[i])))
  }

  /** Every candidate is named by some text: its caption is among that
      text's fuzzy matches, and it calls the function of that name. */
  lemma MorphCandidatesNamed(target: Target, texts: seq<string>, c: Candidate)
    requires c in MorphCandidates(target, texts)
    ensures exists i :: 0 <= i < |texts| && c.caption in MatchesFromList(texts[i], Functions(target))
    ensures IsFunction(target, c.caption) && c.action == MakeFunctionFor(target, c.caption)
  {
    var blocks := seq(|texts|, i requires 0 <= i < |texts| => MorphBlock(target, texts[i]));
    FlattenMember(blocks, c);
    var i :| 0 <= i < |texts| && c in blocks[i];
    var names := MorphMatches(target, texts[i]);
    var k :| 0 <= k < |blocks[i]| && blocks[i][k] == c;
    assert c == Candidate(MakeFunctionFor(target, names[k]), names[k]);
  }

  /** The candidates of one text in js/js/morphic_ext.js: the fuzzy matches,
      then the literal text. */
  function MorphBlockJs(target: Target, text: string): (r: seq<Candidate>)
    ensures |r| >= 1 && r[|r| - 1] == Candidate(EvalText(text), text)
    ensures forall k :: 0 <= k < |r| - 1 ==> !r[k].action.EvalText?
  {
    FunctionCandidates(target, MorphMatchesJs(target, text)) + [Candidate(EvalText(text), text)]
  }

  function MorphMatchesJs(target: Target, text: string): (r: seq<string>)
    ensures forall k :: 0 <= k < |r| ==> IsFunction(target, r[k])
  {
    var r := MatchesFromListJs(text, Functions(target));
    SubMultisetMembers(r, Functions(target));
    r
  }

  /** `findFunctionCandidates` of the js tree: the blocks of the texts, in
      text order. */
  function MorphCandidatesJs(target: Target, texts: seq<string>): seq<Candidate> {
    Flatten(MorphBlocksJs(target, texts))
  }

  function MorphBlocksJs(target: Target, texts: seq<string>): (r: seq<seq<Candidate>>)
    ensures |r| == |texts| && forall i :: 0 <= i < |texts| ==> r[i] == MorphBlockJs(target, texts[i])
  {
    seq(|texts|, i requires 0 <= i < |texts| => MorphBlockJs(target, texts[i]))
  }

  /** Every text is offered literally. */
  lemma MorphCandidatesJsOffersTexts(target: Target, texts: seq<string>, i: nat)
    requires i < |texts|
    ensures Candidate(EvalText(texts[i]), texts[i]) in MorphCandidatesJs(target, texts)
  {
    var block := MorphBlockJs(target, texts[i]);
    assert block[|block| - 1] in block;
    FlattenMember(MorphBlocksJs(target, texts), Candidate(EvalText(texts[i]), texts[i]));
  }

  /** Every candidate either evaluates one of the texts, captioned by it, or
      calls the function of its caption. */
  lemma MorphCandidatesJsActions(target: Target, texts: seq<string>, c: Candidate)
    requires c in MorphCandidatesJs(target, texts)
    ensures c.action.EvalText? ==> c.caption == c.action.text && c.caption in texts
    ensures !c.action.EvalText? ==> IsFunction(target, c.caption) && c.action == MakeFunctionFor(target, c.caption)
  {
    var blocks := MorphBlocksJs(target, texts);
    FlattenMember(blocks, c);
    var i :| 0 <= i < |texts| && c in blocks[i];
    BlockJsMember(target, texts[i], c);
    assert texts[i] in texts;
  }

  lemma BlockJsMember(target: Target, text: string, c: Candidate)
    requires c in MorphBlockJs(target, text)
    ensures c.action.EvalText? ==> c.caption == c.action.text && c.caption == text
    ensures !c.action.EvalText? ==> IsFunction(target, c.caption) && c.action == MakeFunctionFor(target, c.caption)
  {
    var names := MorphMatchesJs(target, text);
    var fs := FunctionCandidates(target, names);
    assert MorphBlockJs(target, text) == fs + [Candidate(EvalText(text), text)];
    if c in fs {
      var k :| 0 <= k < |fs| && fs[k] == c;
      assert c == Candidate(MakeFunctionFor(target, names[k]), names[k]);
    }
  }

  /** Texts contribute in input order: adding a text appends its block. */
  lemma MorphCandidatesJsAppend(target: Target, texts: seq<string>, text: string)
    ensures MorphCandidatesJs(target, texts + [text]) == MorphCandidatesJs(target, texts) + MorphBlockJs(target, text)
  {
    var block := MorphBlockJs(target, text);
    MorphBlocksJsAppend(target, texts, text);
    FlattenAppend(MorphBlocksJs(target, texts), [block]);
    FlattenSingle(block);
  }

  lemma MorphBlocksJsAppend(target: Target, texts: seq<string>, text: string)
    ensures MorphBlocksJs(target, texts + [text]) == MorphBlocksJs(target, texts) + [MorphBlockJs(target, text)]
  {
    var l := MorphBlocksJs(target, texts + [text]);
    var r := MorphBlocksJs(target, texts) + [MorphBlockJs(target, text)];
    assert |l| == |r|;
    forall i | 0 <= i < |l| ensures l[i] == r[i] {
      assert l[i] == MorphBlockJs(target, (texts + [text])[i]);
      if i < |texts| {
        assert (texts + [text])[i] == texts[i];
        assert r[i] == MorphBlocksJs(target, texts)[i];
      } else {
        assert (texts + [text])[i] == text;
        assert r[i] == MorphBlockJs(target, text);
      }
    }
  }

  // ---------------------------------------------------------------------
  // WorldMorph.prototype.findFunctionCandidates

  const MakerNames: seq<string> := ["rectangle", "circle", "string"]
  const MakerClasses: seq<MakerClass> := [PlainMorph, CircleBox, JsString]

  function MakerCaption(n: string): string { "Make new " + n }

  /** `["rectangle", "circle", "string"].concat(_.functions(this))`. */
  function WorldFuncList(world: Target): seq<string> {
    MakerNames + Functions(world)
  }

  /** The candidate for a matched name `n`: a maker when the first index of
      `n` in the list is one of the first three, otherwise `makeFunctionFor`. */
  function WorldCandidate(world: Target, n: string): (r: Candidate)
    requires n in WorldFuncList(world)
    ensures n in MakerNames ==> r.caption == MakerCaption(n) && r.action.MakeNew?
    ensures n == "rectangle" ==> r.action == MakeNew(PlainMorph)
    ensures n == "circle" ==> r.action == MakeNew(CircleBox)
    ensures n == "string" ==> r.action == MakeNew(JsString)
    ensures n !in MakerNames ==> IsFunction(world, n) && r == Candidate(MakeFunctionFor(world, n), n)
  {
    var funcList := WorldFuncList(world);
    var idx := IndexOfIn(funcList, n);
    MakerIndex(world, n);
    if 0 <= idx < |MakerClasses| then Candidate(MakeNew(MakerClasses[idx]), MakerCaption(n))
    else Candidate(MakeFunctionFor(world, n), n)
  }

  lemma MakerIndex(world: Target, n: string)
    requires n in WorldFuncList(world)
    ensures n == "rectangle" ==> IndexOfIn(WorldFuncList(world), n) == 0
    ensures n == "circle" ==> IndexOfIn(WorldFuncList(world), n) == 1
    ensures n == "string" ==> IndexOfIn(WorldFuncList(world), n) == 2
    ensures n !in MakerNames ==> IndexOfIn(WorldFuncList(world), n) >= 3
  {
    var funcList := WorldFuncList(world);
    assert funcList[0] == "rectangle" && funcList[1] == "circle" && funcList[2] == "string";
    if n !in MakerNames {
      var idx := IndexOfIn(funcList, n);
      assert idx != 0 && idx != 1 && idx != 2;
    }
  }

  function WorldCandidatesOf(world: Target, names: seq<string>): (r: seq<Candidate>)
    requires forall k :: 0 <= k < |names| ==> names[k] in WorldFuncList(world)
    ensures |r| == |names| && forall k :: 0 <= k < |names| ==> r[k] == WorldCandidate(world, names[k])
  {
    if names == [] then [] else [WorldCandidate(world, names[0])] + WorldCandidatesOf(world, names[1..])
  }

  function WorldMatches(world: Target, text: string): (r: seq<string>)
    ensures forall k :: 0 <= k < |r| ==> r[k] in WorldFuncList(world)
  {
    var r := MatchesFromList(text, WorldFuncList(world));
    SubMultisetMembers(r, WorldFuncList(world));
    r
  }

  /** The candidates of one text on the world in InkMorphicJS: the matches
      only. */
  function WorldBlock(world: Target, text: string): seq<Candidate> {
    WorldCandidatesOf(world, WorldMatches(world, text))
  }

  /** `WorldMorph.findFunctionCandidates` of InkMorphicJS. */
  function WorldCandidates(world: Target, texts: seq<string>): seq<Candidate> {
    Flatten(seq(|texts|, i requires 0 <= i < |texts| => WorldBlock(world, texts[i])))
  }

  function WorldMatchesJs(world: Target, text: string): (r: seq<string>)
    ensures forall k :: 0 <= k < |r| ==> r[k] in WorldFuncList(world)
  {
    var r := MatchesFromListJs(text, WorldFuncList(world));
    SubMultisetMembers(r, WorldFuncList(world));
    r
  }

  /** The candidates of one text on the world in the js tree: the matches,
      then the literal text. */
  function WorldBlockJs(world: Target, text: string): (r: seq<Candidate>)
    ensures |r| >= 1 && r[|r| - 1] == Candidate(EvalText(text), text)
  {
    WorldCandidatesOf(world, WorldMatchesJs(world, text)) + [Candidate(EvalText(text), text)]
  }

  /** `WorldMorph.findFunctionCandidates` of the js tree. */
  function WorldCandidatesJs(world: Target, texts: seq<string>): seq<Candidate> {
    Flatten(seq(|texts|, i requires 0 <= i < |texts| => WorldBlockJs(world, texts[i])))
  }

  /** On the world too, every text is offered literally. */
  lemma WorldCandidatesJsOffersTexts(world: Target, texts: seq<string>, i: nat)
    requires i < |texts|
    ensures Candidate(EvalText(texts[i]), texts[i]) in WorldCandidatesJs(world, texts)
  {
    var blocks := seq(|texts|, i requires 0 <= i < |texts| => WorldBlockJs(world, texts[i]));
    var block := blocks[i];
    assert block[|block| - 1] in block;
    FlattenMember(blocks, Candidate(EvalText(texts[i]), texts[i]));
  }

  /** Writing "rectangle" (in any case) on the world offers to make a new
      plain morph, whatever functions the world has. */
  lemma RectangleOffersNewMorph(world: Target, text: string)
    requires ToLower(text) == "rectangle"
    ensures Candidate(MakeNew(PlainMorph), MakerCaption("rectangle")) in WorldCandidates(world, [text])
  {
    RectangleMatched(world, text);
    MatchedMakerOffered(world, WorldMatches(world, text), "rectangle");
    WorldCandidatesSingle(world, text);
  }

  lemma RectangleMatched(world: Target, text: string)
    requires ToLower(text) == "rectangle"
    ensures "rectangle" in WorldMatches(world, text)
  {
    var funcList := WorldFuncList(world);
    assert "rectangle" in funcList by { assert funcList[0] == "rectangle"; }
    assert |text| >= 2 by { assert |ToLower(text)| == 9; }
    LowerLiteral("rectangle");
    ExactMatchReturned(text, funcList, "rectangle");
  }

  lemma MatchedMakerOffered(world: Target, names: seq<string>, n: string)
    requires forall k :: 0 <= k < |names| ==> names[k] in WorldFuncList(world)
    requires n in names
    ensures WorldCandidate(world, n) in WorldCandidatesOf(world, names)
  {
    var k :| 0 <= k < |names| && names[k] == n;
    assert WorldCandidatesOf(world, names)[k] == WorldCandidate(world, n);
  }

  lemma WorldCandidatesSingle(world: Target, text: string)
    ensures WorldCandidates(world, [text]) == WorldCandidatesOf(world, WorldMatches(world, text))
  {
    var block := WorldBlock(world, text);
    var blocks := seq(1, i requires 0 <= i < 1 => WorldBlock(world, [text][i]));
    assert |blocks| == 1 && blocks[0] == block;
    assert blocks == [block];
    FlattenSingle(block);
  }

  /** The maker names are already lower-case. */
  lemma LowerLiteral(s: string)
    requires forall i :: 0 <= i < |s| ==> IsLowerAscii(s[i])
    ensures ToLower(s) == s
  {
  }

  // ---------------------------------------------------------------------
  // fillHelpMenu

  /** The menu items `fillHelpMenu` adds: the first candidate of every
      caption, in input order. */
  function HelpMenu(list: seq<Candidate>): (r: seq<Candidate>)
    ensures Captions(r) == Uniq(Captions(list))
  {
    if list == [] then []
    else
      var n := |list| - 1;
      var m := HelpMenu(list[..n]);
      assert Captions(list[..n]) == Captions(list)[..n];
      if list[n].caption in Captions(m) then m
      else
        assert Captions(m + [list[n]]) == Captions(m) + [list[n].caption];
        m + [list[n]]
  }

  /** Every item is the first candidate carrying its caption. */
  lemma {:induction false} HelpMenuFirstOccurrence(list: seq<Candidate>)
    ensures forall item :: item in HelpMenu(list) ==>
              item.caption in Captions(list) && item == list[IndexOfIn(Captions(list), item.caption)]
  {
    if list != [] {
      var n := |list| - 1;
      HelpMenuFirstOccurrence(list[..n]);
      HelpMenuKept(list);
      if list[n].caption !in Captions(HelpMenu(list[..n])) {
        HelpMenuAdded(list);
      }
    }
  }

  /** The step of `HelpMenuFirstOccurrence` for the items already present. */
  lemma HelpMenuKept(list: seq<Candidate>)
    requires list != []
    requires forall item :: item in HelpMenu(list[..|list| - 1]) ==>
               item.caption in Captions(list[..|list| - 1])
               && item == list[..|list| - 1][IndexOfIn(Captions(list[..|list| - 1]), item.caption)]
    ensures forall item :: item in HelpMenu(list[..|list| - 1]) ==>
              item.caption in Captions(list) && item == list[IndexOfIn(Captions(list), item.caption)]
  {
    var n := |list| - 1;
    var init := list[..n];
    assert Captions(list) == Captions(init) + [list[n].caption];
    forall item | item in HelpMenu(init)
      ensures item.caption in Captions(list) && item == list[IndexOfIn(Captions(list), item.caption)]
    {
      IndexOfInExtend(Captions(init), list[n].caption, item.caption);
    }
  }

  /** The step of `HelpMenuFirstOccurrence` for a new caption. */
  lemma HelpMenuAdded(list: seq<Candidate>)
    requires list != []
    requires list[|list| - 1].caption !in Captions(HelpMenu(list[..|list| - 1]))
    ensures IndexOfIn(Captions(list), list[|list| - 1].caption) == |list| - 1
  {
    var n := |list| - 1;
    var init := list[..n];
    UniqElements(Captions(init));
    assert Captions(list) == Captions(init) + [list[n].caption];
    IndexOfInAfter(Captions(init), list[n].caption);
  }

  lemma {:induction false} IndexOfInAfter(list: seq<string>, x: string)
    requires x !in list
    ensures IndexOfIn(list + [x], x) == |list|
  {
    if list != [] {
      assert (list + [x])[1..] == list[1..] + [x];
      IndexOfInAfter(list[1..], x);
    }
  }

  /** `fillHelpMenu(functionList, thenDo)`: the loop over the candidates
      with the array `names` of labels already added. */
  method FillHelpMenu(functionList: seq<Candidate>) returns (items: seq<Candidate>)
    ensures items == HelpMenu(functionList)
  {
    items := [];
    var names: seq<string> := [];
    var i := 0;
    while i < |functionList|
      invariant 0 <= i <= |functionList|
      invariant items == HelpMenu(functionList[..i])
      invariant names == Captions(items)
    {
      var funcAndText := functionList[i];
      assert functionList[..i + 1][..i] == functionList[..i];
      if IndexOfIn(names, funcAndText.caption) < 0 {
        items := items + [funcAndText];
        names := names + [funcAndText.caption];
      }
      i := i + 1;
    }
    assert functionList[..i] == functionList;
  }

  // ---------------------------------------------------------------------
  // ParameterCallMorph and ParameterQuestionMorph

  /** Each part followed by the separator, as the `forEach` appends them. */
  function Terminated(parts: seq<string>, sep: string): string {
    if parts == [] then [] else parts[0] + sep + Terminated(parts[1..], sep)
  }

  lemma {:induction false} TerminatedIsJoin(parts: seq<string>, sep: string)
    requires parts != []
    ensures Terminated(parts, sep) == Join(parts, sep) + sep
  {
    if |parts| > 1 {
      TerminatedIsJoin(parts[1..], sep);
    } else {
      assert parts[1..] == [];
    }
  }

  lemma {:induction false} TerminatedAppend(parts: seq<string>, x: string, sep: string)
    ensures Terminated(parts + [x], sep) == Terminated(parts, sep) + x + sep
  {
    if parts == [] {
      assert [x][1..] == [];
    } else {
      assert (parts + [x])[1..] == parts[1..] + [x];
      TerminatedAppend(parts[1..], x, sep);
    }
  }

  /** The message the "Run" and "Start Ticking" items evaluate: the name,
      "(", each child's text followed by ",", the last character cut off,
      then ")". */
  method RunMessage(name: string, children: seq<string>) returns (message: string)
    ensures children != [] ==> message == name + "(" + Join(children, ",") + ")"
    ensures children == [] ==> message == name + ")"
  {
    message := name + "(";
    var i := 0;
    while i < |children|
      invariant 0 <= i <= |children|
      invariant message == name + "(" + Terminated(children[..i], ",")
    {
      assert children[..i + 1] == children[..i] + [children[i]];
      TerminatedAppend(children[..i], children[i], ",");
      message := message + children[i] + ",";
      i := i + 1;
    }
    assert children[..i] == children;
    if children != [] {
      TerminatedIsJoin(children, ",");
    }
    message := Slice(message, 0, |message| - 1);
    message := message + ")";
  }

  /** The call the "Run" item evaluates passes the children's texts as the
      arguments, in order. */
  lemma RunMessageArguments(name: string, children: seq<string>)
    requires NoParens(name) && children != []
    requires forall k :: 0 <= k < |children| ==> children[k] != [] && IsToken(children[k]) && NoParens(children[k])
    ensures ParamNames(name + "(" + Join(children, ",") + ")") == children
  {
    CommaListFacts(children);
    ParamNamesOfCall(name, Join(children, ","));
  }

  /** `ParameterCallMorph.findFunctionCandidates` of InkMorphicJS. */
  const ParameterCallCandidates: seq<Candidate> :=
    [Candidate(RunCall, "Run"), Candidate(StartTicking, "Start Ticking"), Candidate(CancelCall, "Cancel")]

  /** `ParameterCallMorph.findFunctionCandidates` of the js tree. */
  const ParameterCallCandidatesJs: seq<Candidate> :=
    [Candidate(RunCall, "Run"), Candidate(CancelCall, "Cancel")]

  /** The dialog's menu shows all three of its items, in order, whatever
      was written. */
  lemma ParameterCallMenu()
    ensures Captions(HelpMenu(ParameterCallCandidates)) == ["Run", "Start Ticking", "Cancel"]
    ensures HelpMenu(ParameterCallCandidates) == ParameterCallCandidates
  {
    var c := ParameterCallCandidates;
    assert c[..2][..1] == [c[0]] && c[..2] == [c[0], c[1]] && c[..3] == c;
    assert Captions([c[0]]) == ["Run"];
    assert Captions([c[0], c[1]]) == ["Run", "Start Ticking"];
  }

  /** In the js tree the dialog shows "Run" and "Cancel", in order. */
  lemma ParameterCallMenuJs()
    ensures Captions(HelpMenu(ParameterCallCandidatesJs)) == ["Run", "Cancel"]
    ensures HelpMenu(ParameterCallCandidatesJs) == ParameterCallCandidatesJs
  {
    var d := ParameterCallCandidatesJs;
    assert d[..1] == [d[0]] && d[..2] == d;
  }

  /** `ParameterQuestionMorph.findFunctionCandidates`: every text offered as
      the new text of the question. */
  function ParameterQuestionCandidates(texts: seq<string>): (r: seq<Candidate>)
    ensures Captions(r) == texts
    ensures forall i :: 0 <= i < |r| ==> r[i].action == SetQuestionText(r[i].caption)
  {
    seq(|texts|, i requires 0 <= i < |texts| => Candidate(SetQuestionText(texts[i]), texts[i]))
  }

  /** The question's menu offers every distinct text once, first occurrence
      first. */
  lemma ParameterQuestionMenu(texts: seq<string>)
    ensures Captions(HelpMenu(ParameterQuestionCandidates(texts))) == Uniq(texts)
  {
  }
}

=== FILE: recognition_pass.dfy ===
/** What both copies of `StrokeManager.recognize` share: the outcome of a
    recognition pass, the pairing of stroke groups with their candidate
    lists done by `finishRecognition`, the outstanding recognizer calls of
    the fan-out, and the two versions of the point-cloud recognizer's
    `recognizeInk`. Promises are not modelled; a pass is settled at most
    once, and later settlements are ignored. */
module RecognitionPass {
  import opened JsText

  /** A stroke group as the platform returns it; only its identity matters. */
  type GroupId = nat

  /** `{strokes: strokeGroups[i], textCandidates: r}`; `strokes` is
      `undefined` (`None`) when there are more lists than groups. */
  datatype GroupResult = GroupResult(strokes: Option<GroupId>, textCandidates: seq<string>)

  /** The state of the promise `recognize` returns. */
  datatype Outcome = Pending | Resolved(results: seq<GroupResult>) | Rejected(error: string)

  const BusyError: string := "recognize operation already running or no strokes available"
  const GroupingError: string := "Could not determine stroke groups"

  /** Calling `resolve` or `reject`: only the first call settles the promise. */
  function Settle(current: Outcome, next: Outcome): (r: Outcome)
    ensures !current.Pending? ==> r == current
    ensures current.Pending? ==> r == next
  {
    if current.Pending? then next else current
  }

  /** `finishRecognition(strokeGroups)`: candidate list `i` paired with
      group `i`. */
  function Pairing(lists: seq<seq<string>>, groups: seq<GroupId>): (r: seq<GroupResult>)
    ensures |r| == |lists|
    ensures forall i :: 0 <= i < |lists| ==> r[i].textCandidates == lists[i]
    ensures forall i :: 0 <= i < |lists| ==> (r[i].strokes.Some? <==> i < |groups|)
    ensures forall i :: 0 <= i < |lists| && i < |groups| ==> r[i].strokes == Some(groups[i])
  {
    seq(|lists|, i requires 0 <= i < |lists| => GroupResult(if i < |groups| then Some(groups[i]) else None, lists[i]))
  }

  /** `k` calls for group `g`. */
  function Copies(g: GroupId, k: nat): (m: multiset<GroupId>)
    ensures m[g] == k && |m| == k
    ensures forall h :: h != g ==> m[h] == 0
  {
    if k == 0 then multiset{} else Copies(g, k - 1) + multiset{g}
  }

  /** With no group or no recognizer, no call is outstanding. */
  lemma NoCalls(groupCount: nat, recognizerCount: nat)
    requires groupCount == 0 || recognizerCount == 0
    ensures Calls(groupCount, recognizerCount) == multiset{}
  {
    assert |Calls(groupCount, recognizerCount)| == 0;
  }

  /** One more call on group `g`. */
  lemma AddCopy(base: multiset<GroupId>, g: GroupId, k: nat)
    ensures base + Copies(g, k) + multiset{g} == base + Copies(g, k + 1)
  {
    assert Copies(g, k + 1) == Copies(g, k) + multiset{g};
  }

  /** The recognizer calls one pass starts: for each of `groupCount` groups,
      one per registered recognizer, counted by group index. There are
      `groupCount * recognizerCount` of them, the starting value of the
      fan-in counter. */
  function Calls(groupCount: nat, recognizerCount: nat): (m: multiset<GroupId>)
    ensures forall g: GroupId :: g < groupCount ==> m[g] == recognizerCount
    ensures forall g: GroupId :: g >= groupCount ==> m[g] == 0
    ensures |m| == groupCount * recognizerCount
  {
    if groupCount == 0 then multiset{}
    else Calls(groupCount - 1, recognizerCount) + Copies(groupCount - 1, recognizerCount)
  }

  /** There is one pending call per started recognizer, and each is for an
      existing group. */
  lemma CallsBounded(groupCount: nat, recognizerCount: nat)
    ensures |Calls(groupCount, recognizerCount)| == groupCount * recognizerCount
    ensures forall h :: h in Calls(groupCount, recognizerCount) ==> h < groupCount
  {
    forall h | h in Calls(groupCount, recognizerCount) ensures h < groupCount {
      assert Calls(groupCount, recognizerCount)[h] > 0;
    }
  }

  /** The candidate lists of the pass before any recognizer has answered:
      each group's list is the platform's alternates, and nothing has been
      delivered. */
  lemma NothingDelivered(alternates: seq<seq<string>>)
    ensures Accumulated(alternates, seq(|alternates|, i => [])) == alternates
  {
    var delivered: seq<seq<seq<string>>> := seq(|alternates|, i => []);
    forall i | 0 <= i < |alternates|
      ensures Accumulated(alternates, delivered)[i] == alternates[i]
    {
      assert Flatten(delivered[i]) == [];
    }
  }

  /** Group `i`'s list: its alternates followed by every result delivered
      for it, in the order they arrived. */
  function Accumulated(alternates: seq<seq<string>>, delivered: seq<seq<seq<string>>>): (r: seq<seq<string>>)
    requires |delivered| == |alternates|
    ensures |r| == |alternates|
  {
    seq(|alternates|, i requires 0 <= i < |alternates| => alternates[i] + Flatten(delivered[i]))
  }

  /** Delivering `results` for group `g` appends them to that group's list
      and leaves the other lists alone. */
  lemma Deliver(alternates: seq<seq<string>>, delivered: seq<seq<seq<string>>>, g: nat, results: seq<string>)
    requires |delivered| == |alternates| && g < |alternates|
    ensures Accumulated(alternates, delivered[g := delivered[g] + [results]])
            == Accumulated(alternates, delivered)[g := Accumulated(alternates, delivered)[g] + results]
  {
    FlattenAppend(delivered[g], [results]);
    FlattenSingle(results);
    var before := Accumulated(alternates, delivered);
    var after := Accumulated(alternates, delivered[g := delivered[g] + [results]]);
    forall i | 0 <= i < |alternates|
      ensures after[i] == before[g := before[g] + results][i]
    {
    }
  }

  // ---------------------------------------------------------------------
  // PDollarRecognizer.prototype.recognizeInk

  /** What `this.Recognize(inkpoints)` returns: the best template's name and
      its score. */
  datatype Match = Match(name: string, score: real)

  /** A recognizer's settlement: resolved with a list of names, or rejected. */
  datatype Answer = Answered(names: seq<string>) | Failed

  /** `recognizeInk` of the first copy: the best name, whatever its score;
      `None` stands for `Recognize` throwing. */
  function RecognizeInkAny(m: Option<Match>): (r: Answer)
    ensures r.Failed? <==> m.None?
    ensures m.Some? ==> r.names == [m.value.name]
  {
    match m
    case None => Failed
    case Some(best) => Answered([best.name])
  }

  /** `recognizeInk` of the second copy: the best name only when its score
      is above 0.7, otherwise no name. */
  function RecognizeInkThreshold(m: Option<Match>): (r: Answer)
    ensures r.Failed? <==> m.None?
    ensures m.Some? && m.value.score > 0.7 ==> r.names == [m.value.name]
    ensures m.Some? && m.value.score <= 0.7 ==> r.names == []
  {
    match m
    case None => Failed
    case Some(best) => if best.score > 0.7 then Answered([best.name]) else Answered([])
  }

  /** The threshold only drops names: both copies fail together, and the
      second answers the first's name or nothing. */
  lemma ThresholdOnlyDrops(m: Option<Match>)
    ensures RecognizeInkThreshold(m).Failed? <==> RecognizeInkAny(m).Failed?
    ensures RecognizeInkThreshold(m).Answered? ==>
              RecognizeInkThreshold(m).names == RecognizeInkAny(m).names
              || RecognizeInkThreshold(m).names == []
  {
  }
}

=== FILE: recognizers.dfy ===
/** The recognition front end of the js tree (`js/js/recognizers.js`): the
    flag that keeps two recognitions from overlapping, the table of
    one-character gestures, the list of candidates built for the recognised
    texts, the menu made from it, and the call strings `sendMessage` puts
    together from the argument morphs. */
module Recognizers {
  import opened JsText
  import opened Targets
  import opened FuzzyMatch
  import opened MorphicExt

  // ---------------------------------------------------------------------
  // recognize: the recognizeOperationRunning flag

  /** The word the success callback shows for one word of ink: its first
      alternate; `alts[0]` of an empty list is `undefined`. */
  function TopAlternate(alts: seq<string>): string {
    if alts == [] then "undefined" else alts[0]
  }

  /** The status line `alternates` accumulates: a space before every word's
      first alternate. */
  function StatusLine(words: seq<seq<string>>): (r: string)
    ensures |r| >= |words|
  {
    if words == [] then [] else " " + TopAlternate(words[0]) + StatusLine(words[1..])
  }

  function TopAlternates(words: seq<seq<string>>): (r: seq<string>)
    ensures |r| == |words| && forall i :: 0 <= i < |words| ==> r[i] == TopAlternate(words[i])
  {
    seq(|words|, i requires 0 <= i < |words| => TopAlternate(words[i]))
  }

  lemma {:induction false} StatusLineAppend(words: seq<seq<string>>, w: seq<string>)
    ensures StatusLine(words + [w]) == StatusLine(words) + " " + TopAlternate(w)
  {
    if words == [] {
      assert [w][1..] == [];
    } else {
      assert (words + [w])[1..] == words[1..] + [w];
      StatusLineAppend(words[1..], w);
    }
  }

  /** The status line is the words' first alternates joined by spaces, after
      one leading space. */
  lemma {:induction false} StatusLineIsJoin(words: seq<seq<string>>)
    requires words != []
    ensures StatusLine(words) == " " + Join(TopAlternates(words), " ")
  {
    var tops := TopAlternates(words);
    if |words| == 1 {
      assert words[1..] == [];
    } else {
      StatusLineIsJoin(words[1..]);
      assert TopAlternates(words[1..]) == tops[1..];
    }
  }

  /** The module's single-flight flag and what the two callbacks report. */
  class RecognitionLock {
    var running: bool
    var status: string
    var lastError: string
    /** A `thenDo` was passed to the `recognize` that is running. */
    var hasThenDo: bool
    /** The results handed to `thenDo`, one entry per call, oldest first. */
    var handed: seq<seq<seq<string>>>

    constructor ()
      ensures !running && status == [] && lastError == [] && !hasThenDo && handed == []
    {
      running := false;
      status := [];
      lastError := [];
      hasThenDo := false;
      handed := [];
    }

    /** `recognize(thenDo)`: returns at once while a recognition runs or
        when there is no ink; otherwise sets the flag and starts one,
        remembering whether a `thenDo` was passed. */
    method Recognize(strokeCount: nat, thenDo: bool) returns (started: bool)
      modifies this
      ensures started <==> !old(running) && strokeCount > 0
      ensures running == (old(running) || started)
      ensures hasThenDo == (if started then thenDo else old(hasThenDo))
      ensures status == old(status) && lastError == old(lastError) && handed == old(handed)
    {
      if running || strokeCount == 0 {
        return false;
      }
      running := true;
      hasThenDo := thenDo;
      started := true;
    }

    /** The success callback: shows every word's first alternate, hands the
        results to `thenDo` when one was passed, then clears the flag. Should
        `thenDo` throw, the flag is never cleared, and every later
        `recognize` returns at once. */
    method Succeeded(words: seq<seq<string>>, thenDoThrows: bool)
      modifies this
      ensures status == StatusLine(words)
      ensures handed == old(handed) + (if old(hasThenDo) then [words] else [])
      ensures running <==> old(hasThenDo) && thenDoThrows
      ensures lastError == old(lastError) && hasThenDo == old(hasThenDo)
    {
      var alternates := "";
      var i := 0;
      while i < |words|
        invariant 0 <= i <= |words|
        invariant alternates == StatusLine(words[..i])
        invariant lastError == old(lastError) && hasThenDo == old(hasThenDo) && handed == old(handed)
      {
        assert words[..i + 1] == words[..i] + [words[i]];
        StatusLineAppend(words[..i], words[i]);
        alternates := alternates + " " + TopAlternate(words[i]);
        i := i + 1;
      }
      assert words[..i] == words;
      status := alternates;
      if hasThenDo {
        handed := handed + [words];
        if thenDoThrows {
          // the exception leaves the handler before the flag is reset
          running := true;
          return;
        }
      }
      running := false;
    }

    /** The error callback: reports the error and still clears the flag. */
    method Failed(error: string)
      modifies this
      ensures lastError == "InkManager::recognizeAsync: " + error
      ensures !running && status == old(status) && hasThenDo == old(hasThenDo) && handed == old(handed)
    {
      lastError := "InkManager::recognizeAsync: " + error;
      running := false;
    }
  }

  /** A `thenDo` that throws leaves the flag set: the next `recognize`
      returns at once, with ink present and no recognition running. */
  method ThrowingThenDoBlocks(words: seq<seq<string>>) returns (later: bool)
    ensures !later
  {
    var lock := new RecognitionLock();
    var started := lock.Recognize(1, true);
    lock.Succeeded(words, true);
    later := lock.Recognize(1, false);
  }

  // ---------------------------------------------------------------------
  // getSymbolicFunction

  /** A screen offset; y grows downwards. */
  datatype Offset = Offset(dx: int, dy: int)

  /** The direction an arrow-like stroke points in, ten pixels long. */
  function ArrowOffset(c: char): Option<Offset> {
    match c
    case '>' => Some(Offset(10, 0))
    case '<' => Some(Offset(-10, 0))
    case '^' => Some(Offset(0, -10))
    case '/' => Some(Offset(10, -10))
    case '\\' => Some(Offset(10, 10))
    case _ => None
  }

  function Digit(d: nat): char
    requires d < 10
  {
    "0123456789"[d]
  }

  function NatText(n: nat): string {
    if n < 10 then [Digit(n)] else NatText(n / 10) + [Digit(n % 10)]
  }

  /** The decimal text JavaScript writes for a whole number. */
  function DecimalText(n: int): string {
    if n < 0 then "-" + NatText(-n) else NatText(n)
  }

  function MoveByMessage(o: Offset): string {
    "moveBy(new Point(" + DecimalText(o.dx) + "," + DecimalText(o.dy) + "))"
  }

  /** `getSymbolicFunction(text)`: the fixed table of one-character
      gestures. */
  function SymbolicFunction(text: string): (r: seq<string>)
    ensures |r| <= 1
    ensures r != [] ==> |text| == 1
  {
    if text == "x" || text == "X" then ["destroy"]
    else if text == ">" then ["moveBy(new Point(10,0))"]
    else if text == "<" then ["moveBy(new Point(-10,0))"]
    else if text == "^" then ["moveBy(new Point(0,-10))"]
    else if text == "/" then ["moveBy(new Point(10,-10))"]
    else if text == "\\" then ["moveBy(new Point(10,10))"]
    else []
  }

  /** An arrow-like stroke moves the morph ten pixels in the arrow's
      direction. */
  lemma SymbolicArrow(c: char)
    requires ArrowOffset(c).Some?
    ensures SymbolicFunction([c]) == [MoveByMessage(ArrowOffset(c).value)]
  {
    ArrowMessages();
  }

  /** The five move messages, written out. */
  lemma ArrowMessages()
    ensures MoveByMessage(Offset(10, 0)) == "moveBy(new Point(10,0))"
    ensures MoveByMessage(Offset(-10, 0)) == "moveBy(new Point(-10,0))"
    ensures MoveByMessage(Offset(0, -10)) == "moveBy(new Point(0,-10))"
    ensures MoveByMessage(Offset(10, -10)) == "moveBy(new Point(10,-10))"
    ensures MoveByMessage(Offset(10, 10)) == "moveBy(new Point(10,10))"
  {
    DecimalTexts();
  }

  lemma DecimalTexts()
    ensures DecimalText(10) == "10" && DecimalText(-10) == "-10" && DecimalText(0) == "0"
  {
    assert NatText(10) == "10" by { assert NatText(1) == "1"; }
  }

  /** The table has entries exactly for "x", "X" and the five arrows; both
      crosses destroy the morph. */
  lemma SymbolicTable(text: string)
    ensures SymbolicFunction(text) != [] <==>
              text == "x" || text == "X" || (|text| == 1 && ArrowOffset(text[0]).Some?)
    ensures text == "x" || text == "X" ==> SymbolicFunction(text) == ["destroy"]
  {
    if |text| == 1 {
      assert text == [text[0]];
    }
  }

  // ---------------------------------------------------------------------
  // showStrokeRecognitions: the candidate list

  /** What one recognised text adds to the list: its symbolic entries when
      it is shorter than 2, its fuzzy matches, then the text itself. */
  function RecognitionBlock(obj: Target, text: string): (r: seq<string>)
    ensures |r| >= 1 && r[|r| - 1] == text
  {
    (if |text| < 2 then SymbolicFunction(text) else []) + FunctionMatches(obj, text) + [text]
  }

  /** The list built for all the recognised texts, in their order. */
  function RecognitionCandidates(obj: Target, texts: seq<string>): (r: seq<string>)
    ensures |r| >= |texts|
  {
    if texts == [] then []
    else RecognitionCandidates(obj, texts[..|texts| - 1]) + RecognitionBlock(obj, texts[|texts| - 1])
  }

  /** The `forEach` over the text candidates that reassigns `list`. */
  method RecognitionList(obj: Target, texts: seq<string>) returns (list: seq<string>)
    ensures list == RecognitionCandidates(obj, texts)
  {
    list := [];
    var i := 0;
    while i < |texts|
      invariant 0 <= i <= |texts|
      invariant list == RecognitionCandidates(obj, texts[..i])
    {
      RecognitionCandidatesStep(obj, texts, i);
      list := AddText(obj, list, texts[i]);
      i := i + 1;
    }
    assert texts[..i] == texts;
  }

  /** One turn of that loop: the gesture entries of a short text, the fuzzy
      matches, then the text. */
  method AddText(obj: Target, list: seq<string>, text: string) returns (list': seq<string>)
    ensures list' == list + RecognitionBlock(obj, text)
  {
    var symbols := if |text| < 2 then SymbolicFunction(text) else [];
    list' := list + symbols;
    var funcs := MatchFunctions(obj, text);
    list' := list' + funcs;
    list' := list' + [text];
    AppendThree(list, symbols, funcs, [text]);
  }

  lemma AppendThree(s: seq<string>, a: seq<string>, b: seq<string>, c: seq<string>)
    ensures s + a + b + c == s + (a + b + c)
  {
  }

  lemma RecognitionCandidatesStep(obj: Target, texts: seq<string>, i: nat)
    requires i < |texts|
    ensures RecognitionCandidates(obj, texts[..i + 1]) == RecognitionCandidates(obj, texts[..i]) + RecognitionBlock(obj, texts[i])
  {
    assert texts[..i + 1][..i] == texts[..i];
  }

  /** Every recognised text is itself a candidate. */
  lemma RecognitionOffersTexts(obj: Target, texts: seq<string>, i: nat)
    requires i < |texts|
    ensures texts[i] in RecognitionCandidates(obj, texts)
  {
    var t := texts[i];
    var block := RecognitionBlock(obj, t);
    assert block == SymbolicFunction(t) + (FunctionMatches(obj, t) + [t]);
    assert block[|block| - 1] == t;
    BlockInCandidates(obj, texts, i, t);
  }

  /** Every candidate comes from some text: the text itself, a symbolic
      entry of a text shorter than 2, or a function key the fuzzy test
      accepts for a longer text. */
  lemma {:induction false} RecognitionProvenance(obj: Target, texts: seq<string>, x: string)
    requires x in RecognitionCandidates(obj, texts)
    ensures exists i :: 0 <= i < |texts| && FromText(obj, texts[i], x)
  {
    var n := |texts| - 1;
    if x in RecognitionBlock(obj, texts[n]) {
      BlockProvenance(obj, texts[n], x);
    } else {
      RecognitionProvenance(obj, texts[..n], x);
      var i :| 0 <= i < n && FromText(obj, texts[..n][i], x);
    }
  }

  predicate FromText(obj: Target, text: string, x: string) {
    x == text
    || (|text| < 2 && x in SymbolicFunction(text))
    || (|text| >= 2 && IsFunction(obj, x) && KeyMatches(x, NormaliseJs(text)))
  }

  lemma BlockProvenance(obj: Target, text: string, x: string)
    requires x in RecognitionBlock(obj, text)
    ensures FromText(obj, text, x)
  {
    if |text| >= 2 {
      FunctionMatchesMembers(obj, text);
    }
  }

  /** A short text's gesture entries are candidates. */
  lemma RecognitionOffersSymbols(obj: Target, texts: seq<string>, i: nat)
    requires i < |texts| && |texts[i]| < 2
    ensures forall x :: x in SymbolicFunction(texts[i]) ==> x in RecognitionCandidates(obj, texts)
  {
    var t := texts[i];
    assert RecognitionBlock(obj, t) == SymbolicFunction(t) + (FunctionMatches(obj, t) + [t]);
    forall x | x in SymbolicFunction(t) ensures x in RecognitionCandidates(obj, texts) {
      BlockInCandidates(obj, texts, i, x);
    }
  }

  /** Each text's whole block is part of the list. */
  lemma BlockInCandidates(obj: Target, texts: seq<string>, i: nat, x: string)
    requires i < |texts| && x in RecognitionBlock(obj, texts[i])
    ensures x in RecognitionCandidates(obj, texts)
  {
    RecognitionCandidatesStep(obj, texts, i);
    CandidatesPrefix(obj, texts, i + 1);
    var p := RecognitionCandidates(obj, texts[..i + 1]);
    var k :| 0 <= k < |p| && p[k] == x;
    assert RecognitionCandidates(obj, texts)[k] == x;
  }

  lemma PrefixOfPrefix(a: seq<string>, b: seq<string>, c: seq<string>)
    requires a <= b && b <= c
    ensures a <= c
  {
    assert b[..|a|] == a && c[..|b|] == b;
    assert c[..|a|] == b[..|a|];
  }

  /** The list built for the first texts is a prefix of the whole list. */
  lemma {:induction false} CandidatesPrefix(obj: Target, texts: seq<string>, m: nat)
    requires m <= |texts|
    ensures RecognitionCandidates(obj, texts[..m]) <= RecognitionCandidates(obj, texts)
    decreases |texts| - m
  {
    if m < |texts| {
      CandidatesPrefix(obj, texts, m + 1);
      RecognitionCandidatesStep(obj, texts, m);
      PrefixOfPrefix(RecognitionCandidates(obj, texts[..m]), RecognitionCandidates(obj, texts[..m + 1]),
                     RecognitionCandidates(obj, texts));
    } else {
      assert texts[..m] == texts;
    }
  }

  // ---------------------------------------------------------------------
  // showStrokeRecognitions: the menu

  /** What the first stroke lands on: the world, a morph (seen as its
      enumerable members) or an argument morph made by `sendMessage`, with
      its current text. */
  datatype Hit = OnWorld | OnMorph(obj: Target) | OnArgument(text: string)

  /** Source text of the functions `makeMorph(cls)` returns. */
  const MakerSource: string := "function " + "()" + MakerBody
  const MakerBody: string := " { var m = new cls(); world.add(m); }"

  /** The object that stands for the world: one maker per widget class. */
  const WorldMakers: Target := [
    Entry("rectangle", Function(MakerSource)),
    Entry("box", Function(MakerSource)),
    Entry("circle", Function(MakerSource)),
    Entry("slider", Function(MakerSource)),
    Entry("string", Function(MakerSource))
  ]

  /** The menu item for one distinct candidate: `sendMessage` for a
      function of the target, otherwise `eval("target." + text)`. */
  function MenuItem(obj: Target, text: string): (r: Candidate)
    ensures r.caption == text
    ensures r.action.EvalText? <==> !IsFunction(obj, text)
    ensures IsFunction(obj, text) ==> (r.action.CallDirect? || r.action.AskParameters?) && r.action.name == text
  {
    if IsFunction(obj, text) then Candidate(MakeFunctionFor(obj, text), text)
    else Candidate(EvalText(text), text)
  }

  function MenuItems(obj: Target, names: seq<string>): (r: seq<Candidate>)
    ensures Captions(r) == names
    ensures forall i :: 0 <= i < |r| ==> r[i] == MenuItem(obj, names[i])
  {
    seq(|names|, i requires 0 <= i < |names| => MenuItem(obj, names[i]))
  }

  /** `m.addItem(text, ...)` for each recognised text, on an argument
      morph: choosing one writes it in front of the morph's last
      character. */
  function ArgumentItems(texts: seq<string>, current: string): (r: seq<Candidate>)
    ensures Captions(r) == texts
    ensures forall i :: 0 <= i < |r| ==> r[i].action == ReplaceText(ParameterText(texts[i], current))
  {
    seq(|texts|, i requires 0 <= i < |texts| => Candidate(ReplaceText(ParameterText(texts[i], current)), texts[i]))
  }

  /** `text + target.text.slice(target.text.length - 1, target.text.length)`:
      the chosen text followed by the old text's last character. */
  function ParameterText(text: string, current: string): (r: string)
    ensures current != [] ==> r == text + [current[|current| - 1]]
    ensures current == [] ==> r == text
  {
    text + Slice(current, |current| - 1, |current|)
  }

  /** The items `showStrokeRecognitions` adds to its menu. */
  function RecognitionMenu(hit: Hit, texts: seq<string>): (r: seq<Candidate>)
    ensures hit.OnArgument? ==> Captions(r) == texts
    ensures !hit.OnArgument? ==> Distinct(Captions(r))
  {
    var obj := if hit.OnMorph? then hit.obj else WorldMakers;
    UniqElements(RecognitionCandidates(obj, texts));
    match hit
    case OnArgument(current) => ArgumentItems(texts, current)
    case OnWorld => MenuItems(WorldMakers, Uniq(RecognitionCandidates(WorldMakers, texts)))
    case OnMorph(obj) => MenuItems(obj, Uniq(RecognitionCandidates(obj, texts)))
  }

  /** The item loops of `showStrokeRecognitions`; the menu is shown only
      when it has at least one item. */
  method ShowStrokeRecognitions(hit: Hit, texts: seq<string>) returns (items: seq<Candidate>, shown: bool)
    ensures items == RecognitionMenu(hit, texts)
    ensures shown <==> texts != []
  {
    if hit.OnArgument? {
      items := AddArgumentItems(texts, hit.text);
    } else {
      var obj := if hit.OnWorld? then WorldMakers else hit.obj;
      var list := RecognitionList(obj, texts);
      items := AddMenuItems(obj, Uniq(list));
      MenuNonEmpty(obj, texts);
    }
    shown := |items| >= 1;
  }

  /** A menu item per recognised text on an argument morph. */
  method AddArgumentItems(texts: seq<string>, current: string) returns (items: seq<Candidate>)
    ensures items == ArgumentItems(texts, current)
  {
    items := [];
    var i := 0;
    while i < |texts|
      invariant 0 <= i <= |texts|
      invariant items == ArgumentItems(texts[..i], current)
    {
      items := items + [Candidate(ReplaceText(ParameterText(texts[i], current)), texts[i])];
      i := i + 1;
    }
    assert texts[..i] == texts;
  }

  /** A menu item per distinct candidate. */
  method AddMenuItems(obj: Target, names: seq<string>) returns (items: seq<Candidate>)
    ensures items == MenuItems(obj, names)
  {
    items := [];
    var i := 0;
    while i < |names|
      invariant 0 <= i <= |names|
      invariant items == MenuItems(obj, names[..i])
    {
      items := items + [MenuItem(obj, names[i])];
      i := i + 1;
    }
    assert names[..i] == names;
  }

  /** A morph's menu has items exactly when some text was recognised. */
  lemma MenuNonEmpty(obj: Target, texts: seq<string>)
    ensures Uniq(RecognitionCandidates(obj, texts)) != [] <==> texts != []
  {
    var list := RecognitionCandidates(obj, texts);
    UniqElements(list);
    if texts != [] {
      RecognitionOffersTexts(obj, texts, 0);
      assert texts[0] in Uniq(list);
    }
  }

  /** Each distinct candidate appears once, and a function of the target is
      sent as a message, with a parameter prompt exactly when it declares
      parameters. */
  lemma MorphMenuItems(obj: Target, texts: seq<string>)
    ensures Captions(RecognitionMenu(OnMorph(obj), texts)) == Uniq(RecognitionCandidates(obj, texts))
    ensures Distinct(Captions(RecognitionMenu(OnMorph(obj), texts)))
    ensures forall c :: c in RecognitionMenu(OnMorph(obj), texts) ==>
              if IsFunction(obj, c.caption) then c.action == MakeFunctionFor(obj, c.caption)
              else c.action == EvalText(c.caption)
  {
    UniqElements(RecognitionCandidates(obj, texts));
  }

  /** On the world every maker is called directly: none of them takes
      parameters. */
  lemma WorldMakersCalledDirectly(texts: seq<string>)
    ensures forall c :: c in RecognitionMenu(OnWorld, texts) && IsFunction(WorldMakers, c.caption) ==>
              c.action == CallDirect(c.caption)
  {
    forall c | c in RecognitionMenu(OnWorld, texts) && IsFunction(WorldMakers, c.caption)
      ensures c.action == CallDirect(c.caption)
    {
      MakerTakesNoParameters(c.caption);
    }
  }

  lemma MakerTakesNoParameters(name: string)
    requires IsFunction(WorldMakers, name)
    ensures MakeFunctionFor(WorldMakers, name) == CallDirect(name)
  {
    MakersShareSource();
    NoParamNames("function ", MakerBody);
  }

  lemma MakersShareSource()
    ensures forall i :: 0 <= i < |WorldMakers| ==> WorldMakers[i].member == Function(MakerSource)
  {
  }

  // ---------------------------------------------------------------------
  // sendMessage

  /** The texts of the argument morphs `sendMessage` creates: every name
      followed by ",", the last one by ")". */
  function ArgumentLabels(names: seq<string>): (r: seq<string>)
    ensures |r| == |names|
  {
    if names == [] then []
    else if |names| == 1 then [names[0] + ")"]
    else [names[0] + ","] + ArgumentLabels(names[1..])
  }

  /** The click handler of the `text(` morph: the message grows by each
      argument morph's current text. */
  method ClickMessage(text: string, argumentTexts: seq<string>) returns (message: string)
    ensures message == text + "(" + Flatten(argumentTexts)
  {
    message := text + "(";
    var i := 0;
    while i < |argumentTexts|
      invariant 0 <= i <= |argumentTexts|
      invariant message == text + "(" + Flatten(argumentTexts[..i])
    {
      assert argumentTexts[..i + 1] == argumentTexts[..i] + [argumentTexts[i]];
      FlattenAppend(argumentTexts[..i], [argumentTexts[i]]);
      assert Flatten([argumentTexts[i]]) == argumentTexts[i] + [];
      message := message + argumentTexts[i];
      i := i + 1;
    }
    assert argumentTexts[..i] == argumentTexts;
  }

  /** Untouched argument morphs spell the parameter list: the names joined
      by "," and closed by ")". */
  lemma {:induction false} LabelsSpellCall(names: seq<string>)
    requires names != []
    ensures Flatten(ArgumentLabels(names)) == Join(names, ",") + ")"
  {
    if |names| == 1 {
      assert Flatten([names[0] + ")"]) == names[0] + ")" + [];
    } else {
      LabelsSpellCall(names[1..]);
      var labels := ArgumentLabels(names);
      assert labels[0] == names[0] + "," && labels[1..] == ArgumentLabels(names[1..]);
    }
  }

  /** Writing a value on each argument morph keeps its "," or ")", so the
      morphs then read as the labels of the values. */
  lemma {:induction false} FilledArguments(names: seq<string>, values: seq<string>)
    requires |values| == |names|
    ensures Filled(values, ArgumentLabels(names)) == ArgumentLabels(values)
  {
    if |names| > 1 {
      FilledArguments(names[1..], values[1..]);
      assert Filled(values, ArgumentLabels(names))[1..] == Filled(values[1..], ArgumentLabels(names[1..]));
    }
  }

  /** The argument morphs after the value `values[i]` was chosen on the
      i-th one. */
  function Filled(values: seq<string>, labels: seq<string>): (r: seq<string>)
    requires |values| == |labels|
    ensures |r| == |labels|
    ensures forall i :: 0 <= i < |r| ==> r[i] == ParameterText(values[i], labels[i])
  {
    seq(|labels|, i requires 0 <= i < |labels| => ParameterText(values[i], labels[i]))
  }

  /** Choosing a value on every argument morph and clicking the call morph
      sends `text(v1,...,vn)`, whose parameter names are the values. */
  lemma CallWithValues(text: string, names: seq<string>, values: seq<string>)
    requires |values| == |names| && names != []
    ensures text + "(" + Flatten(Filled(values, ArgumentLabels(names))) == text + "(" + Join(values, ",") + ")"
  {
    FilledArguments(names, values);
    LabelsSpellCall(values);
  }
}

=== FILE: stroke_store.dfy ===
/** The stroke manager's own state, with the platform ink manager it drives
    reduced to what the model needs: the strokes it holds, its manipulation
    mode, its drawing colour and the log of pointer events forwarded to it.
    The platform's curve fitting, hit testing and handwriting recognition
    are not modelled; the log stands for the strokes they would build. */
module StrokeStore {
  import opened Strokes

  /** A stroke held by the ink manager; `selected` is its selection flag. */
  class Stroke {
    var selected: bool
    var rect: Rect
    const points: seq<Position>

    constructor (rect: Rect, points: seq<Position>)
      ensures !selected && this.rect == rect && this.points == points
    {
      selected := false;
      this.rect := rect;
      this.points := points;
    }
  }

  /** `InkManipulationMode`: the two modes the stroke manager selects, and
      the platform's third. */
  datatype Mode = Inking | Erasing | Selecting

  /** A pointer event forwarded to the ink manager. */
  datatype PointerCall = Down(p: Position) | Update(p: Position) | Up(p: Position)

  /** The strokes of `strokes` that are not in `gone`, in order. */
  function Keep(strokes: seq<Stroke>, gone: set<Stroke>): (r: seq<Stroke>)
    ensures |r| <= |strokes|
  {
    if strokes == [] then []
    else if strokes[0] in gone then Keep(strokes[1..], gone)
    else [strokes[0]] + Keep(strokes[1..], gone)
  }

  /** The strokes of `strokes` whose selection flag is set. */
  function SelectedOf(strokes: seq<Stroke>): set<Stroke>
    reads set s | s in strokes
  {
    set s | s in strokes && s.selected
  }

  /** `StrokeManager` together with the ink manager it owns. */
  class StrokeManager {
    var strokes: seq<Stroke>
    var mode: Mode
    var style: string
    var forwarded: seq<PointerCall>

    constructor ()
      ensures strokes == [] && mode == Inking && style == "" && forwarded == []
    {
      strokes := [];
      mode := Inking;
      style := "";
      forwarded := [];
    }

    /** `setMode(str)`: "inking" and "erasing" select those modes; any other
        text leaves the mode as it was. */
    method SetMode(str: string)
      modifies this
      ensures str == "inking" ==> mode == Inking
      ensures str == "erasing" ==> mode == Erasing
      ensures str != "inking" && str != "erasing" ==> mode == old(mode)
      ensures strokes == old(strokes) && style == old(style) && forwarded == old(forwarded)
    {
      if str == "inking" {
        mode := Inking;
      } else if str == "erasing" {
        mode := Erasing;
      }
    }

    /** `setStrokeStyle(c)`: the colour later strokes are drawn in. */
    method SetStrokeStyle(c: string)
      modifies this
      ensures style == c
      ensures strokes == old(strokes) && mode == old(mode) && forwarded == old(forwarded)
    {
      style := c;
    }

    method ProcessPointerDown(p: Position)
      modifies this
      ensures forwarded == old(forwarded) + [Down(p)]
      ensures strokes == old(strokes) && mode == old(mode) && style == old(style)
    {
      forwarded := forwarded + [Down(p)];
    }

    method ProcessPointerUpdate(p: Position)
      modifies this
      ensures forwarded == old(forwarded) + [Update(p)]
      ensures strokes == old(strokes) && mode == old(mode) && style == old(style)
    {
      forwarded := forwarded + [Update(p)];
    }

    method ProcessPointerUp(p: Position)
      modifies this
      ensures forwarded == old(forwarded) + [Up(p)]
      ensures strokes == old(strokes) && mode == old(mode) && style == old(style)
    {
      forwarded := forwarded + [Up(p)];
    }

    /** `deleteStrokes(strokes)`: every given stroke is marked selected, then
        the ink manager deletes its selected strokes, which takes the given
        ones and any that were already selected. */
    method DeleteStrokes(given: seq<Stroke>)
      modifies this, set s | s in given
      ensures forall s :: s in given ==> s.selected
      ensures strokes == Keep(old(strokes), old(SelectedOf(strokes)) + set s | s in given)
      ensures mode == old(mode) && style == old(style) && forwarded == old(forwarded)
    {
      for i := 0 to |given|
        invariant strokes == old(strokes) && mode == old(mode) && style == old(style) && forwarded == old(forwarded)
        invariant forall k :: 0 <= k < i ==> given[k].selected
        invariant forall s :: s in strokes ==> s.selected == (old(s.selected) || s in given[..i])
      {
        given[i].selected := true;
        assert given[..i + 1] == given[..i] + [given[i]];
      }
      assert given[..|given|] == given;
      KeepOnlyMatters(strokes, SelectedOf(strokes), old(SelectedOf(strokes)) + set s | s in given);
      DeleteSelected();
    }

    /** `inkManager.deleteSelected()`. */
    method DeleteSelected()
      modifies this
      ensures strokes == Keep(old(strokes), old(SelectedOf(strokes)))
      ensures mode == old(mode) && style == old(style) && forwarded == old(forwarded)
    {
      strokes := Keep(strokes, SelectedOf(strokes));
    }
  }

  /** A stroke survives the deletion exactly when it was held and is not in
      the deleted set; the survivors keep their order. */
  lemma {:induction false} KeepMembers(strokes: seq<Stroke>, gone: set<Stroke>)
    ensures forall s :: s in Keep(strokes, gone) <==> s in strokes && s !in gone
  {
    if strokes != [] {
      KeepMembers(strokes[1..], gone);
      assert strokes == [strokes[0]] + strokes[1..];
    }
  }

  /** Deleting nothing keeps every stroke. */
  lemma {:induction false} KeepNothing(strokes: seq<Stroke>)
    ensures Keep(strokes, {}) == strokes
  {
    if strokes != [] {
      KeepNothing(strokes[1..]);
      assert strokes == [strokes[0]] + strokes[1..];
    }
  }

  /** Deleting twice is deleting once. */
  lemma {:induction false} KeepIdempotent(strokes: seq<Stroke>, gone: set<Stroke>)
    ensures Keep(Keep(strokes, gone), gone) == Keep(strokes, gone)
  {
    if strokes != [] {
      KeepIdempotent(strokes[1..], gone);
    }
  }

  /** Only the members of the deleted set that are held matter. */
  lemma {:induction false} KeepOnlyMatters(strokes: seq<Stroke>, a: set<Stroke>, b: set<Stroke>)
    requires forall s :: s in strokes ==> (s in a <==> s in b)
    ensures Keep(strokes, a) == Keep(strokes, b)
  {
    if strokes != [] {
      KeepOnlyMatters(strokes[1..], a, b);
    }
  }
}

=== FILE: strokes.dfy ===
/** Helpers over strokes shared by both trees: the union box of a group of
    strokes (`getStrokeBounds`), the points handed to the point-cloud
    recognizer (the ink points of a group tagged with their stroke's index)
    and the conversions between ink colours and CSS colour strings
    (`colorToCSS`, `fromNameOrHex`). Coordinates are whole numbers. */
module Strokes {
  import opened JsText

  // ---------------------------------------------------------------------
  // getStrokeBounds

  /** `Number.MAX_SAFE_INTEGER`, the starting value of the minima. */
  const MaxSafeInteger: int := 9007199254740991

  /** A stroke's `boundingRect`. */
  datatype Rect = Rect(x: int, y: int, width: int, height: int)

  /** `new Rectangle(left, top, right, bottom)`. */
  datatype Bounds = Bounds(left: int, top: int, right: int, bottom: int)

  /** The box `getStrokeBounds` computes: the least left and top edges,
      starting from `MAX_SAFE_INTEGER`, and the greatest right and bottom
      edges, starting from 0, over the strokes in order. */
  function BoundsOf(rects: seq<Rect>): Bounds {
    if rects == [] then Bounds(MaxSafeInteger, MaxSafeInteger, 0, 0)
    else
      var b := BoundsOf(rects[..|rects| - 1]);
      var r := rects[|rects| - 1];
      Bounds(if r.x < b.left then r.x else b.left,
             if r.y < b.top then r.y else b.top,
             if r.x + r.width > b.right then r.x + r.width else b.right,
             if r.y + r.height > b.bottom then r.y + r.height else b.bottom)
  }

  /** `getStrokeBounds(strokes)`, one stroke at a time. */
  method StrokeBounds(rects: seq<Rect>) returns (b: Bounds)
    ensures b == BoundsOf(rects)
  {
    var x1, y1, x2, y2 := MaxSafeInteger, MaxSafeInteger, 0, 0;
    for i := 0 to |rects|
      invariant Bounds(x1, y1, x2, y2) == BoundsOf(rects[..i])
    {
      var stroke := rects[i];
      assert rects[..i + 1][..i] == rects[..i];
      if stroke.x < x1 {
        x1 := stroke.x;
      }
      if stroke.y < y1 {
        y1 := stroke.y;
      }
      if stroke.x + stroke.width > x2 {
        x2 := stroke.x + stroke.width;
      }
      if stroke.y + stroke.height > y2 {
        y2 := stroke.y + stroke.height;
      }
    }
    assert rects[..|rects|] == rects;
    b := Bounds(x1, y1, x2, y2);
  }

  /** The box contains every stroke's rectangle; each edge is the sentinel
      or an edge of some stroke; no stroke leaves it at the sentinels. */
  lemma {:induction false} BoundsOfBox(rects: seq<Rect>)
    ensures var b := BoundsOf(rects);
      && b.left <= MaxSafeInteger && b.top <= MaxSafeInteger && b.right >= 0 && b.bottom >= 0
      && (forall r :: r in rects ==> b.left <= r.x && b.top <= r.y)
      && (forall r :: r in rects ==> r.x + r.width <= b.right && r.y + r.height <= b.bottom)
      && (b.left == MaxSafeInteger || exists r :: r in rects && b.left == r.x)
      && (b.top == MaxSafeInteger || exists r :: r in rects && b.top == r.y)
      && (b.right == 0 || exists r :: r in rects && b.right == r.x + r.width)
      && (b.bottom == 0 || exists r :: r in rects && b.bottom == r.y + r.height)
  {
    if rects != [] {
      var init := rects[..|rects| - 1];
      BoundsOfBox(init);
      assert rects == init + [rects[|rects| - 1]];
    }
  }

  // ---------------------------------------------------------------------
  // The ink points of a stroke group

  /** An ink point's position. */
  datatype Position = Position(x: int, y: int)

  /** `new Point(x, y, id)` of the point-cloud recognizer. */
  datatype InkPoint = InkPoint(x: int, y: int, id: int)

  /** `stroke.getInkPoints().map((pt) => new Point(pt.position.x, pt.position.y, idx))`. */
  function TagStroke(points: seq<Position>, idx: int): (r: seq<InkPoint>)
    ensures |r| == |points|
  {
    seq(|points|, j requires 0 <= j < |points| => InkPoint(points[j].x, points[j].y, idx))
  }

  /** The tagged points of the strokes of a group, the first stroke tagged
      `first`. */
  function TaggedFrom(group: seq<seq<Position>>, first: int): seq<InkPoint> {
    Flatten(seq(|group|, k requires 0 <= k < |group| => TagStroke(group[k], first + k)))
  }

  /** The points `recognize` hands to every recognizer for one group: each
      stroke's ink points tagged with the stroke's index in the group. */
  function TaggedPoints(group: seq<seq<Position>>): seq<InkPoint> {
    TaggedFrom(group, 0)
  }

  function PositionOf(p: InkPoint): Position { Position(p.x, p.y) }

  function Positions(ps: seq<InkPoint>): (r: seq<Position>)
    ensures |r| == |ps| && forall j :: 0 <= j < |ps| ==> r[j] == PositionOf(ps[j])
  {
    seq(|ps|, j requires 0 <= j < |ps| => PositionOf(ps[j]))
  }

  lemma TaggedFromStep(group: seq<seq<Position>>, first: int)
    requires group != []
    ensures TaggedFrom(group, first) == TagStroke(group[0], first) + TaggedFrom(group[1..], first + 1)
  {
    var all := seq(|group|, k requires 0 <= k < |group| => TagStroke(group[k], first + k));
    assert all[1..] == seq(|group| - 1, k requires 0 <= k < |group| - 1 => TagStroke(group[1..][k], first + 1 + k));
  }

  lemma PositionsAppend(a: seq<InkPoint>, b: seq<InkPoint>)
    ensures Positions(a + b) == Positions(a) + Positions(b)
  {
  }

  /** Tagging keeps every point, in stroke order and in order within a
      stroke. */
  lemma {:induction false} TaggedPositions(group: seq<seq<Position>>, first: int)
    ensures Positions(TaggedFrom(group, first)) == Flatten(group)
  {
    if group != [] {
      TaggedFromStep(group, first);
      TaggedPositions(group[1..], first + 1);
      PositionsAppend(TagStroke(group[0], first), TaggedFrom(group[1..], first + 1));
      assert Positions(TagStroke(group[0], first)) == group[0];
    }
  }

  /** The tags count the strokes from `first` up: they lie below
      `first + |group|` and never decrease along the list. */
  lemma {:induction false} TaggedIds(group: seq<seq<Position>>, first: int)
    ensures forall j :: 0 <= j < |TaggedFrom(group, first)| ==>
              first <= TaggedFrom(group, first)[j].id < first + |group|
    ensures forall j, k :: 0 <= j < k < |TaggedFrom(group, first)| ==>
              TaggedFrom(group, first)[j].id <= TaggedFrom(group, first)[k].id
  {
    if group != [] {
      TaggedFromStep(group, first);
      TaggedIds(group[1..], first + 1);
    }
  }

  /** For a group, the tags are stroke indexes 0 .. |group| - 1 in order,
      and the positions are the strokes' ink points one after the other. */
  lemma TaggedPointsOfGroup(group: seq<seq<Position>>)
    ensures Positions(TaggedPoints(group)) == Flatten(group)
    ensures forall j :: 0 <= j < |TaggedPoints(group)| ==> 0 <= TaggedPoints(group)[j].id < |group|
    ensures forall j, k :: 0 <= j < k < |TaggedPoints(group)| ==> TaggedPoints(group)[j].id <= TaggedPoints(group)[k].id
  {
    TaggedPositions(group, 0);
    TaggedIds(group, 0);
  }

  // ---------------------------------------------------------------------
  // Colours

  type Byte = n: int | 0 <= n < 256

  /** The red, green and blue channels of a `Windows.UI.Color`. */
  datatype Color = Color(r: Byte, g: Byte, b: Byte)

  /** The lower-case hexadecimal digit of `d`. */
  function HexDigit(d: nat): char
    requires d < 16
  {
    if d < 10 then ('0' as int + d) as char else ('a' as int + d - 10) as char
  }

  /** `n.toString(16)`: lower-case hexadecimal without leading zeros. */
  function HexText(n: nat): (r: string)
    ensures |r| >= 1
  {
    if n < 16 then [HexDigit(n)] else HexText(n / 16) + [HexDigit(n % 16)]
  }

  /** `byteHex(num)`: the hexadecimal text, padded to two digits. */
  function ByteHex(n: Byte): (r: string)
    ensures r == [HexDigit(n / 16), HexDigit(n % 16)]
  {
    var hex := HexText(n);
    HexTextOfByte(n);
    if |hex| == 1 then "0" + hex else hex
  }

  /** `colorToCSS(color)`. */
  function ColorToCss(c: Color): (r: string)
    ensures |r| == 7 && r[0] == '#'
  {
    "#" + ByteHex(c.r) + ByteHex(c.g) + ByteHex(c.b)
  }

  predicate IsHexDigit(c: char) {
    '0' <= c <= '9' || 'a' <= c <= 'f' || 'A' <= c <= 'F'
  }

  function DigitValue(c: char): (v: nat)
    requires IsHexDigit(c)
    ensures v < 16
  {
    if '0' <= c <= '9' then c as int - '0' as int
    else if 'a' <= c <= 'f' then c as int - 'a' as int + 10
    else c as int - 'A' as int + 10
  }

  /** Length of the run of hexadecimal digits at the start of `s`. */
  function HexRunLength(s: string): (n: nat)
    ensures n <= |s|
    ensures forall i :: 0 <= i < n ==> IsHexDigit(s[i])
    ensures n < |s| ==> !IsHexDigit(s[n])
  {
    if s != [] && IsHexDigit(s[0]) then 1 + HexRunLength(s[1..]) else 0
  }

  /** The value of a run of hexadecimal digits, most significant first. */
  function HexValue(ds: string): nat
    requires forall i :: 0 <= i < |ds| ==> IsHexDigit(ds[i])
  {
    if ds == [] then 0 else HexValue(ds[..|ds| - 1]) * 16 + DigitValue(ds[|ds| - 1])
  }

  function HexPrefixValue(s: string): Option<int> {
    var n := HexRunLength(s);
    if n == 0 then None else Some(HexValue(s[..n]))
  }

  /** `parseInt(s, 16)`: leading white space skipped, an optional sign, an
      optional `0x` or `0X`, then as many hexadecimal digits as there are;
      `None` stands for `NaN`, the result when there is no digit. */
  function ParseIntHex(s: string): (r: Option<int>)
    ensures DropSpaces(s) == [] ==> r.None?
  {
    var t := DropSpaces(s);
    var negative := t != [] && t[0] == '-';
    var u := if t != [] && (t[0] == '-' || t[0] == '+') then t[1..] else t;
    var digits := if |u| >= 2 && u[0] == '0' && (u[1] == 'x' || u[1] == 'X') then u[2..] else u;
    var v := HexPrefixValue(digits);
    if v.Some? && negative then Some(-v.value) else v
  }

  /** `s.substr(start, length)` for a start and length within `s`. */
  function Substr(s: string, start: nat, length: nat): string
    requires start + length <= |s|
  {
    s[start..start + length]
  }

  /** The channels handed to `ColorHelper.fromArgb`; `None` is `NaN`. */
  datatype Argb = Argb(a: int, r: Option<int>, g: Option<int>, b: Option<int>)

  /** What `fromNameOrHex` returns: a colour of `Windows.UI.Colors`, a
      decoded colour, or gray. */
  datatype InkColor = NamedColor(name: string) | Decoded(argb: Argb) | Gray

  /** `fromNameOrHex(color)`, with `knownNames` the names under which
      `Windows.UI.Colors` has a colour. */
  function FromNameOrHex(knownNames: set<string>, color: string): (r: InkColor)
    ensures r.NamedColor? <==> ToLower(color) in knownNames
    ensures r.Decoded? ==> |color| == 7 && color[0] == '#' && r.argb.a == 255
    ensures r.Gray? <==> ToLower(color) !in knownNames && !(|color| == 7 && color[0] == '#')
  {
    if ToLower(color) in knownNames then NamedColor(ToLower(color))
    else if |color| == 7 && color[0] == '#' then
      Decoded(Argb(255, ParseIntHex(Substr(color, 1, 2)), ParseIntHex(Substr(color, 3, 2)), ParseIntHex(Substr(color, 5, 2))))
    else Gray
  }

  /** `colorToCSS` writes lower-case text, so `toLowerCase` keeps it. */
  lemma CssIsLower(c: Color)
    ensures ToLower(ColorToCss(c)) == ColorToCss(c)
  {
    var css := ColorToCss(c);
    assert forall i :: 0 <= i < 7 ==> !IsUpperAscii(css[i]);
    assert forall i :: 0 <= i < 7 ==> LowerChar(css[i]) == css[i];
  }

  lemma HexTextOfByte(n: Byte)
    ensures n < 16 ==> HexText(n) == [HexDigit(n)]
    ensures n >= 16 ==> HexText(n) == [HexDigit(n / 16), HexDigit(n % 16)]
  {
    if n >= 16 {
      assert HexText(n / 16) == [HexDigit(n / 16)];
    }
  }

  lemma DigitValueOfHexDigit(d: nat)
    requires d < 16
    ensures IsHexDigit(HexDigit(d)) && DigitValue(HexDigit(d)) == d
  {
  }

  lemma HexValueOfTwo(c0: char, c1: char)
    requires IsHexDigit(c0) && IsHexDigit(c1)
    ensures HexValue([c0, c1]) == DigitValue(c0) * 16 + DigitValue(c1)
  {
    assert [c0, c1][..1] == [c0];
    assert [c0][..0] == [];
    assert HexValue([c0]) == DigitValue(c0);
  }

  /** Two hexadecimal digits parse to their value. */
  lemma ParseTwoDigits(c0: char, c1: char)
    requires IsHexDigit(c0) && IsHexDigit(c1)
    ensures ParseIntHex([c0, c1]) == Some(DigitValue(c0) * 16 + DigitValue(c1))
  {
    var s := [c0, c1];
    assert !IsSpace(c0);
    assert DropSpaces(s) == s;
    assert HexRunLength(s) == 2 by {
      assert s[1..] == [c1];
      assert HexRunLength([c1]) == 1 by { assert [c1][1..] == []; }
    }
    assert s[..2] == s;
    HexValueOfTwo(c0, c1);
  }

  /** `byteHex` followed by `parseInt(_, 16)` gives the channel back. */
  lemma ParseByteHex(n: Byte)
    ensures ParseIntHex(ByteHex(n)) == Some(n)
  {
    var hi, lo := n / 16, n % 16;
    DigitValueOfHexDigit(hi);
    DigitValueOfHexDigit(lo);
    ParseTwoDigits(HexDigit(hi), HexDigit(lo));
    assert ParseIntHex(ByteHex(n)) == Some(hi * 16 + lo);
  }

  /** A colour written by `colorToCSS` and read back by `fromNameOrHex`
      comes back with full alpha, unless the text happens to be a colour
      name. */
  lemma ColorRoundTrip(knownNames: set<string>, c: Color)
    requires ColorToCss(c) !in knownNames
    ensures FromNameOrHex(knownNames, ColorToCss(c)) == Decoded(Argb(255, Some(c.r), Some(c.g), Some(c.b)))
  {
    var css := ColorToCss(c);
    CssIsLower(c);
    assert Substr(css, 1, 2) == ByteHex(c.r);
    assert Substr(css, 3, 2) == ByteHex(c.g);
    assert Substr(css, 5, 2) == ByteHex(c.b);
    ParseByteHex(c.r);
    ParseByteHex(c.g);
    ParseByteHex(c.b);
  }

  /** The other way round: "#" and six hexadecimal digits decode to
      channels that `colorToCSS` writes as the same text in lower case. */
  lemma HexRoundTrip(knownNames: set<string>, s: string)
    requires |s| == 7 && s[0] == '#' && forall i :: 1 <= i < 7 ==> IsHexDigit(s[i])
    requires ToLower(s) !in knownNames
    ensures FromNameOrHex(knownNames, s).Decoded?
    ensures var d := FromNameOrHex(knownNames, s).argb;
            d.r.Some? && d.g.Some? && d.b.Some?
            && 0 <= d.r.value < 256 && 0 <= d.g.value < 256 && 0 <= d.b.value < 256
            && ColorToCss(Color(d.r.value, d.g.value, d.b.value)) == ToLower(s)
  {
    var r := ChannelRoundTrip(s, 1);
    var g := ChannelRoundTrip(s, 3);
    var b := ChannelRoundTrip(s, 5);
    LowerColorText(s);
    assert ColorToCss(Color(r, g, b)) == "#" + ByteHex(r) + ByteHex(g) + ByteHex(b);
  }

  lemma LowerColorText(s: string)
    requires |s| == 7 && s[0] == '#'
    ensures ToLower(s) == "#" + [LowerChar(s[1]), LowerChar(s[2])] + [LowerChar(s[3]), LowerChar(s[4])]
                            + [LowerChar(s[5]), LowerChar(s[6])]
  {
  }

  /** One channel of `HexRoundTrip`: the two digits at `i` parse to a byte
      whose `byteHex` is those digits in lower case. */
  lemma ChannelRoundTrip(s: string, i: nat) returns (v: Byte)
    requires i + 2 <= |s| && IsHexDigit(s[i]) && IsHexDigit(s[i + 1])
    ensures ParseIntHex(Substr(s, i, 2)) == Some(v)
    ensures ByteHex(v) == [LowerChar(s[i]), LowerChar(s[i + 1])]
  {
    var c0, c1 := s[i], s[i + 1];
    assert Substr(s, i, 2) == [c0, c1];
    ParseTwoDigits(c0, c1);
    v := TwoDigitByte(c0, c1);
  }

  lemma TwoDigitByte(c0: char, c1: char) returns (v: Byte)
    requires IsHexDigit(c0) && IsHexDigit(c1)
    ensures v == DigitValue(c0) * 16 + DigitValue(c1)
    ensures ByteHex(v) == [LowerChar(c0), LowerChar(c1)]
  {
    var d0, d1 := DigitValue(c0), DigitValue(c1);
    v := d0 * 16 + d1;
    assert v / 16 == d0 && v % 16 == d1;
    LowerHexDigit(c0);
    LowerHexDigit(c1);
  }

  lemma LowerHexDigit(c: char)
    requires IsHexDigit(c)
    ensures HexDigit(DigitValue(c)) == LowerChar(c)
  {
  }
}

=== FILE: targets.dfy ===
/** Target objects: what the matchers see of a morph or of the helper
    objects built for the world. A JavaScript object is enumerated by
    `for (k in obj)` in a fixed order, each key once; the model keeps that
    order as a sequence of entries. A function-valued entry carries the
    function's source text, from which `getParamNames` recovers the formal
    parameter names. */
module Targets {
  import opened JsText

  datatype Member = Function(source: string) | Value

  datatype Entry = Entry(name: string, member: Member)

  /** Keys of a JavaScript object are unique. */
  predicate UniqueKeys(t: seq<Entry>) {
    forall i, j :: 0 <= i < j < |t| ==> t[i].name != t[j].name
  }

  type Target = t: seq<Entry> | UniqueKeys(t) witness []

  function Names(t: Target): (r: seq<string>)
    ensures |r| == |t| && forall i :: 0 <= i < |t| ==> r[i] == t[i].name
  {
    seq(|t|, i requires 0 <= i < |t| => t[i].name)
  }

  /** `obj[name]`: the member under `name`, if any. */
  function Lookup(t: Target, name: string): (r: Option<Member>)
    ensures r.None? <==> forall i :: 0 <= i < |t| ==> t[i].name != name
    ensures r.Some? ==> exists i :: 0 <= i < |t| && t[i] == Entry(name, r.value)
  {
    if t == [] then None
    else if t[0].name == name then Some(t[0].member)
    else Lookup(t[1..], name)
  }

  /** `typeof obj[name] == "function"`. */
  predicate IsFunction(t: Target, name: string) {
    Lookup(t, name).Some? && Lookup(t, name).value.Function?
  }

  /** The function-valued keys in enumeration order. */
  function FunctionKeys(t: Target): (r: seq<string>)
    ensures forall k :: k in r <==> IsFunction(t, k)
  {
    if t == [] then []
    else if t[0].member.Function? then [t[0].name] + FunctionKeys(t[1..])
    else
      assert forall k :: k != t[0].name ==> Lookup(t, k) == Lookup(t[1..], k);
      assert Lookup(t[1..], t[0].name).None?;
      FunctionKeys(t[1..])
  }

  /** `_.functions(obj)`: the function-valued keys, sorted. */
  function Functions(t: Target): (r: seq<string>)
    ensures Sorted(r)
    ensures forall k :: k in r <==> IsFunction(t, k)
  {
    var r := Sort(FunctionKeys(t));
    assert forall k :: k in r <==> k in multiset(r);
    assert forall k :: k in FunctionKeys(t) <==> k in multiset(FunctionKeys(t));
    r
  }

  // ---------------------------------------------------------------------
  // getParamNames

  /** Characters that `/([^\s,]+)/g` does not take into a token. */
  predicate IsArgumentSeparator(c: char) { IsSpace(c) || c == ',' }

  /** Length of the token at the start of `s`. */
  function TokenLength(s: string): (n: nat)
    ensures n <= |s|
    ensures forall i :: 0 <= i < n ==> !IsArgumentSeparator(s[i])
    ensures n < |s| ==> IsArgumentSeparator(s[n])
  {
    if s == [] || IsArgumentSeparator(s[0]) then 0 else 1 + TokenLength(s[1..])
  }

  /** `s.match(/([^\s,]+)/g) || []`: the maximal runs of characters that are
      neither whitespace nor commas. */
  function Tokens(s: string): (r: seq<string>)
    ensures forall k :: 0 <= k < |r| ==> r[k] != [] && IsToken(r[k])
    decreases |s|
  {
    if s == [] then []
    else if IsArgumentSeparator(s[0]) then Tokens(s[1..])
    else
      var n := TokenLength(s);
      [s[..n]] + Tokens(s[n..])
  }

  predicate IsToken(w: string) {
    forall i :: 0 <= i < |w| ==> !IsArgumentSeparator(w[i])
  }

  /** `getParamNames(func)` on the (comment-free) source text of `func`: the
      tokens between the first `(` and the first `)`. */
  function ParamNames(source: string): (r: seq<string>)
    ensures forall k :: 0 <= k < |r| ==> r[k] != [] && IsToken(r[k])
  {
    Tokens(Slice(source, IndexOf(source, '(') + 1, IndexOf(source, ')')))
  }

  /** Parameter names of a member; a value has none. */
  function MemberParamNames(m: Member): seq<string> {
    match m
    case Function(src) => ParamNames(src)
    case Value => []
  }

  lemma {:induction false} TokensAfterWord(w: string, rest: string)
    requires w != [] && IsToken(w)
    requires rest == [] || IsArgumentSeparator(rest[0])
    ensures Tokens(w + rest) == [w] + Tokens(rest)
  {
    TokenLengthOfWord(w, rest);
    assert (w + rest)[..|w|] == w && (w + rest)[|w|..] == rest;
  }

  lemma {:induction false} TokenLengthOfWord(w: string, rest: string)
    requires IsToken(w)
    requires rest == [] || IsArgumentSeparator(rest[0])
    ensures TokenLength(w + rest) == |w|
  {
    if w != [] {
      assert (w + rest)[1..] == w[1..] + rest;
      TokenLengthOfWord(w[1..], rest);
    } else {
      assert w + rest == rest;
    }
  }

  lemma {:induction false} TokensSkipSeparator(c: char, rest: string)
    requires IsArgumentSeparator(c)
    ensures Tokens([c] + rest) == Tokens(rest)
  {
    assert ([c] + rest)[1..] == rest;
  }

  /** Parameter lists written `a, b, c` are read back as `[a, b, c]`. */
  lemma {:induction false} TokensOfParameterList(names: seq<string>)
    requires forall k :: 0 <= k < |names| ==> names[k] != [] && IsToken(names[k])
    ensures Tokens(Join(names, ", ")) == names
  {
    if |names| == 1 {
      assert names[0] + [] == names[0];
      TokensAfterWord(names[0], []);
    } else if |names| > 1 {
      var rest := Join(names[1..], ", ");
      TokensOfParameterList(names[1..]);
      assert Join(names, ", ") == names[0] + (", " + rest);
      TokensAfterSeparators(names[0], rest);
      assert names == [names[0]] + names[1..];
    }
  }

  lemma TokensAfterSeparators(w: string, rest: string)
    requires w != [] && IsToken(w)
    ensures Tokens(w + (", " + rest)) == [w] + Tokens(rest)
  {
    var spaced := [' '] + rest;
    var listed := [','] + spaced;
    assert ", " + rest == listed;
    assert IsArgumentSeparator(listed[0]);
    TokensAfterWord(w, listed);
    TokensSkipSeparator(',', spaced);
    assert IsArgumentSeparator(' ');
    TokensSkipSeparator(' ', rest);
  }

  /** Argument lists written `a,b,c` are read back as `[a, b, c]`. */
  lemma {:induction false} TokensOfCommaList(names: seq<string>)
    requires forall k :: 0 <= k < |names| ==> names[k] != [] && IsToken(names[k])
    ensures Tokens(Join(names, ",")) == names
  {
    if |names| == 1 {
      assert names[0] + [] == names[0];
      TokensAfterWord(names[0], []);
    } else if |names| > 1 {
      var rest := Join(names[1..], ",");
      TokensOfCommaList(names[1..]);
      assert Join(names, ",") == names[0] + ("," + rest);
      TokensAfterWord(names[0], "," + rest);
      TokensSkipSeparator(',', rest);
      assert names == [names[0]] + names[1..];
    }
  }

  predicate NoParens(s: string) { '(' !in s && ')' !in s }

  /** `indexOf` finds a character at the end of a prefix without it. */
  lemma {:induction false} IndexOfAfter(prefix: string, c: char, rest: string)
    requires c !in prefix
    ensures IndexOf(prefix + [c] + rest, c) == |prefix|
  {
    if prefix != [] {
      assert (prefix + [c] + rest)[1..] == prefix[1..] + [c] + rest;
      IndexOfAfter(prefix[1..], c, rest);
    }
  }

  /** `getParamNames` round trip: for the source text of a function declared
      with the parameters `names`, the names come back in order. */
  lemma ParamNamesOfDeclaration(header: string, names: seq<string>, body: string)
    requires NoParens(header)
    requires forall k :: 0 <= k < |names| ==> names[k] != [] && IsToken(names[k]) && NoParens(names[k])
    ensures ParamNames(header + "(" + Join(names, ", ") + ")" + body) == names
  {
    ParameterListFacts(names);
    ParamNamesBetween(header, Join(names, ", "), body);
  }

  lemma ParameterListFacts(names: seq<string>)
    requires forall k :: 0 <= k < |names| ==> names[k] != [] && IsToken(names[k]) && NoParens(names[k])
    ensures NoParens(Join(names, ", ")) && Tokens(Join(names, ", ")) == names
  {
    assert NoParens(", ") by { assert ", " == [',', ' ']; }
    JoinNoParens(names, ", ");
    TokensOfParameterList(names);
  }

  lemma CommaListFacts(names: seq<string>)
    requires forall k :: 0 <= k < |names| ==> names[k] != [] && IsToken(names[k]) && NoParens(names[k])
    ensures NoParens(Join(names, ",")) && Tokens(Join(names, ",")) == names
  {
    assert NoParens(",") by { assert "," == [',']; }
    JoinNoParens(names, ",");
    TokensOfCommaList(names);
  }

  lemma ParamNamesBetween(header: string, list: string, body: string)
    requires NoParens(header) && NoParens(list)
    ensures ParamNames(header + "(" + list + ")" + body) == Tokens(list)
  {
    var before := header + "(" + list;
    var src := before + ")" + body;
    assert src == header + ['('] + (list + ")" + body);
    IndexOfAfter(header, '(', list + ")" + body);
    CloseAfter(header, list);
    assert src == before + [')'] + body;
    IndexOfAfter(before, ')', body);
    ParamNamesAt(src, |header|, |before|);
    assert src[..|before|] == before;
    assert before == (header + "(") + list;
    assert before[|header| + 1..] == list;
    assert src[|header| + 1..|before|] == before[|header| + 1..];
  }

  lemma CloseAfter(header: string, list: string)
    requires NoParens(header) && NoParens(list)
    ensures ')' !in header + "(" + list
  {
    assert header + "(" + list == header + ['('] + list;
  }

  /** A call text `header(list)`, with nothing after the `)`. */
  lemma ParamNamesOfCall(header: string, list: string)
    requires NoParens(header) && NoParens(list)
    ensures ParamNames(header + "(" + list + ")") == Tokens(list)
  {
    var before := header + "(" + list;
    var src := before + ")";
    assert src == header + ['('] + (list + ")");
    IndexOfAfter(header, '(', list + ")");
    CloseAfter(header, list);
    assert src == before + [')'] + [];
    IndexOfAfter(before, ')', []);
    ParamNamesAt(src, |header|, |before|);
    assert src[|header| + 1..|before|] == list;
  }

  lemma ParamNamesAt(src: string, open: nat, close: nat)
    requires open < close < |src|
    requires IndexOf(src, '(') == open && IndexOf(src, ')') == close
    ensures ParamNames(src) == Tokens(src[open + 1..close])
  {
    assert Slice(src, open + 1, close) == src[open + 1..close];
  }

  lemma {:induction false} JoinNoParens(names: seq<string>, sep: string)
    requires NoParens(sep)
    requires forall k :: 0 <= k < |names| ==> NoParens(names[k])
    ensures NoParens(Join(names, sep))
  {
    if |names| > 1 {
      JoinNoParens(names[1..], sep);
    }
  }

  /** A function declared without parameters reports none. */
  lemma NoParamNames(header: string, body: string)
    requires NoParens(header)
    ensures ParamNames(header + "()" + body) == []
  {
    var src := header + "()" + body;
    assert src == header + ['('] + (")" + body);
    IndexOfAfter(header, '(', ")" + body);
    assert src == (header + "(") + [')'] + body;
    IndexOfAfter(header + "(", ')', body);
  }
}

=== FILE: templates.dfy ===
/** The gesture templates `setupShapes` installs in the `$P` point-cloud
    recognizer. Each template is a cloud of points tagged with the stroke
    they belong to; the templates number their strokes from 1, whereas the
    stroke manager numbers a live group's strokes from 0, which the `$P`
    matcher ignores because it compares clouds point by point. */
module Templates {
  import opened JsText
  import opened Strokes

  datatype PointCloud = PointCloud(name: string, points: seq<InkPoint>)

  function P(x: int, y: int): Position { Position(x, y) }

  /** The shape of an X, drawn as two separate diagonals. */
  const DestroyStrokes: seq<seq<Position>> :=
    [[P(30, 146), P(106, 222)],
     [P(30, 225), P(106, 146)]]

  /** The shape of a C, drawn as four joined pieces. */
  const CloneStrokes: seq<seq<Position>> :=
    [[P(100, 100), P(80, 100)],
     [P(80, 100), P(70, 120), P(60, 130), P(50, 140), P(45, 150)],
     [P(45, 150), P(50, 160), P(60, 170), P(80, 180), P(90, 190)],
     [P(90, 190), P(110, 190)]]

  /** The shape of a square, drawn side by side. */
  const RectangleStrokes: seq<seq<Position>> :=
    [[P(30, 100), P(170, 100)],
     [P(170, 100), P(170, 200)],
     [P(170, 200), P(30, 200)],
     [P(30, 200), P(30, 100)]]

  /** The shape of a tick. */
  const TickmarkStrokes: seq<seq<Position>> :=
    [[P(50, 100), P(100, 150)],
     [P(100, 150), P(0, 200)]]

  const Destroy: PointCloud := PointCloud("destroy",
    [InkPoint(30, 146, 1), InkPoint(106, 222, 1),
     InkPoint(30, 225, 2), InkPoint(106, 146, 2)])

  const Clone: PointCloud := PointCloud("clone",
    [InkPoint(100, 100, 1), InkPoint(80, 100, 1),
     InkPoint(80, 100, 2), InkPoint(70, 120, 2), InkPoint(60, 130, 2), InkPoint(50, 140, 2), InkPoint(45, 150, 2),
     InkPoint(45, 150, 3), InkPoint(50, 160, 3), InkPoint(60, 170, 3), InkPoint(80, 180, 3), InkPoint(90, 190, 3),
     InkPoint(90, 190, 4), InkPoint(110, 190, 4)])

  const RectanglePoints: seq<InkPoint> :=
    [InkPoint(30, 100, 1), InkPoint(170, 100, 1),
     InkPoint(170, 100, 2), InkPoint(170, 200, 2),
     InkPoint(170, 200, 3), InkPoint(30, 200, 3),
     InkPoint(30, 200, 4), InkPoint(30, 100, 4)]

  const Rectangle: PointCloud := PointCloud("rectangle", RectanglePoints)

  const Tickmark: PointCloud := PointCloud("tickmark",
    [InkPoint(50, 100, 1), InkPoint(100, 150, 1),
     InkPoint(100, 150, 2), InkPoint(0, 200, 2)])

  /** The InkMorphic templates, in the order they are pushed. */
  const InkMorphicShapes: seq<PointCloud> := [Destroy, Clone, Rectangle, Tickmark]

  /** The js templates: no tick, and the square is named after the
      assistant command it stands for. */
  const JsShapes: seq<PointCloud> := [Destroy, Clone, PointCloud("makeRectangle", RectanglePoints)]

  /** The recognizer object whose template list `setupShapes` replaces. */
  class PointCloudRecognizer {
    var pointClouds: seq<PointCloud>

    constructor ()
      ensures pointClouds == []
    {
      pointClouds := [];
    }

    /** InkMorphic `setupShapes`. */
    method SetupShapes()
      modifies this
      ensures pointClouds == InkMorphicShapes
      ensures forall k :: 0 <= k < |pointClouds| ==> StartsAtOne(pointClouds[k])
    {
      pointClouds := [];
      pointClouds := pointClouds + [Destroy];
      pointClouds := pointClouds + [Clone];
      pointClouds := pointClouds + [Rectangle];
      pointClouds := pointClouds + [Tickmark];
      InkMorphicShapesTagged();
    }

    /** js `setupShapes`. */
    method SetupShapesJs()
      modifies this
      ensures pointClouds == JsShapes
      ensures forall k :: 0 <= k < |pointClouds| ==> StartsAtOne(pointClouds[k])
    {
      pointClouds := [];
      pointClouds := pointClouds + [Destroy];
      pointClouds := pointClouds + [Clone];
      pointClouds := pointClouds + [PointCloud("makeRectangle", RectanglePoints)];
      InkMorphicShapesTagged();
      JsShapesAreInkMorphicShapes();
    }
  }

  // ---------------------------------------------------------------------
  // Properties of the templates

  /** A cloud whose stroke ids run 1, 1, …, 2, …: the first point is in
      stroke 1 and each next point stays in its stroke or opens the next. */
  predicate StartsAtOne(c: PointCloud) {
    c.points != [] && c.points[0].id == 1
    && forall i :: 0 < i < |c.points| ==> c.points[i].id == c.points[i - 1].id || c.points[i].id == c.points[i - 1].id + 1
  }

  /** Each stroke starts where the previous one ended. */
  predicate Continuous(strokes: seq<seq<Position>>) {
    forall i :: 0 < i < |strokes| ==> JoinsPrevious(strokes, i)
  }

  /** Stroke `i` starts at the last point of stroke `i - 1`. */
  predicate JoinsPrevious(strokes: seq<seq<Position>>, i: nat)
    requires 0 < i < |strokes|
  {
    strokes[i] != [] && strokes[i - 1] != [] && strokes[i][0] == Last(strokes[i - 1])
  }

  function Last(s: seq<Position>): Position
    requires s != []
  {
    s[|s| - 1]
  }

  /** The last stroke ends where the first one started. */
  predicate Closed(strokes: seq<seq<Position>>) {
    strokes != [] && strokes[0] != [] && LastStroke(strokes) != [] && Last(LastStroke(strokes)) == strokes[0][0]
  }

  function LastStroke(strokes: seq<seq<Position>>): seq<Position>
    requires strokes != []
  {
    strokes[|strokes| - 1]
  }

  /** Tagging strokes from `first` gives ids that start at `first` and
      never skip: the shape `StartsAtOne` asks of a template. */
  lemma {:induction false} TaggedStartsAt(group: seq<seq<Position>>, name: string)
    requires group != [] && forall k :: 0 <= k < |group| ==> group[k] != []
    ensures StartsAtOne(PointCloud(name, TaggedFrom(group, 1)))
  {
    var ps := TaggedFrom(group, 1);
    TaggedFromStep(group, 1);
    assert ps[0] == TagStroke(group[0], 1)[0];
    forall i | 0 < i < |ps|
      ensures ps[i].id == ps[i - 1].id || ps[i].id == ps[i - 1].id + 1
    {
      TaggedIdsStep(group, 1, i);
    }
  }

  /** Consecutive points of a tagged group of non-empty strokes are in the
      same stroke or in neighbouring ones. */
  lemma {:induction false} TaggedIdsStep(group: seq<seq<Position>>, first: int, i: nat)
    requires forall k :: 0 <= k < |group| ==> group[k] != []
    requires 0 < i < |TaggedFrom(group, first)|
    ensures TaggedFrom(group, first)[i].id == TaggedFrom(group, first)[i - 1].id
            || TaggedFrom(group, first)[i].id == TaggedFrom(group, first)[i - 1].id + 1
    decreases |group|
  {
    TaggedFromStep(group, first);
    var head := TagStroke(group[0], first);
    var rest := TaggedFrom(group[1..], first + 1);
    assert TaggedFrom(group, first) == head + rest;
    if i < |head| {
    } else if i == |head| {
      TaggedFromStep(group[1..], first + 1);
      assert group[1..][0] == group[1];
      assert rest[0].id == first + 1;
    } else {
      TaggedIdsStep(group[1..], first + 1, i - |head|);
    }
  }

  /** Every InkMorphic template is its strokes tagged from 1. */
  lemma InkMorphicShapesTagged()
    ensures Destroy.points == TaggedFrom(DestroyStrokes, 1)
    ensures Clone.points == TaggedFrom(CloneStrokes, 1)
    ensures RectanglePoints == TaggedFrom(RectangleStrokes, 1)
    ensures Tickmark.points == TaggedFrom(TickmarkStrokes, 1)
    ensures forall k :: 0 <= k < |InkMorphicShapes| ==> StartsAtOne(InkMorphicShapes[k])
  {
    TaggedTwo(DestroyStrokes, 1);
    TaggedFour(CloneStrokes, 1);
    TaggedFour(RectangleStrokes, 1);
    TaggedTwo(TickmarkStrokes, 1);
    TaggedStartsAt(DestroyStrokes, "destroy");
    TaggedStartsAt(CloneStrokes, "clone");
    TaggedStartsAt(RectangleStrokes, "rectangle");
    TaggedStartsAt(TickmarkStrokes, "tickmark");
  }

  lemma TaggedTwo(group: seq<seq<Position>>, first: int)
    requires |group| == 2
    ensures TaggedFrom(group, first) == TagStroke(group[0], first) + TagStroke(group[1], first + 1)
  {
    TaggedFromStep(group, first);
    TaggedFromStep(group[1..], first + 1);
    assert group[1..][1..] == [];
  }

  lemma TaggedFour(group: seq<seq<Position>>, first: int)
    requires |group| == 4
    ensures TaggedFrom(group, first) == TagStroke(group[0], first) + TagStroke(group[1], first + 1)
                                        + TagStroke(group[2], first + 2) + TagStroke(group[3], first + 3)
  {
    TaggedFromStep(group, first);
    TaggedFromStep(group[1..], first + 1);
    assert group[1..][1..] == group[2..];
    TaggedTwo(group[2..], first + 2);
  }

  /** The C, the square and the tick are drawn without lifting between
      strokes; the X is not, its second diagonal starts elsewhere. */
  lemma Continuity()
    ensures Continuous(CloneStrokes) && Continuous(RectangleStrokes) && Continuous(TickmarkStrokes)
    ensures !Continuous(DestroyStrokes)
  {
    assert !JoinsPrevious(DestroyStrokes, 1);
    assert JoinsPrevious(CloneStrokes, 1) && JoinsPrevious(CloneStrokes, 2) && JoinsPrevious(CloneStrokes, 3);
    assert JoinsPrevious(RectangleStrokes, 1) && JoinsPrevious(RectangleStrokes, 2) && JoinsPrevious(RectangleStrokes, 3);
    assert JoinsPrevious(TickmarkStrokes, 1);
  }

  /** The square ends where it began; the C does not. */
  lemma SquareIsClosed()
    ensures Closed(RectangleStrokes)
    ensures PositionOf(RectanglePoints[7]) == PositionOf(RectanglePoints[0])
    ensures !Closed(CloneStrokes)
  {
  }

  /** The sizes of the templates: points, and strokes as the last id. */
  lemma TemplateSizes()
    ensures |Destroy.points| == 4 && Destroy.points[3].id == 2
    ensures |Clone.points| == 14 && Clone.points[13].id == 4
    ensures |RectanglePoints| == 8 && RectanglePoints[7].id == 4
    ensures |Tickmark.points| == 4 && Tickmark.points[3].id == 2
    ensures forall k :: 0 <= k < |InkMorphicShapes| ==> InkMorphicShapes[k].name == ["destroy", "clone", "rectangle", "tickmark"][k]
  {
  }

  /** The js templates are the first three InkMorphic ones, the square
      renamed `makeRectangle`. */
  lemma JsShapesAreInkMorphicShapes()
    ensures |JsShapes| == |InkMorphicShapes| - 1
    ensures JsShapes[..2] == InkMorphicShapes[..2]
    ensures JsShapes[2].points == InkMorphicShapes[2].points && JsShapes[2].name == "makeRectangle"
    ensures forall k :: 0 <= k < |JsShapes| ==> StartsAtOne(JsShapes[k])
  {
    InkMorphicShapesTagged();
    assert StartsAtOne(InkMorphicShapes[0]) && StartsAtOne(InkMorphicShapes[1]) && StartsAtOne(InkMorphicShapes[2]);
    assert JsShapes[2].points == InkMorphicShapes[2].points;
  }
}
